=== FILE: README.md ===
# Memento photo wall client, modelled in Dafny

This project models the client-side rules of the Memento event photo wall, written in Dafny. Participants of an event join over a reconnecting
WebSocket, send bullet comments ("danmaku") that fly across a canvas, and
upload photos to the event's Google Drive folder; a display shows the
photos as a grid or as a backend-driven slideshow.

Every rule is written as an immutable state record with pure step
functions. Browser effects are turned into explicit events (socket
open/close/message, timer fire, animation frame, touch, click). Randomness
(`Math.random`), clock readings (`Date.now`), text widths (`measureText`)
and the outcome of network I/O are parameters.

One module per source file:

- `Transport` (transport.dfy) is the reconnecting socket hook of `src/lib/websocket.ts`. It covers:
  - connect, open, message, close and timer events;
  - disconnect, send and the keep-alive ping;
  - the backoff schedule.
- `Danmaku` (danmaku.dfy) is the animator of `src/components/DanmakuCanvas.tsx`. It covers:
  - intake deduplicated by id;
  - the spawn loop capped at ten items;
  - motion and retirement.
- `PhotoQueue` (photo_queue.dfy) covers the Fisher–Yates shuffle, the playback concatenation and the new-photo filter of `tests/unit/photoQueue.test.ts`.
- `Session` (session.dfy) is `src/lib/session.ts`. It covers:
  - the UUID v4 fallback template;
  - get-or-create, clear, remember and forget over abstract storage maps.
- `FolderId` (folder_id.dfy) covers `extractDriveFolderId` and the validation gate of `handleSubmit` in `src/routes/index.tsx`.
- `DriveUpload` (drive_upload.dfy) covers the file checks, the upload precheck and the resize arithmetic of `src/lib/googleDrive.ts`.
- `PhotoUpload` (photo_upload.dfy) is the batch picker and sequential uploader of `src/components/PhotoUpload.tsx`.
- `DanmakuInput` (danmaku_input.dfy) is the comment box of `src/components/DanmakuInput.tsx`. It covers the submit rule, the cooldown and the button.
- `InfoDrawer` (info_drawer.dfy) is the three-position bottom sheet of `src/components/InfoDrawer.tsx`.
- `PhotoWall` (photo_wall.dfy) is `src/components/PhotoWall.tsx`. It covers:
  - the failed-photo filter;
  - the stable newest-first grid;
  - the slideshow cross-fade effect;
  - the empty states.
- `Base`, `JsString` and `Messages` hold shared pieces:
  - `Option`, a draw of `Math.random()`, and `Filter` with its lemmas;
  - JavaScript `trim`, `includes`, `startsWith` and `length` (counted in UTF-16 code units);
  - the wire records.

Two facts about the code shape the model:

- **Reconnect delays.** The counter is raised before the delay is computed (`src/lib/websocket.ts:112-113`), so the delays are 2, 4, 8, 16 and 30 seconds.
- **No client-side playback scheduler.** The repository has none. Only the queue helpers of `tests/unit/photoQueue.test.ts` are modelled. The display route renders the wall in slideshow mode without a current photo (`src/routes/event.$activityId_.display.tsx:181`) and has no `play_photo` case. So the slideshow there renders nothing (PhotoWall.SlideshowWithoutCurrentIsEmpty).

## Model

| member | source | states |
|---|---|---|
| Transport.Backoff | src/lib/websocket.ts:113 | the reconnect delay never exceeds the 30-second cap |
| Transport.Connect | src/lib/websocket.ts:75-83 | with the current socket open nothing changes; otherwise exactly one new socket is created, becomes current and the hook is connecting (a still-connecting socket does not prevent this); counter, timers and timer reference are untouched |
| Transport.SocketOpen | src/lib/websocket.ts:85-94 | opening a connecting socket resets the counter, marks the hook connected and writes exactly one join frame with the session id and role on that socket; any other socket changes nothing |
| Transport.SocketClose | src/lib/websocket.ts:105-120 | a live socket's close marks the hook disconnected; while attempts remain the counter rises by one and one timer with the raised counter's backoff is scheduled; a dead socket's close changes nothing |
| Transport.TimerFire | src/lib/websocket.ts:115-118 | a firing timer stops being pending; a new connecting socket becomes current iff the current one is not open; the counter keeps the value its close raised and the spent handle stays referenced; an unknown timer changes nothing |
| Transport.Disconnect | src/lib/websocket.ts:128-141 | afterwards no current socket, no timer reference, not connected or connecting, and the referenced timer is cancelled; the current socket, unless already closed, becomes closing and every other socket keeps its state; frames sent and received are untouched |
| Transport.SocketMessage | src/lib/websocket.ts:96-103 | a malformed frame is dropped; a decoded frame on an open socket is appended to what `onMessage` received and nothing else changes; on any other socket it changes nothing (the browser fires `message` only while OPEN); RunDeliveredFrom lifts this to whole runs |
| Transport.SendMessage | src/lib/websocket.ts:145-151 | a message goes out, with the hook's session id, on the current socket exactly when that socket is open, and is dropped otherwise; FramesFollowJoin shows every such frame follows its socket's join |
| Transport.PingTick | src/lib/websocket.ts:145-162 | a tick does nothing while disconnected or while the current socket is not open (the ping is dropped by `sendMessage`), and writes one ping frame on the open current socket while connected |
| Transport.StepFramesOk | src/lib/websocket.ts:85-162 | every event keeps three facts: each written frame carries the session id, each caller's message follows its socket's join, and each open socket has had its join written |
| Transport.RunFramesOk | src/lib/websocket.ts:85-162 | the same three facts hold after any sequence of events |
| Transport.FramesFollowJoin | src/lib/websocket.ts:85-151 | over any run from mount, every frame written carries the hook's session id, and a caller's message or ping goes out on a socket only after that socket's join |
| Transport.StepDelivered | src/lib/websocket.ts:96-103 | one event appends to what `onMessage` received exactly the message it brings on an open socket, and nothing otherwise |
| Transport.RunDeliveredFrom | src/lib/websocket.ts:96-103 | over any run, `onMessage` receives exactly the decodable frames that arrive on a socket open at that moment, each once, in arrival order, after what it had already received |
| Transport.OpenArrivalsAreArrivals | src/lib/websocket.ts:96-103 | the frames delivered on open sockets are among all decodable arrivals, in the same order |
| Transport.OpenFrameDelivered | src/lib/websocket.ts:96-103 | a frame decoded on an open socket is delivered, appended after everything received before |
| Transport.DeliveredAreArrivals | src/lib/websocket.ts:96-103 | over any run from mount, `onMessage` receives exactly the decodable frames that arrived on open sockets, in arrival order: none from a connecting, closing or closed socket, none malformed, none invented, none missed |
| Transport.InitialValid | src/lib/websocket.ts:61-66 | the hook's initial refs are well-formed |
| Transport.StepValid | src/lib/websocket.ts:75-162 | every event keeps the state well-formed (counter within the maximum, handles already issued) |
| Transport.RunValid | src/lib/websocket.ts:111 | after any event sequence the attempt counter never exceeds `maxReconnectAttempts` |
| Transport.ExhaustedCloseSchedulesNothing | src/lib/websocket.ts:111 | once the counter equals the maximum, a close schedules no timer and the counter stays |
| Transport.BackoffDelays | src/lib/websocket.ts:112-113 | the delays after raising the counter to 1..5 are 2000, 4000, 8000, 16000 and 30000 ms |
| Transport.BackoffSaturates | src/lib/websocket.ts:113 | from the fifth attempt on the delay is exactly the cap |
| Transport.DisconnectIdempotent | src/lib/websocket.ts:128-141 | disconnecting twice equals disconnecting once |
| Transport.CycleStep | src/lib/websocket.ts:105-118 | one failed connection cycle schedules the backoff of the raised counter and leaves the hook connecting again with no timer pending |
| Transport.RetriesIdle | src/lib/websocket.ts:111-118 | n failed cycles count exactly n attempts while attempts remain |
| Transport.RetryDelays | src/lib/websocket.ts:111-118 | consecutive failed cycles schedule Backoff(a+1), Backoff(a+2), … in order |
| Transport.DelayAt | src/lib/websocket.ts:113 | the i-th failed cycle schedules Backoff(a+i+1) |
| Transport.DefaultRetrySchedule | src/lib/websocket.ts:111-118 | from a fresh connection with five attempts, the retries wait 2000, 4000, 8000, 16000, 30000 ms and the sixth close schedules nothing |
| Transport.DisconnectThenCloseReconnects | src/lib/websocket.ts:105-119 | as written, the close event of the socket `disconnect` closed schedules a reconnect whose timer opens a new current socket |
| Transport.SocketCloseGuarded | src/lib/websocket.ts:105-120 | the corrected handler ignores a stale socket's close (no timer, no counter change) and behaves as the original for the current socket |
| Transport.GuardedCloseAfterDisconnect | src/lib/websocket.ts:128-137 | with the corrected handler no close event after disconnect schedules a timer or sets a current socket |
| Danmaku.TakeIn | src/components/DanmakuCanvas.tsx:70-73 | a message is appended to the backlog iff its id was not processed; its id is processed afterwards in either case |
| Danmaku.Intake | src/components/DanmakuCanvas.tsx:68-75 | intake only appends to the backlog and never touches active items |
| Danmaku.IntakeProcessed | src/components/DanmakuCanvas.tsx:69-73 | the processed set grows by exactly the batch's ids |
| Danmaku.IntakeAddsUnseen | src/components/DanmakuCanvas.tsx:70-71 | everything appended is from the batch and had an unseen id |
| Danmaku.IntakeEnqueuesUnseen | src/components/DanmakuCanvas.tsx:70-72 | every batch message with an unseen id reaches the backlog |
| Danmaku.NewItemPlacement | src/components/DanmakuCanvas.tsx:94-106 | a new item starts at the right edge, 50 px inside top and bottom, with speed in [2, 4), one of the four sizes and one of the eight colours, and keeps the message's id and text |
| Danmaku.Spawn | src/components/DanmakuCanvas.tsx:90-107 | the spawn loop moves messages from the backlog to the active list without losing any |
| Danmaku.SpawnShape | src/components/DanmakuCanvas.tsx:90-107 | existing items stay in front, exactly min(backlog, room under 10) messages are spawned, and the rest of the backlog stays in order |
| Danmaku.SpawnStops | src/components/DanmakuCanvas.tsx:90-93 | after spawning the backlog is empty or ten items are active, and never more than ten |
| Danmaku.SpawnFifo | src/components/DanmakuCanvas.tsx:94-98 | the i-th spawned item comes from the i-th pending message |
| Danmaku.Retire | src/components/DanmakuCanvas.tsx:110-117 | with each item measured in its own font, every survivor is still on screen |
| Danmaku.RetireIsMoveThenFilter | src/components/DanmakuCanvas.tsx:110-117 | the single pass equals moving everything and then keeping the on-screen items, in order |
| Danmaku.RetireMembership | src/components/DanmakuCanvas.tsx:115-117 | an item survives iff its moved position plus its width is not below 0 |
| Danmaku.RetireAsWritten | src/components/DanmakuCanvas.tsx:115-120 | as written, the width is measured in the font the previous item left on the context; survivors are moved input items |
| Danmaku.AsWrittenAgreesOnUniformFont | src/components/DanmakuCanvas.tsx:115-120 | when every item already uses the context's font, the written order of measuring and setting the font is harmless |
| Danmaku.AsWrittenRetiresVisibleItem | src/components/DanmakuCanvas.tsx:115 | a concrete first frame retires a 24 px item whose text still reaches into the screen |
| Danmaku.Frame | src/components/DanmakuCanvas.tsx:85-136 | a frame keeps the processed set and never takes the active count over ten |
| Danmaku.FrameAsWritten | src/components/DanmakuCanvas.tsx:85-136 | the frame as written also keeps the processed set and the cap |
| Danmaku.InitialInv | src/components/DanmakuCanvas.tsx:47-49 | the empty animator satisfies the invariant |
| Danmaku.TakeInInv | src/components/DanmakuCanvas.tsx:70-73 | taking in one message keeps ids unique across screen and backlog and all of them processed |
| Danmaku.IntakeInv | src/components/DanmakuCanvas.tsx:68-75 | a whole intake keeps the invariant, so each id is on screen or pending at most once |
| Danmaku.SpawnKeepsIds | src/components/DanmakuCanvas.tsx:94-98 | the ids on screen followed by the ids pending are the same sequence before and after spawning |
| Danmaku.RetireIds | src/components/DanmakuCanvas.tsx:110-133 | retirement introduces no id and keeps ids unique |
| Danmaku.FrameInv | src/components/DanmakuCanvas.tsx:85-136 | a frame keeps the invariant |
| Danmaku.RetiredStaysGoneIntake | src/components/DanmakuCanvas.tsx:70 | a retired id is never brought back by a later intake |
| Danmaku.RetiredStaysGoneFrame | src/components/DanmakuCanvas.tsx:85-136 | an id neither on screen nor pending does not appear after a frame |
| PhotoQueue.Swap | tests/unit/photoQueue.test.ts:11 | the two positions exchange their values and every other position is kept |
| PhotoQueue.SwapPermutes | tests/unit/photoQueue.test.ts:11 | a swap keeps the multiset |
| PhotoQueue.FisherYates | tests/unit/photoQueue.test.ts:9-12 | the reference shuffle keeps the length |
| PhotoQueue.FisherYatesPermutes | tests/unit/photoQueue.test.ts:24-32 | the reference shuffle is a permutation of its input |
| PhotoQueue.Choices | tests/unit/photoQueue.test.ts:10 | the index drawn at step i lies in [0, i] |
| PhotoQueue.ShuffleLoop | tests/unit/photoQueue.test.ts:9-12 | the in-place loop from the last index down to 1 ends in the state the reference definition describes |
| PhotoQueue.Shuffle | tests/unit/photoQueue.test.ts:7-14 | the result has the input's length and multiset, equals the reference shuffle of the drawn choices, and the empty or one-element input is returned as is |
| PhotoQueue.FisherYatesInjective | tests/unit/photoQueue.test.ts:54-68 | on a duplicate-free input, different choice sequences give different orders |
| PhotoQueue.PlaybackQueue | tests/unit/photoQueue.test.ts:122-128 | every priority photo comes first, then every regular photo, each list in its own order |
| PhotoQueue.NewPhotos | tests/unit/photoQueue.test.ts:144 | a photo is new iff it is in the list and its id was not played |
| PhotoQueue.NewPhotosAfterPlayed | tests/unit/photoQueue.test.ts:150-168 | after played photos, the newly arrived ones are exactly the new photos, in arrival order |
| Session.HexDigit | src/lib/session.ts:18 | a nibble is written as one lower-case hex digit, and 8..11 as a variant digit |
| Session.HexRoundTrip | src/lib/session.ts:18 | the written digit denotes the nibble's value |
| Session.VariantNibbleRange | src/lib/session.ts:17 | `(r & 0x3) \| 0x8` lies in 8..11 and equals 8 + r mod 4 |
| Session.Fill | src/lib/session.ts:15-19 | the template rewrite keeps the length |
| Session.FillAt | src/lib/session.ts:15-19 | an `x` becomes a hex digit, a `y` a variant digit, and every other character is kept |
| Session.FillReadsPlaceholders | src/lib/session.ts:15-16 | the rewrite reads only one random number per placeholder, in order |
| Session.TemplateDigits | src/lib/session.ts:15 | the template has 36 characters, dashes at 8, 13, 18, 23, `4` at 14, `y` at 19 and `x` elsewhere |
| Session.FilledTemplateIsUuid | tests/unit/session.test.ts:14 | every fallback id matches the UUID v4 pattern the unit test checks, whatever the random numbers |
| Session.GenerateSessionId | src/lib/session.ts:9-20 | the platform UUID is returned when available; otherwise the result has the UUID v4 shape |
| Session.SessionKey | src/lib/session.ts:27 | the key is the activity id behind an eight-character prefix |
| Session.SessionKeyInjective | src/lib/session.ts:27 | different activities never share a session key |
| Session.LastActivityKeyIsNoSessionKey | src/lib/session.ts:62 | the remembered-activity key never collides with a session key |
| Session.GetOrCreateSessionId | src/lib/session.ts:26-44 | a stored non-empty id is returned with storage unchanged; otherwise the generated id is stored under the activity's key and returned; without storage nothing is kept |
| Session.GetOrCreateReplacesFalsy | src/lib/session.ts:31-39 | a missing or empty stored id is replaced by the generated one |
| Session.GetOrCreateStable | src/lib/session.ts:26-40 | a second call returns the first call's id and changes nothing, whatever would be generated |
| Session.GetOrCreateFrame | src/lib/session.ts:38 | every other key is left untouched |
| Session.ClearSession | src/lib/session.ts:49-55 | exactly the activity's key is removed |
| Session.ClearThenGetCreates | src/lib/session.ts:49-55 | after clearing, the next get-or-create returns a newly generated id |
| Session.RememberActivity | src/lib/session.ts:60-64 | the remembered-activity key is added and no other key changes |
| Session.GetLastActivity | src/lib/session.ts:69-74 | a value is read iff storage exists and the key is present, and it is the stored value |
| Session.ForgetActivity | src/lib/session.ts:79-83 | exactly the remembered-activity key is removed |
| Session.RememberThenGet | src/lib/session.ts:60-83 | what was remembered is read back, and nothing after forgetting |
| FolderId.FindMatch | src/routes/index.tsx:26 | the result is the leftmost position where `/folders/` is followed by an id character, or none exists |
| FolderId.Capture | src/routes/index.tsx:26-27 | the captured group is a non-empty id |
| FolderId.ExtractDriveFolderId | src/routes/index.tsx:20-37 | any extracted value is a non-empty string over `[A-Za-z0-9_-]` |
| FolderId.UrlCaseMatches | src/routes/index.tsx:24-27 | input naming the Drive host yields an id iff the pattern matches somewhere in the trimmed input |
| FolderId.UrlCaseLeftmost | src/routes/index.tsx:26-27 | the id is the maximal id run after the leftmost matching `/folders/` |
| FolderId.DirectCase | src/routes/index.tsx:32-36 | other input is accepted, trimmed, iff it is an id as a whole; otherwise nothing is extracted |
| FolderId.IdIsDirect | src/routes/index.tsx:24 | an id has nothing to trim and cannot contain the Drive host |
| FolderId.ExtractIdempotent | src/routes/index.tsx:20-37 | extracting from an extracted id gives the same id |
| FolderId.BareIdAccepted | src/routes/index.tsx:32-33 | every id given on its own is accepted as is |
| FolderId.HandleSubmit | src/routes/index.tsx:46-63 | the form is rejected with the error iff no id can be extracted; otherwise the event is created with the extracted id and the trimmed title, absent when blank |
| FolderId.FolderUrl | src/routes/index.tsx:14-19 | a Drive URL of the documented shape yields the id that follows `/folders/` |
| FolderId.ExampleIdValid | src/routes/index.tsx:18 | the documented example id is an id |
| FolderId.UserFolderExample | src/routes/index.tsx:16 | the signed-in folder URL example yields its id |
| FolderId.SharedFolderExample | src/routes/index.tsx:17 | the sharing-link example with a query string yields its id |
| FolderId.BareIdExample | src/routes/index.tsx:18 | the bare example id yields itself |
| DriveUpload.AcceptedTypesAreImages | src/lib/googleDrive.ts:221 | every whitelisted type starts with `image/` |
| DriveUpload.ValidatePhotoFile | src/lib/googleDrive.ts:212-227 | a file is valid iff its type is whitelisted and its size is at most 20 MB; otherwise one of the three messages |
| DriveUpload.ValidationOrder | src/lib/googleDrive.ts:213-224 | the image check comes before the size check, which comes before the whitelist |
| DriveUpload.UploadPrecheck | src/lib/googleDrive.ts:158-174 | the upload passes its checks iff activity id and folder id are present, the type is an image type and the size is within 20 MB |
| DriveUpload.PrecheckOrder | src/lib/googleDrive.ts:158-174 | missing activity is reported before missing folder, and both before the file errors, which read as the validator's |
| DriveUpload.ValidFilePassesPrecheck | src/lib/googleDrive.ts:167-174 | a file the validator accepts passes the upload's file checks |
| DriveUpload.PrecheckSkipsWhitelist | src/lib/googleDrive.ts:167-174 | the upload itself does not enforce the format whitelist: a small BMP passes it |
| DriveUpload.UploadPhoto | src/lib/googleDrive.ts:153-207 | the upload succeeds iff the checks pass and the backend accepts, with the backend's result; every failure carries a message, except an I/O error that had none |
| DriveUpload.UploadErrorMessages | src/lib/googleDrive.ts:194-206 | once the checks pass, a refusal throws its own message, or the generic failure when it has none, and an I/O error is re-thrown with its message unchanged |
| DriveUpload.PrecheckBeforeIo | src/lib/googleDrive.ts:158-176 | a failing check is reported whatever the I/O would have done |
| DriveUpload.ResizeFits | src/lib/googleDrive.ts:43-54 | after resizing both sides are within the bound and non-negative |
| DriveUpload.ResizeKeepsAspect | src/lib/googleDrive.ts:43-54 | the aspect ratio is kept (w'·h = h'·w) |
| DriveUpload.ResizeWithinBound | src/lib/googleDrive.ts:43-54 | an image that fits is unchanged iff it fits; one that does not fit ends with a side exactly at the bound |
| DriveUpload.ResizeIdempotent | src/lib/googleDrive.ts:43-54 | resizing twice equals resizing once |
| PhotoUpload.JoinLines | src/components/PhotoUpload.tsx:87 | no lines join to the empty string, one line to itself, and more to the first line, a newline and the join of the rest |
| PhotoUpload.SplitJoinLines | src/components/PhotoUpload.tsx:87 | splitting the joined message at newlines gives back the lines, in order, when no line holds a newline |
| PhotoUpload.Picks | src/components/PhotoUpload.tsx:64-81 | every picked file is valid and carries the selection's clock reading and an index within the selection's range; PicksExactly and PicksFromFiles pin that index to the file's own position |
| PhotoUpload.PicksExactly | src/components/PhotoUpload.tsx:64-81 | a file is picked, under its own position, iff it is valid |
| PhotoUpload.PicksDistinct | src/components/PhotoUpload.tsx:74 | the ids of one selection are distinct |
| PhotoUpload.ErrorLines | src/components/PhotoUpload.tsx:66-69 | one line `name: error` per rejected file, in selection order, with the error validation gave it; no lines exactly when every file is valid |
| PhotoUpload.SelectFiles | src/components/PhotoUpload.tsx:51-101 | a selection only appends to the chosen list, never touches statuses, and never takes the list past 50 |
| PhotoUpload.SelectOutcome | src/components/PhotoUpload.tsx:56-90 | a batch past the limit is refused whole with the limit error; otherwise exactly the valid files are appended, and the error becomes the newline-joined lines of the rejected files, or none when every file is valid |
| PhotoUpload.AllInvalidChangesNothing | src/components/PhotoUpload.tsx:84-91 | when every file is invalid, neither the list nor the error changes (unless the batch was refused for size) |
| PhotoUpload.PicksFromFiles | src/components/PhotoUpload.tsx:74 | a pick's id names the position of the file it carries |
| PhotoUpload.SelectKeepsIdsDistinct | src/components/PhotoUpload.tsx:74 | ids stay unique across selections made at later times |
| PhotoUpload.RemoveFile | src/components/PhotoUpload.tsx:103-110 | exactly that id leaves the list and the status map, the kept files stay in their order, and the other statuses, the error, the busy flag and the intervals are kept |
| PhotoUpload.RemoveFromMiddle | src/components/PhotoUpload.tsx:104 | removing the one file with that id leaves the files before it followed by those after it, in order |
| PhotoUpload.RemoveIdempotent | src/components/PhotoUpload.tsx:103-110 | removing twice equals removing once |
| PhotoUpload.Cancel | src/components/PhotoUpload.tsx:214-221 | the list, the statuses and the error are emptied |
| PhotoUpload.Succeeded | src/components/PhotoUpload.tsx:227-229 | an id counts iff its status is success |
| PhotoUpload.UploadedCount | src/components/PhotoUpload.tsx:227-229 | the count is the number of files whose status is success, so never more than the number of statuses |
| PhotoUpload.PendingStatuses | src/components/PhotoUpload.tsx:119-127 | the batch starts with exactly the chosen files pending at 0% |
| PhotoUpload.Advance | src/components/PhotoUpload.tsx:143-155 | a tick sets progress to the smaller of ten more and 90, keeps phase and error, and touches no other file |
| PhotoUpload.AdvanceTimesProgress | src/components/PhotoUpload.tsx:143-155 | after n firings the progress is ten per firing from where it was, capped at 90, and the phase is unchanged |
| PhotoUpload.NineFiringsReachCeiling | src/components/PhotoUpload.tsx:143-155 | a file at 0% shows 80% after eight firings and 90% after nine |
| PhotoUpload.TickRound | src/components/PhotoUpload.tsx:143-155 | a round of ticks moves only files with a running interval and keeps progress within 90 |
| PhotoUpload.Ticks | src/components/PhotoUpload.tsx:143-155 | any number of rounds keeps progress within 90 and phases unchanged |
| PhotoUpload.StopLast | src/components/PhotoUpload.tsx:164 | the most recently started interval is the one stopped |
| PhotoUpload.StartFile | src/components/PhotoUpload.tsx:133-155 | starting a file marks its status uploading with its progress kept, starts exactly one interval for it, and changes no other status, the chosen list, the error or the busy flag |
| PhotoUpload.Settle | src/components/PhotoUpload.tsx:166-191 | a status ends as success iff the upload succeeded |
| PhotoUpload.Finish | src/components/PhotoUpload.tsx:164-191 | the corrected end of a file's upload always stops an interval |
| PhotoUpload.FinishAsWritten | src/components/PhotoUpload.tsx:164-191 | as written, a failed upload stops no interval; a successful one behaves as corrected |
| PhotoUpload.UploadOne | src/components/PhotoUpload.tsx:130-195 | one file's pass leaves the list, the busy flag and the error alone |
| PhotoUpload.RunFiles | src/components/PhotoUpload.tsx:130-195 | the loop leaves the list, the busy flag and the error alone |
| PhotoUpload.UploadAll | src/components/PhotoUpload.tsx:112-127 | nothing happens without chosen files; otherwise the form is busy with the error cleared |
| PhotoUpload.FileSettles | src/components/PhotoUpload.tsx:131-191 | one file settles by its own outcome, stops its interval and leaves other statuses alone |
| PhotoUpload.RunFilesSettles | src/components/PhotoUpload.tsx:130-195 | files are settled in order, each by its own upload's outcome, with no interval left and other statuses untouched |
| PhotoUpload.UploadAllSettles | src/components/PhotoUpload.tsx:112-195 | after the batch every chosen file is success at 100% or failure with its message, the map holds exactly the chosen files, and no interval runs |
| PhotoUpload.UploadedCountAfterBatch | src/components/PhotoUpload.tsx:227-229 | after a batch the succeeded ids are exactly those whose upload succeeded |
| PhotoUpload.SucceededAre | src/components/PhotoUpload.tsx:227-229 | in a settled map the succeeded ids are those with a successful outcome |
| PhotoUpload.CancelClears | src/components/PhotoUpload.tsx:214-229 | after a cancel an upload does nothing and nothing counts as uploaded |
| PhotoUpload.FinishBatch | src/components/PhotoUpload.tsx:197-211 | when every status of the judged map reads success (an empty map included) the batch is cleared; otherwise the form is unlocked with the results kept |
| PhotoUpload.BatchAsWritten | src/components/PhotoUpload.tsx:112-211 | without chosen files nothing happens; otherwise the batch ends unlocked with the error cleared, judged on the statuses of the click's render |
| PhotoUpload.Batch | src/components/PhotoUpload.tsx:112-211 | the corrected batch, judged on the statuses its loop produced, ends unlocked with the error cleared |
| PhotoUpload.AllSuccessIff | src/components/PhotoUpload.tsx:198-200 | in a map of exactly the settled files, every status reads success iff every upload succeeded |
| PhotoUpload.BatchKeepsFailures | src/components/PhotoUpload.tsx:197-211 | with the corrected batch the files are cleared iff every upload succeeded; otherwise they stay, each showing its own outcome, and no interval runs |
| PhotoUpload.RunAsWrittenQuiet | src/components/PhotoUpload.tsx:51-221 | from a form that is not busy and shows no status, any sequence of selections, removals, cancels, batches and interval firings keeps it so |
| PhotoUpload.EveryBatchEndsCleared | src/components/PhotoUpload.tsx:112-211 | as written, after anything the participant did, the click's render sees no status, so every batch ends with files and statuses cleared, failures included |
| PhotoUpload.FailedBatchIsCleared | src/components/PhotoUpload.tsx:179-211 | one JPEG refused with "busy" ends failed, yet the batch clears it and its message |
| PhotoUpload.AsWrittenFailureLeaksTimer | src/components/PhotoUpload.tsx:143-194 | as written, a failed file ends failed with its interval still running |
| PhotoUpload.LeakedTimerAfterFailure | src/components/PhotoUpload.tsx:143-194 | a concrete refused upload ends failed at 0% and the next tick moves it to 10% |
| DanmakuInput.RemainingCooldown | src/components/DanmakuInput.tsx:18-19 | the remaining cooldown is zero iff the cooldown has elapsed, at most the cooldown when the clock did not go back, and otherwise completes it |
| DanmakuInput.CooldownSeconds | src/components/DanmakuInput.tsx:67 | the label is the remaining time rounded up to whole seconds, at least 1 while cooling down |
| JsString.Utf16Units | src/components/DanmakuInput.tsx:27 | a character takes two UTF-16 code units exactly when it lies above U+FFFF, one otherwise |
| JsString.Utf16Length | src/components/DanmakuInput.tsx:27 | `length` is between the number of characters and twice it, and equals it iff no character lies above U+FFFF |
| JsString.Utf16Append | src/components/DanmakuInput.tsx:27 | the UTF-16 length of a concatenation is the sum of the lengths |
| JsString.Utf16Infix | src/components/DanmakuInput.tsx:24-27 | a contained string, such as the trimmed text, is never longer in UTF-16 units than its container |
| DanmakuInput.HandleSubmit | src/components/DanmakuInput.tsx:21-40 | a send happens iff the trimmed text is non-empty, at most 50 UTF-16 code units long and not cooling down; it sends the trimmed text, clears the box and restarts the cooldown; otherwise text and last send are kept |
| DanmakuInput.BlankIsIgnored | src/components/DanmakuInput.tsx:24-25 | blank text changes nothing at all |
| DanmakuInput.TooLongBeforeCooldown | src/components/DanmakuInput.tsx:27-34 | text longer than 50 UTF-16 units after trimming sets the error and sends nothing, even while cooling down |
| DanmakuInput.SentIsValid | src/components/DanmakuInput.tsx:36 | a sent comment is non-empty, at most 50 UTF-16 units long and already trimmed |
| DanmakuInput.SendsAreSpaced | src/components/DanmakuInput.tsx:32-38 | after a send whose handler read the clock at s1, whatever edits and refused submits follow, the next send needs a render at least the cooldown after s1 |
| DanmakuInput.AstralCommentRefused | src/components/DanmakuInput.tsx:27-29 | 26 emoji above U+FFFF count as 52 units and are refused with the length error |
| DanmakuInput.CappedTextNeverTooLong | src/components/DanmakuInput.tsx:27-54 | text within the input's 50-unit `maxLength` never draws the length error: a submit of it sends or changes nothing |
| DanmakuInput.Edit | src/components/DanmakuInput.tsx:48-51 | typing replaces the text and clears the error |
| DanmakuInput.ButtonMatchesSubmit | src/components/DanmakuInput.tsx:59 | a submit sends iff the button of the same render is enabled and the trimmed text is at most 50 UTF-16 units |
| InfoDrawer.TouchStart | src/components/InfoDrawer.tsx:48-52 | a touch starts dragging at its position, without moving the sheet |
| InfoDrawer.TouchMove | src/components/InfoDrawer.tsx:55-61 | outside a drag a move does nothing; during one the sheet keeps its resting position and drag start, its offset follows the finger downwards only, and a release then decides by the distance to the latest position |
| InfoDrawer.SwipeTarget | src/components/InfoDrawer.tsx:68-85 | a swipe moves at most one position, up only beyond 50 px upwards and down only beyond 50 px downwards |
| InfoDrawer.SwipeTable | src/components/InfoDrawer.tsx:71-85 | peek opens below −50 and closes above 50; open drops to peek only above 100; closed lifts to peek only below −50 |
| InfoDrawer.TouchEnd | src/components/InfoDrawer.tsx:64-86 | a release stops dragging; without a drag nothing changes |
| InfoDrawer.HeaderClick | src/components/InfoDrawer.tsx:89-97 | a header click opens a peeking sheet and returns an open or closed one to peek; the drag state is untouched |
| InfoDrawer.BackdropClick | src/components/InfoDrawer.tsx:143-147 | the backdrop exists only while open, and a click drops the sheet to peek |
| InfoDrawer.StepIsAdjacent | src/components/InfoDrawer.tsx:64-97 | no gesture moves directly between closed and open |
| InfoDrawer.RunDistance | src/components/InfoDrawer.tsx:64-97 | n gestures move the sheet at most n positions |
| InfoDrawer.ClosedToOpenNeedsTwo | src/components/InfoDrawer.tsx:71-85 | going from closed to open takes at least two gestures |
| InfoDrawer.RunSwipe | src/components/InfoDrawer.tsx:48-86 | a touch, a move and a release leave the sheet where the swipe's distance says |
| InfoDrawer.TwoSwipesOpen | src/components/InfoDrawer.tsx:81-84 | two upward swipes past 50 px open a closed sheet |
| InfoDrawer.HeaderToggles | src/components/InfoDrawer.tsx:89-97 | two header clicks return a peeking or open sheet to where it was |
| InfoDrawer.DragOffset | src/components/InfoDrawer.tsx:133-138 | the offset is never negative, zero when not dragging, and the drag distance when dragging down |
| InfoDrawer.DrawerHeight | src/components/InfoDrawer.tsx:126-130 | the sheet has zero height exactly when closed |
| PhotoWall.ValidPhotos | src/components/PhotoWall.tsx:42 | a photo is shown iff it is given and its id has not failed, and the shown photos keep the order given |
| PhotoWall.FailedNeverShown | src/components/PhotoWall.tsx:42 | no photo with a failed id is shown |
| PhotoWall.ValidPhotosMonotone | src/components/PhotoWall.tsx:42 | a larger failed set only removes further photos, keeping the order |
| PhotoWall.MarkFailed | src/components/PhotoWall.tsx:192 | a load failure adds exactly that id to the failed set |
| PhotoWall.FailAllGrows | src/components/PhotoWall.tsx:146 | after any run of failures the set is the old set plus the failed ids |
| PhotoWall.Insert | src/components/PhotoWall.tsx:184 | insertion adds exactly the one photo |
| PhotoWall.SortNewestFirst | src/components/PhotoWall.tsx:183-184 | the grid sort is a permutation of the valid photos |
| PhotoWall.InsertStable | src/components/PhotoWall.tsx:184 | insertion puts the photo in front of its same-time group and keeps that group's order |
| PhotoWall.SortIsNewestFirst | src/components/PhotoWall.tsx:183-184 | the grid is ordered by non-increasing upload time |
| PhotoWall.SortIsStable | src/components/PhotoWall.tsx:183-184 | photos uploaded at the same time keep their given order |
| PhotoWall.SortIsUnique | src/components/PhotoWall.tsx:183-184 | any newest-first ordering that keeps same-time photos in order is the grid's ordering |
| PhotoWall.RunEffect | src/components/PhotoWall.tsx:45-61 | the effect cancels the pending timer; it starts a fade (old photo kept as previous, timer for the current photo) exactly when in slideshow with a current photo of a new id |
| PhotoWall.Settle | src/components/PhotoWall.tsx:61 | after a render the effect has run for the current dependencies |
| PhotoWall.MountIsGood | src/components/PhotoWall.tsx:37-61 | the first render satisfies the wall invariant |
| PhotoWall.RenderKeepsGood | src/components/PhotoWall.tsx:45-61 | every render keeps the invariant: a timer is pending exactly when a new photo must be faded in |
| PhotoWall.TimerKeepsGood | src/components/PhotoWall.tsx:55-58 | the fade timer keeps the invariant |
| PhotoWall.CrossFade | src/components/PhotoWall.tsx:51-58 | a new photo keeps the old one on screen while fading, then shows the new one, after which re-rendering changes nothing |
| PhotoWall.NoTransitionWithoutNewPhoto | src/components/PhotoWall.tsx:46-48 | outside slideshow or without a current photo the effect starts nothing |
| PhotoWall.InterruptedFadeStays | src/components/PhotoWall.tsx:60 | losing the current photo mid-fade cancels the timer and leaves the old photo shown in transition |
| PhotoWall.SlideshowWithoutCurrentIsEmpty | src/components/PhotoWall.tsx:101-104 | a slideshow never handed a current photo shows nothing after mount and after every re-render |
| PhotoWall.ViewOf | src/components/PhotoWall.tsx:101-198 | nothing is rendered iff slideshow has neither a current nor a displayed photo; slides show the photo to show; the grid is newest first and holds exactly the valid photos |
| PhotoWall.AllFailedShowsEmptyGrid | src/components/PhotoWall.tsx:106-108 | the grid's empty state looks at all photos, so an all-failed wall renders an empty grid |
| PhotoWall.GridOrder | src/components/PhotoWall.tsx:183-184 | the grid keeps same-time valid photos in their given order |

## Left out

- WebSocket objects, `setTimeout`/`setInterval`, `requestAnimationFrame` and React effects. They become explicit events; React batching and render timing are not modelled.
- Error and open callbacks. The `onOpen`/`onClose`/`onError` callbacks and `console` logging are not modelled, and `onerror` has no state effect.
- `useWebSocket`'s `url`. It is only handed to the socket constructor, and the `reconnectInterval` option is never read by the code.
- Transport.PingTick: the 30-second period is a constant; ticks are events, not a clock.
- Danmaku canvas resize, clearing and drawing. Only the width measurement and the font the context is left with are kept. Positions and speeds are reals; float rounding is not modelled.
- Session.FillReadsPlaceholders: states the reads as one per placeholder of the template rather than the literal count of 31 draws.
- `crypto.randomUUID()`. It is a parameter; only its absence selects the fallback.
- The shuffle's input is a value, so "does not modify its input" holds by construction. The statistical test of distinct orderings is represented by FisherYatesInjective.
- FileReader, image decoding, canvas drawing, `toBlob` JPEG encoding, `FormData` and `fetch`. Their outcome is the `Transfer` parameter; preview data URLs are not kept.
- PhotoUpload.SelectFiles: a selection is applied at once, as if its readers finished before anything else happened. The limit check (`PhotoUpload.tsx:56`) reads the list of the render, while the append (`:85`) happens after the readers load. A second selection made before the first one's readers finish is therefore checked against a stale length, and the list can then grow past 50 (up to 100). The model's bound of 50 does not cover that interleaving. It also assumes the readers finish in selection order and one clock reading per selection, and leaves the input's reset out.
- The 1.5-second pause before a batch is cleared. It is not modelled as time; no control is enabled during it.
- Success and error callbacks. `onUploadSuccess`/`onUploadError` are not modelled.
- The browser's enforcement of the danmaku input's `maxLength={50}`. The browser stops typing beyond 50 UTF-16 units; the model does not assume it, and CappedTextNeverTooLong states what it would guarantee. The character counter's colour is presentation.
- InfoDrawer clipboard copy and the copied flag. This is browser I/O.
- PhotoWall lazy loading (IntersectionObserver), image prefetch, the loaded-image set and the debug overlay with `playlistInfo`. These are browser I/O or presentation.
- Photo fields. Only id, URLs and upload time are kept; `uploadedAt` is an integer, and NaN or fractional times are not modelled.
- The HTTP wrappers of `src/lib/api.ts`, navigation and the presentation-only components. They are network I/O or layout.

## Findings

| source | as written | input that shows it | evidently intended | confidence | as-written member | corrected member |
|---|---|---|---|---|---|---|
| src/lib/websocket.ts:105-119 | `onclose` acts for whichever socket closes, so the socket `disconnect()` just closed still schedules a reconnect | connect, open, `disconnect()`, then that socket's close event and its timer: a new socket becomes current | after `disconnect()` the hook stays disconnected; only the current socket's close reconnects | not executed | Transport.DisconnectThenCloseReconnects | Transport.GuardedCloseAfterDisconnect |
| src/components/DanmakuCanvas.tsx:115-120 | `measureText` runs before the item's own font is set, so the width is taken in the previous item's font (the 10 px default for the first) | a 24 px item "a" at x = −13 with speed 2 on the first frame: measured 10 px wide it is retired, though 24 px wide it still reaches 9 px into the screen | each item is measured in its own font | not executed | Danmaku.AsWrittenRetiresVisibleItem | Danmaku.Retire |
| src/components/PhotoUpload.tsx:198-211 | `allSuccess` reads `uploadStatuses` from the render in which Upload was clicked; that map is always empty then, so `every` is true and every batch is cleared after 1.5 s, and the branch that keeps the results is never taken | one JPEG refused by the backend with "busy": it ends failed, and then the file and its failure message are cleared as if it had succeeded | the batch is judged on the statuses the loop produced, so failed files stay with their messages and the form unlocks | not executed | PhotoUpload.FailedBatchIsCleared | PhotoUpload.BatchKeepsFailures |
| src/components/PhotoUpload.tsx:143-194 | `clearInterval` runs only after a successful request; a thrown error skips it, so a failed file's progress interval keeps firing | one JPEG refused by the backend with "busy": it ends failed at 0% with its interval alive, and the next tick moves it to 10% | the interval is stopped however the request ends | not executed | PhotoUpload.LeakedTimerAfterFailure | PhotoUpload.UploadAllSettles |

=== FILE: base.dfy ===
/** Small shared vocabulary: an optional value (JavaScript's `null`/`undefined`)
    and the value range of one `Math.random()` call. */
module Base {

  /** A value that may be absent: `null` or `undefined` in the source. */
  datatype Option<+T> = None | Some(value: T)

  /** One result of `Math.random()`: a real number in [0, 1). */
  type Draw = r: real | 0.0 <= r < 1.0 witness 0.0

  /** `Math.floor(r * n)` for a random draw `r`: a uniform index below `n`. */
  function PickIndex(r: Draw, n: nat): (k: nat)
    requires n > 0
    ensures k < n
  {
    var x := r * n as real;
    assert 0.0 <= x;
    assert x < n as real by {
      assert n as real - x == (1.0 - r) * n as real;
      assert (1.0 - r) * n as real > 0.0;
    }
    x.Floor
  }

  function Min(a: int, b: int): (m: int)
    ensures m <= a && m <= b && (m == a || m == b)
  {
    if a < b then a else b
  }

  function Max(a: int, b: int): (m: int)
    ensures m >= a && m >= b && (m == a || m == b)
  {
    if a < b then b else a
  }

  /** `a` is `b` with some elements left out, the rest in their order. */
  predicate Subsequence<T(==)>(a: seq<T>, b: seq<T>)
    decreases |b|
  {
    a == [] || (b != [] && ((a[0] == b[0] && Subsequence(a[1..], b[1..])) || Subsequence(a, b[1..])))
  }

  lemma {:induction false} SubsequenceOfTail<T>(a: seq<T>, b: seq<T>, x: T)
    requires Subsequence(a, b)
    ensures Subsequence(a, [x] + b)
  {
    assert ([x] + b)[1..] == b;
  }

  /** The elements of `s` that satisfy `p`, in their original order
      (`Array.prototype.filter`). */
  function Filter<T(!new)>(s: seq<T>, p: T -> bool): (r: seq<T>)
    ensures |r| <= |s|
    ensures forall x :: x in r <==> x in s && p(x)
    ensures Subsequence(r, s)
  {
    if s == [] then []
    else if p(s[0]) then
      var r := [s[0]] + Filter(s[1..], p);
      assert r[1..] == Filter(s[1..], p);
      r
    else Filter(s[1..], p)
  }

  /** Filtering keeps a sequence whose every element passes. */
  lemma {:induction false} FilterAll<T(!new)>(s: seq<T>, p: T -> bool)
    requires forall i :: 0 <= i < |s| ==> p(s[i])
    ensures Filter(s, p) == s
    decreases |s|
  {
    if s != [] {
      FilterAll(s[1..], p);
      assert [s[0]] + s[1..] == s;
    }
  }

  /** Filtering distributes over concatenation. */
  lemma {:induction false} FilterAppend<T(!new)>(a: seq<T>, b: seq<T>, p: T -> bool)
    ensures Filter(a + b, p) == Filter(a, p) + Filter(b, p)
    decreases |a|
  {
    if a != [] {
      assert (a + b)[0] == a[0] && (a + b)[1..] == a[1..] + b;
      FilterAppend(a[1..], b, p);
      if p(a[0]) {
        assert Filter(a + b, p) == [a[0]] + Filter(a[1..] + b, p);
        assert Filter(a, p) == [a[0]] + Filter(a[1..], p);
      } else {
        assert Filter(a + b, p) == Filter(a[1..] + b, p);
      }
    } else {
      assert a + b == b;
    }
  }

  /** Filtering out one failing element between passing ones leaves the
      parts around it, joined. */
  lemma FilterDropOne<T(!new)>(a: seq<T>, x: T, b: seq<T>, p: T -> bool)
    requires forall i :: 0 <= i < |a| ==> p(a[i])
    requires forall i :: 0 <= i < |b| ==> p(b[i])
    requires !p(x)
    ensures Filter(a + [x] + b, p) == a + b
  {
    FilterAll(a, p);
    FilterAll(b, p);
    assert Filter([x], p) == [] by {
      assert [x][1..] == [];
    }
    FilterAppend(a, [x], p);
    assert Filter(a + [x], p) == a;
    FilterAppend(a + [x], b, p);
  }

  /** No value occurs twice. */
  predicate Distinct<T(==)>(s: seq<T>)
  {
    forall i, j :: 0 <= i < j < |s| ==> s[i] != s[j]
  }

  lemma DistinctParts<T>(p: seq<T>, q: seq<T>)
    requires Distinct(p + q)
    ensures Distinct(p) && Distinct(q)
    ensures forall x :: x in p ==> x !in q
  {
    forall i, j | 0 <= i < j < |p| ensures p[i] != p[j] {
      assert (p + q)[i] == p[i] && (p + q)[j] == p[j];
    }
    forall i, j | 0 <= i < j < |q| ensures q[i] != q[j] {
      assert (p + q)[|p| + i] == q[i] && (p + q)[|p| + j] == q[j];
    }
    forall x | x in p ensures x !in q {
      var i :| 0 <= i < |p| && p[i] == x;
      forall j | 0 <= j < |q| ensures q[j] != x {
        assert (p + q)[|p| + j] == q[j] && (p + q)[i] == x;
      }
    }
  }

  lemma DistinctJoin<T>(p: seq<T>, q: seq<T>)
    requires Distinct(p) && Distinct(q)
    requires forall x :: x in p ==> x !in q
    ensures Distinct(p + q)
  {
    forall i, j | 0 <= i < j < |p + q| ensures (p + q)[i] != (p + q)[j] {
      if i < |p| && j >= |p| {
        assert (p + q)[i] in p && (p + q)[j] == q[j - |p|];
      } else if i >= |p| {
        assert (p + q)[i] == q[i - |p|] && (p + q)[j] == q[j - |p|];
      }
    }
  }
}

=== FILE: danmaku.dfy ===
/** The danmaku animator of src/components/DanmakuCanvas.tsx: message
    intake, and the spawn / move / retire body of one animation frame.

    `Math.random()` results are supplied by an oracle (`rng(k)` holds the
    four draws of the k-th spawn of a frame) and the canvas's
    `measureText` is an opaque width function of the text and the font
    in effect. */
module Danmaku {
  import opened Base

  const Colors: seq<string> :=
    ["#FFFFFF", "#FFD700", "#FF69B4", "#00FFFF", "#FF6347", "#7FFF00", "#FF1493", "#00FA9A"]
  const FontSizes: seq<int> := [24, 28, 32, 36]
  const BaseSpeed: real := 2.0
  const MaxConcurrent: nat := 10

  datatype Message = Message(id: string, content: string, sessionId: string, timestamp: int)

  /** One message being animated. */
  datatype Item = Item(id: string, content: string, x: real, y: real, speed: real,
                       color: string, fontSize: int)

  /** The font the canvas context holds: its initial default, or the bold
      font of some size that a drawn item set. */
  datatype Font = CanvasDefault | Bold(size: int)

  /** The four `Math.random()` calls of one spawn, in call order. */
  datatype SpawnDraws = SpawnDraws(fontSize: Draw, color: Draw, y: Draw, speed: Draw)

  /** `measureText(text).width` under a given font. */
  type Measure = (string, Font) -> real

  /** The refs of the component: active items, the pending backlog, the ids
      already taken in, and the font the context was left with. */
  datatype Animator = Animator(active: seq<Item>, backlog: seq<Message>, processed: set<string>, font: Font)

  const Initial: Animator := Animator([], [], {}, CanvasDefault)

  function ItemIds(items: seq<Item>): (ids: seq<string>)
    ensures |ids| == |items|
    ensures forall i :: 0 <= i < |items| ==> ids[i] == items[i].id
  {
    if items == [] then [] else [items[0].id] + ItemIds(items[1..])
  }

  /** The ids of pending messages, position by position. */
  function MessageIds(ms: seq<Message>): (ids: seq<string>)
    ensures |ids| == |ms|
    ensures forall i :: 0 <= i < |ms| ==> ids[i] == ms[i].id
  {
    seq(|ms|, i requires 0 <= i < |ms| => ms[i].id)
  }

  // ---------------------------------------------------------------------
  // Intake

  /** One message of the `messages` prop: appended to the backlog iff its id
      has not been seen, and its id is then marked seen. */
  function TakeIn(a: Animator, m: Message): (r: Animator)
    ensures m.id in a.processed ==> r == a
    ensures m.id !in a.processed ==> r.backlog == a.backlog + [m]
    ensures r.processed == a.processed + {m.id}
    ensures r.active == a.active && r.font == a.font
  {
    if m.id in a.processed then a
    else a.(backlog := a.backlog + [m], processed := a.processed + {m.id})
  }

  /** The effect that takes in the `messages` prop, message by message (a
      repeated id inside one batch is therefore taken once). */
  function Intake(a: Animator, messages: seq<Message>): (r: Animator)
    ensures r.active == a.active && r.font == a.font
    ensures |a.backlog| <= |r.backlog| && r.backlog[..|a.backlog|] == a.backlog
    decreases |messages|
  {
    if messages == [] then a
    else
      var next := TakeIn(a, messages[0]);
      var r := Intake(next, messages[1..]);
      assert r.backlog[..|a.backlog|] == r.backlog[..|next.backlog|][..|a.backlog|];
      r
  }

  /** After an intake every id of the batch is marked seen, and nothing else
      is. */
  lemma {:induction false} IntakeProcessed(a: Animator, messages: seq<Message>)
    ensures Intake(a, messages).processed == a.processed + set m | m in messages :: m.id
    decreases |messages|
  {
    if messages != [] {
      var next := TakeIn(a, messages[0]);
      IntakeProcessed(next, messages[1..]);
      assert forall x :: x in messages <==> x == messages[0] || x in messages[1..] by {
        assert messages == [messages[0]] + messages[1..];
      }
    }
  }

  /** An intake only appends messages of the batch whose ids had not been
      seen. */
  lemma {:induction false} IntakeAddsUnseen(a: Animator, messages: seq<Message>)
    ensures var r := Intake(a, messages);
      forall m :: m in r.backlog[|a.backlog|..] ==> m in messages && m.id !in a.processed
    decreases |messages|
  {
    if messages != [] {
      var next := TakeIn(a, messages[0]);
      var r := Intake(next, messages[1..]);
      IntakeAddsUnseen(next, messages[1..]);
      assert r.backlog[|a.backlog|..] == next.backlog[|a.backlog|..] + r.backlog[|next.backlog|..];
      forall m | m in r.backlog[|a.backlog|..]
        ensures m in messages && m.id !in a.processed
      {
        if m in next.backlog[|a.backlog|..] {
          assert next.backlog[|a.backlog|..] == [messages[0]];
        } else {
          assert m in messages[1..];
        }
      }
    }
  }

  lemma MessageIdsHas(s: seq<Message>, x: Message)
    requires x in s
    ensures x.id in MessageIds(s)
  {
    var k :| 0 <= k < |s| && s[k] == x;
    assert MessageIds(s)[k] == x.id;
  }

  /** Every message whose id had not been seen ends up in the backlog (at
      most one per id, by `IntakeInv`). */
  lemma {:induction false} IntakeEnqueuesUnseen(a: Animator, messages: seq<Message>, m: Message)
    requires m in messages && m.id !in a.processed
    ensures m.id in MessageIds(Intake(a, messages).backlog[|a.backlog|..])
    decreases |messages|
  {
    var next := TakeIn(a, messages[0]);
    var r := Intake(next, messages[1..]);
    var added := r.backlog[|a.backlog|..];
    assert added == next.backlog[|a.backlog|..] + r.backlog[|next.backlog|..];
    if messages[0].id == m.id {
      assert added[0] == messages[0];
      MessageIdsHas(added, messages[0]);
    } else {
      assert m in messages[1..];
      IntakeEnqueuesUnseen(next, messages[1..], m);
      var later := r.backlog[|next.backlog|..];
      var k :| 0 <= k < |later| && MessageIds(later)[k] == m.id;
      assert later[k] in added;
      MessageIdsHas(added, later[k]);
    }
  }

  // ---------------------------------------------------------------------
  // Spawning

  /** A new item for message `m` on a canvas of `width` x `height`: at the
      right edge, at a random height in the band that leaves 50 px at top and
      bottom, with speed 2 plus up to 2, and a random size and colour. */
  function NewItem(m: Message, width: int, height: int, d: SpawnDraws): Item
  {
    Item(m.id, m.content, width as real, d.y * (height - 100) as real + 50.0, BaseSpeed + d.speed * 2.0,
         Colors[PickIndex(d.color, |Colors|)], FontSizes[PickIndex(d.fontSize, |FontSizes|)])
  }

  /** Where a new item starts and what it looks like. The vertical bound
      holds when the canvas is taller than the two 50 px margins. */
  lemma NewItemPlacement(m: Message, width: int, height: int, d: SpawnDraws)
    ensures var it := NewItem(m, width, height, d);
      && it.id == m.id && it.content == m.content
      && it.x == width as real
      && (height > 100 ==> 50.0 <= it.y < height as real - 50.0)
      && BaseSpeed <= it.speed < BaseSpeed + 2.0
      && it.fontSize in FontSizes && it.color in Colors
  {
    var it := NewItem(m, width, height, d);
    var band := (height - 100) as real;
    assert it.y == d.y * band + 50.0;
    if height > 100 {
      assert (1.0 - d.y) * band > 0.0;
      assert band - d.y * band == (1.0 - d.y) * band;
      assert d.y * band >= 0.0;
    }
    var fi := PickIndex(d.fontSize, |FontSizes|);
    var ci := PickIndex(d.color, |Colors|);
    assert it.fontSize == FontSizes[fi] && it.color == Colors[ci];
  }

  /** How many items one frame spawns: as many pending messages as fit
      under the cap, or none when the cap is already reached. */
  function SpawnCount(active: nat, pending: nat): (n: nat)
  {
    if active >= MaxConcurrent then 0 else Min(pending, MaxConcurrent - active)
  }

  /** The spawn loop of one frame: while the backlog is non-empty and fewer
      than `MaxConcurrent` items are active, the front message becomes a new
      item at the end of the active list. `k` counts the spawns so far. */
  function Spawn(active: seq<Item>, backlog: seq<Message>, width: int, height: int,
                 rng: nat -> SpawnDraws, k: nat): (r: (seq<Item>, seq<Message>))
    ensures |active| <= |r.0| && |r.0| - |active| + |r.1| == |backlog|
    decreases |backlog|
  {
    if |backlog| > 0 && |active| < MaxConcurrent then
      var it := NewItem(backlog[0], width, height, rng(k));
      Spawn(active + [it], backlog[1..], width, height, rng, k + 1)
    else (active, backlog)
  }

  /** The spawn loop keeps the items already on screen in front, spawns
      exactly `SpawnCount` messages, and leaves the rest of the backlog in
      order. */
  lemma {:induction false} SpawnShape(active: seq<Item>, backlog: seq<Message>, width: int, height: int,
                                      rng: nat -> SpawnDraws, k: nat)
    ensures var r := Spawn(active, backlog, width, height, rng, k);
      && |r.0| - |active| == SpawnCount(|active|, |backlog|)
      && r.0[..|active|] == active
      && r.1 == backlog[|r.0| - |active|..]
    decreases |backlog|
  {
    if |backlog| > 0 && |active| < MaxConcurrent {
      var it := NewItem(backlog[0], width, height, rng(k));
      var r := Spawn(active + [it], backlog[1..], width, height, rng, k + 1);
      assert Spawn(active, backlog, width, height, rng, k) == r;
      SpawnShape(active + [it], backlog[1..], width, height, rng, k + 1);
      assert r.0[..|active|] == r.0[..|active| + 1][..|active|];
      assert r.1 == backlog[1..][|r.0| - |active| - 1..];
    } else {
      assert backlog[0..] == backlog;
    }
  }

  /** Spawning stops only when the backlog is drained or the cap is reached,
      and never takes the active list over the cap. */
  lemma SpawnStops(active: seq<Item>, backlog: seq<Message>, width: int, height: int,
                   rng: nat -> SpawnDraws, k: nat)
    ensures var r := Spawn(active, backlog, width, height, rng, k);
      && (r.1 == [] || |r.0| >= MaxConcurrent)
      && (|active| <= MaxConcurrent ==> |r.0| <= MaxConcurrent)
  {
    SpawnShape(active, backlog, width, height, rng, k);
  }

  /** Spawning takes from the front of the backlog: the i-th new item comes
      from the i-th pending message and the i-th set of draws. */
  lemma {:induction false} SpawnFifo(active: seq<Item>, backlog: seq<Message>, width: int, height: int,
                                     rng: nat -> SpawnDraws, k: nat, i: nat)
    requires i < |Spawn(active, backlog, width, height, rng, k).0| - |active|
    ensures Spawn(active, backlog, width, height, rng, k).0[|active| + i]
            == NewItem(backlog[i], width, height, rng(k + i))
    decreases |backlog|
  {
    var it := NewItem(backlog[0], width, height, rng(k));
    var next := active + [it];
    var r := Spawn(next, backlog[1..], width, height, rng, k + 1);
    assert Spawn(active, backlog, width, height, rng, k) == r;
    if i == 0 {
      SpawnShape(next, backlog[1..], width, height, rng, k + 1);
      assert r.0[|active|] == r.0[..|next|][|active|];
    } else {
      SpawnFifo(next, backlog[1..], width, height, rng, k + 1, i - 1);
    }
  }

  // ---------------------------------------------------------------------
  // Moving and retiring

  /** One frame of motion: right to left by the item's own speed. */
  function Move(it: Item): (r: Item)
    ensures r.x == it.x - it.speed
    ensures r == it.(x := r.x)
  {
    it.(x := it.x - it.speed)
  }

  /** Still (partly) on screen: the text's right end is not left of 0. */
  predicate OnScreen(it: Item, width: real)
  {
    it.x + width >= 0.0
  }

  /** Move every item, keep those whose moved position plus their width in
      their own font is on screen. */
  function Retire(items: seq<Item>, measure: Measure): (r: seq<Item>)
    ensures |r| <= |items|
    ensures forall it :: it in r ==> OnScreen(it, measure(it.content, Bold(it.fontSize)))
    decreases |items|
  {
    if items == [] then []
    else
      var it := Move(items[0]);
      var rest := Retire(items[1..], measure);
      if OnScreen(it, measure(it.content, Bold(it.fontSize))) then [it] + rest else rest
  }

  function MoveAll(items: seq<Item>): (r: seq<Item>)
    ensures |r| == |items|
    ensures forall i :: 0 <= i < |items| ==> r[i] == Move(items[i])
  {
    if items == [] then [] else [Move(items[0])] + MoveAll(items[1..])
  }

  function Visible(measure: Measure): Item -> bool
  {
    (it: Item) => OnScreen(it, measure(it.content, Bold(it.fontSize)))
  }

  /** The single pass equals "move everything, then filter": survivors keep
      their relative order, each moved by exactly its speed, and an item is
      dropped iff its moved position plus its width is below 0. */
  lemma {:induction false} RetireIsMoveThenFilter(items: seq<Item>, measure: Measure)
    ensures Retire(items, measure) == Filter(MoveAll(items), Visible(measure))
    decreases |items|
  {
    if items != [] {
      RetireIsMoveThenFilter(items[1..], measure);
      assert MoveAll(items) == [Move(items[0])] + MoveAll(items[1..]);
      assert MoveAll(items)[0] == Move(items[0]) && MoveAll(items)[1..] == MoveAll(items[1..]);
    }
  }

  /** An item survives a frame iff its moved copy is on screen under its own
      font. */
  lemma RetireMembership(items: seq<Item>, measure: Measure, it: Item)
    requires it in items
    ensures Move(it) in Retire(items, measure) <==> OnScreen(Move(it), measure(it.content, Bold(it.fontSize)))
  {
    RetireIsMoveThenFilter(items, measure);
    var i :| 0 <= i < |items| && items[i] == it;
    assert MoveAll(items)[i] == Move(it);
  }

  /** The pass as the source writes it: `measureText` runs before the item's
      own font is set, so the width is taken in the font the previously
      drawn item left on the context (the canvas default for the first). */
  function RetireAsWritten(items: seq<Item>, font: Font, measure: Measure): (r: (seq<Item>, Font))
    ensures |r.0| <= |items|
    ensures forall it :: it in r.0 ==> it in MoveAll(items)
    decreases |items|
  {
    if items == [] then ([], font)
    else
      var it := Move(items[0]);
      assert MoveAll(items) == [it] + MoveAll(items[1..]);
      if OnScreen(it, measure(it.content, font)) then
        var rest := RetireAsWritten(items[1..], Bold(it.fontSize), measure);
        ([it] + rest.0, rest.1)
      else RetireAsWritten(items[1..], font, measure)
  }

  /** When every item uses the font already on the context, measuring before
      or after setting it makes no difference. */
  lemma {:induction false} AsWrittenAgreesOnUniformFont(items: seq<Item>, size: int, measure: Measure)
    requires forall it :: it in items ==> it.fontSize == size
    ensures RetireAsWritten(items, Bold(size), measure).0 == Retire(items, measure)
    decreases |items|
  {
    if items != [] {
      assert items[0] in items;
      AsWrittenAgreesOnUniformFont(items[1..], size, measure);
    }
  }

  /** A width that grows with the font size: ten pixels per character for
      the 10 px canvas default, `size` pixels per character otherwise. */
  function ProportionalWidth(text: string, font: Font): real
  {
    match font
    case CanvasDefault => 10.0 * |text| as real
    case Bold(size) => size as real * |text| as real
  }

  /** The first frame retires a 24 px item whose text still reaches 9 px
      into the screen, because it was measured in the 10 px default font. */
  lemma AsWrittenRetiresVisibleItem()
    ensures var it := Item("a", "a", -13.0, 100.0, 2.0, "#FFFFFF", 24);
      && RetireAsWritten([it], CanvasDefault, ProportionalWidth).0 == []
      && Retire([it], ProportionalWidth) == [Move(it)]
      && Move(it).x + ProportionalWidth("a", Bold(24)) == 9.0
  {
  }

  // ---------------------------------------------------------------------
  // Frames

  /** One animation frame: spawn, then move and retire with each item's
      width measured in its own font. */
  function Frame(a: Animator, width: int, height: int, rng: nat -> SpawnDraws, measure: Measure): (r: Animator)
    ensures r.processed == a.processed && r.font == a.font
    ensures |a.active| <= MaxConcurrent ==> |r.active| <= MaxConcurrent
  {
    var spawned := Spawn(a.active, a.backlog, width, height, rng, 0);
    SpawnStops(a.active, a.backlog, width, height, rng, 0);
    a.(active := Retire(spawned.0, measure), backlog := spawned.1)
  }

  /** One animation frame as written: the retirement width is measured in
      the font the context holds, and the context keeps the last drawn
      item's font for the next frame. */
  function FrameAsWritten(a: Animator, width: int, height: int, rng: nat -> SpawnDraws,
                          measure: Measure): (r: Animator)
    ensures r.processed == a.processed
    ensures |a.active| <= MaxConcurrent ==> |r.active| <= MaxConcurrent
  {
    var spawned := Spawn(a.active, a.backlog, width, height, rng, 0);
    SpawnStops(a.active, a.backlog, width, height, rng, 0);
    var retired := RetireAsWritten(spawned.0, a.font, measure);
    a.(active := retired.0, backlog := spawned.1, font := retired.1)
  }

  // ---------------------------------------------------------------------
  // Invariant

  function AllIds(a: Animator): seq<string>
  {
    ItemIds(a.active) + MessageIds(a.backlog)
  }

  /** What every reachable animator satisfies: at most `MaxConcurrent` active
      items, every id on screen or pending was taken in, and no id is on
      screen or pending twice. */
  predicate Inv(a: Animator)
  {
    && |a.active| <= MaxConcurrent
    && (forall id :: id in AllIds(a) ==> id in a.processed)
    && Distinct(AllIds(a))
  }

  lemma InitialInv()
    ensures Inv(Initial)
  {
  }

  lemma TakeInInv(a: Animator, m: Message)
    requires Inv(a)
    ensures Inv(TakeIn(a, m))
  {
    if m.id !in a.processed {
      var r := TakeIn(a, m);
      assert MessageIds(r.backlog) == MessageIds(a.backlog) + [m.id];
      assert AllIds(r) == AllIds(a) + [m.id];
    }
  }

  lemma {:induction false} IntakeInv(a: Animator, messages: seq<Message>)
    requires Inv(a)
    ensures Inv(Intake(a, messages))
    decreases |messages|
  {
    if messages != [] {
      TakeInInv(a, messages[0]);
      IntakeInv(TakeIn(a, messages[0]), messages[1..]);
    }
  }

  /** The spawn loop moves ids from the backlog to the active list without
      changing their order. */
  lemma SpawnKeepsIds(active: seq<Item>, backlog: seq<Message>, width: int, height: int,
                      rng: nat -> SpawnDraws, k: nat)
    ensures var r := Spawn(active, backlog, width, height, rng, k);
      ItemIds(r.0) + MessageIds(r.1) == ItemIds(active) + MessageIds(backlog)
  {
    var r := Spawn(active, backlog, width, height, rng, k);
    SpawnShape(active, backlog, width, height, rng, k);
    var n := |r.0| - |active|;
    var lhs := ItemIds(r.0) + MessageIds(r.1);
    var rhs := ItemIds(active) + MessageIds(backlog);
    assert |lhs| == |rhs|;
    forall i | 0 <= i < |lhs|
      ensures lhs[i] == rhs[i]
    {
      if i < |active| {
        assert r.0[i] == active[i];
      } else if i < |r.0| {
        SpawnFifo(active, backlog, width, height, rng, k, i - |active|);
      } else {
        assert r.1[i - |r.0|] == backlog[n + i - |r.0|];
      }
    }
  }

  lemma {:induction false} RetireIds(items: seq<Item>, measure: Measure)
    ensures forall id :: id in ItemIds(Retire(items, measure)) ==> id in ItemIds(items)
    ensures Distinct(ItemIds(items)) ==> Distinct(ItemIds(Retire(items, measure)))
    decreases |items|
  {
    if items != [] {
      RetireIds(items[1..], measure);
      var rest := Retire(items[1..], measure);
      assert ItemIds(items) == [items[0].id] + ItemIds(items[1..]);
      if OnScreen(Move(items[0]), measure(items[0].content, Bold(items[0].fontSize))) {
        assert Retire(items, measure) == [Move(items[0])] + rest;
        assert ItemIds(Retire(items, measure)) == [items[0].id] + ItemIds(rest);
        if Distinct(ItemIds(items)) {
          assert Distinct(ItemIds(items[1..]));
          assert items[0].id !in ItemIds(items[1..]);
        }
      }
    }
  }

  lemma FrameInv(a: Animator, width: int, height: int, rng: nat -> SpawnDraws, measure: Measure)
    requires Inv(a)
    ensures Inv(Frame(a, width, height, rng, measure))
  {
    var s := Spawn(a.active, a.backlog, width, height, rng, 0);
    var r := Frame(a, width, height, rng, measure);
    assert r.active == Retire(s.0, measure) && r.backlog == s.1;
    SpawnKeepsIds(a.active, a.backlog, width, height, rng, 0);
    var p, q := ItemIds(s.0), MessageIds(s.1);
    assert p + q == AllIds(a);
    DistinctParts(p, q);
    RetireIds(s.0, measure);
    var p' := ItemIds(r.active);
    DistinctJoin(p', q);
    assert AllIds(r) == p' + q;
    forall id | id in AllIds(r)
      ensures id in r.processed
    {
      assert id in p' || id in q;
      assert id in p + q;
    }
  }

  /** Once an id has been taken in and is neither on screen nor pending (it
      was retired), no later intake brings it back. */
  lemma {:induction false} RetiredStaysGoneIntake(a: Animator, id: string, messages: seq<Message>)
    requires id in a.processed && id !in AllIds(a)
    ensures id !in AllIds(Intake(a, messages))
    decreases |messages|
  {
    if messages != [] {
      var m := messages[0];
      var next := TakeIn(a, m);
      if m.id !in a.processed {
        assert MessageIds(next.backlog) == MessageIds(a.backlog) + [m.id];
        assert AllIds(next) == AllIds(a) + [m.id];
      }
      RetiredStaysGoneIntake(next, id, messages[1..]);
    }
  }

  /** ... and no later frame brings it back either. */
  lemma RetiredStaysGoneFrame(a: Animator, id: string,
                              width: int, height: int, rng: nat -> SpawnDraws, measure: Measure)
    requires id !in AllIds(a)
    ensures id !in AllIds(Frame(a, width, height, rng, measure))
  {
    var s := Spawn(a.active, a.backlog, width, height, rng, 0);
    var r := Frame(a, width, height, rng, measure);
    assert r.active == Retire(s.0, measure) && r.backlog == s.1;
    SpawnKeepsIds(a.active, a.backlog, width, height, rng, 0);
    RetireIds(s.0, measure);
    assert AllIds(r) == ItemIds(r.active) + MessageIds(s.1);
    assert ItemIds(s.0) + MessageIds(s.1) == AllIds(a);
  }
}

=== FILE: danmaku_input.dfy ===
/** The bullet-comment input box (src/components/DanmakuInput.tsx): a
    submit rule with a length limit and a cooldown between sends, and the
    send button's enablement. Clock readings are parameters: `renderNow` is
    the reading taken when the component last rendered (the cooldown flag is
    computed then), `submitNow` the one taken inside the submit handler. */
module DanmakuInput {
  import opened Base
  import opened JsString

  const DefaultCooldownMs: nat := 2000

  /** The longest comment, in UTF-16 code units (`string.length`), both
      for the submit check and for the input's `maxLength`. */
  const MaxLength: nat := 50

  const TooLongError := "彈幕長度不可超過 50 字元"

  datatype InputState = InputState(content: string, lastSent: int, error: Option<string>)

  /** Empty box, never sent (the last send is at time 0), no error. */
  const Initial := InputState("", 0, None)

  /** `Math.max(0, cooldown - (now - lastSent))`. */
  function RemainingCooldown(cooldown: nat, lastSent: int, now: int): (r: nat)
    ensures r == 0 <==> now - lastSent >= cooldown
    ensures now >= lastSent ==> r <= cooldown
    ensures r > 0 ==> now - lastSent + r == cooldown
  {
    Max(0, cooldown - (now - lastSent))
  }

  predicate CoolingDown(cooldown: nat, lastSent: int, now: int)
  {
    RemainingCooldown(cooldown, lastSent, now) > 0
  }

  /** The button's label while cooling down: whole seconds left, rounded
      up (`Math.ceil(remaining / 1000)`). */
  function CooldownSeconds(remaining: nat): (s: nat)
    ensures remaining > 0 ==> s >= 1
    ensures (s - 1) * 1000 < remaining <= s * 1000 || (remaining == 0 && s == 0)
  {
    (remaining + 999) / 1000
  }

  /** What a submit does to the state, and the text handed to `onSend`, if
      any. */
  datatype Submitted = Submitted(state: InputState, sent: Option<string>)

  /** `handleSubmit`: nothing for blank text; the length error for text
      longer than the limit after trimming, even while cooling down;
      nothing while cooling down; otherwise the trimmed text is sent, the
      box cleared and the cooldown restarted. */
  function HandleSubmit(st: InputState, cooldown: nat, renderNow: int, submitNow: int): (r: Submitted)
    ensures r.sent.Some? <==> (Trim(st.content) != "" && Utf16Length(Trim(st.content)) <= MaxLength
                               && !CoolingDown(cooldown, st.lastSent, renderNow))
    ensures r.sent.Some? ==> r.sent.value == Trim(st.content) && r.state == InputState("", submitNow, None)
    ensures r.sent.None? ==> r.state.content == st.content && r.state.lastSent == st.lastSent
  {
    var trimmed := Trim(st.content);
    if trimmed == "" then Submitted(st, None)
    else if Utf16Length(trimmed) > MaxLength then Submitted(st.(error := Some(TooLongError)), None)
    else if CoolingDown(cooldown, st.lastSent, renderNow) then Submitted(st, None)
    else Submitted(InputState("", submitNow, None), Some(trimmed))
  }

  /** Blank text changes nothing at all, whatever the clocks say. */
  lemma BlankIsIgnored(st: InputState, cooldown: nat, renderNow: int, submitNow: int)
    requires AllWhitespace(st.content)
    ensures HandleSubmit(st, cooldown, renderNow, submitNow) == Submitted(st, None)
  {
    TrimEmptyIff(st.content);
  }

  /** Overlong text is reported whether or not the cooldown is running: the
      length check comes first. */
  lemma TooLongBeforeCooldown(st: InputState, cooldown: nat, renderNow: int, submitNow: int)
    requires Utf16Length(Trim(st.content)) > MaxLength
    ensures HandleSubmit(st, cooldown, renderNow, submitNow)
            == Submitted(st.(error := Some(TooLongError)), None)
  {
  }

  /** A sent comment is never blank, never longer than 50 UTF-16 units,
      and has nothing left to trim. */
  lemma SentIsValid(st: InputState, cooldown: nat, renderNow: int, submitNow: int)
    requires HandleSubmit(st, cooldown, renderNow, submitNow).sent.Some?
    ensures var text := HandleSubmit(st, cooldown, renderNow, submitNow).sent.value;
      0 < |text| && Utf16Length(text) <= MaxLength && Trim(text) == text
  {
    TrimIdempotent(st.content);
  }

  /** Sends are spaced by the cooldown: after a send whose handler read the
      clock at `s1`, the next send needs a render at least `cooldown` after
      `s1`. `next` is any later state that kept the time of the last send,
      as every edit (Edit) and every refused submit (HandleSubmit) does. */
  lemma SendsAreSpaced(st: InputState, cooldown: nat, r1: int, s1: int, next: InputState, r2: int, s2: int)
    requires HandleSubmit(st, cooldown, r1, s1).sent.Some?
    requires next.lastSent == HandleSubmit(st, cooldown, r1, s1).state.lastSent
    requires HandleSubmit(next, cooldown, r2, s2).sent.Some?
    ensures r2 >= s1 + cooldown
  {
  }

  /** The length is counted in UTF-16 units: 26 emoji from outside the
      Basic Multilingual Plane are 52 units, so they are refused with the
      length error although they are only 26 characters. */
  lemma AstralCommentRefused(st: InputState, cooldown: nat, renderNow: int, submitNow: int)
    requires |st.content| == 26
    requires forall i :: 0 <= i < |st.content| ==> st.content[i] == '\U{1F600}'
    ensures HandleSubmit(st, cooldown, renderNow, submitNow) == Submitted(st.(error := Some(TooLongError)), None)
  {
    var text := st.content;
    assert !IsWhitespace(text[0]) && !IsWhitespace(text[|text| - 1]);
    TrimOfTrimmed(text);
    AllAstral(text);
  }

  lemma {:induction false} AllAstral(s: string)
    requires forall i :: 0 <= i < |s| ==> s[i] == '\U{1F600}'
    ensures Utf16Length(s) == 2 * |s|
    decreases |s|
  {
    if s != [] {
      AllAstral(s[1..]);
    }
  }

  /** Text the input's `maxLength` let through is never refused as too
      long: a submit of it either sends or changes nothing at all. */
  lemma CappedTextNeverTooLong(st: InputState, cooldown: nat, renderNow: int, submitNow: int)
    requires Utf16Length(st.content) <= MaxLength
    ensures HandleSubmit(st, cooldown, renderNow, submitNow).sent.None? ==>
      HandleSubmit(st, cooldown, renderNow, submitNow).state == st
  {
    Utf16Infix(st.content, Trim(st.content));
  }

  /** Typing replaces the text and clears any error. */
  function Edit(st: InputState, value: string): (r: InputState)
    ensures r.content == value && r.error == None && r.lastSent == st.lastSent
  {
    st.(content := value, error := None)
  }

  /** The send button is disabled when the box is disabled, the text is
      blank, or the cooldown is running. */
  predicate SendDisabled(disabled: bool, content: string, cooldown: nat, lastSent: int, now: int)
  {
    disabled || Trim(content) == "" || CoolingDown(cooldown, lastSent, now)
  }

  /** The button agrees with the submit rule: whenever a submit would send,
      the button of the same render is enabled, and an enabled button sends
      unless the text is too long. */
  lemma ButtonMatchesSubmit(st: InputState, cooldown: nat, renderNow: int, submitNow: int)
    ensures HandleSubmit(st, cooldown, renderNow, submitNow).sent.Some?
            <==> !SendDisabled(false, st.content, cooldown, st.lastSent, renderNow)
                 && Utf16Length(Trim(st.content)) <= MaxLength
  {
  }
}

=== FILE: drive_upload.dfy ===
/** Client-side checks and image scaling done before a photo goes to the
    backend's Drive upload endpoint (src/lib/googleDrive.ts). File reading,
    image decoding, JPEG encoding and the HTTP request are outside the
    model; their outcome is a parameter. */
module DriveUpload {
  import opened Base
  import opened JsString

  /** 20 MB, the largest accepted file. */
  const MaxFileSize: nat := 20 * 1024 * 1024

  /** The longest side a compressed image may have. */
  const DefaultMaxSide: real := 1920.0

  const ImagePrefix := "image/"

  /** The four accepted MIME types, in the source's order. */
  const AcceptedTypes: seq<string> := ["image/jpeg", "image/png", "image/gif", "image/webp"]

  const NotImageError := "只能上傳圖片檔案"
  const TooLargeError := "圖片檔案不得超過 20MB"
  const FormatError := "只支援 JPEG, PNG, GIF, WebP 格式"
  const MissingActivityError := "Activity ID is required for photo upload"
  const MissingFolderError := "Folder ID is required for photo upload"
  const UploadFailedError := "照片上傳失敗"

  /** What the browser reports about a chosen file. */
  datatype FileInfo = FileInfo(name: string, mimeType: string, size: nat)

  /** The result of `validatePhotoFile`. */
  datatype Validation = Valid | Invalid(error: string)

  /** Every accepted type is an image type, so the prefix check never
      rejects a file the whitelist would accept. */
  lemma AcceptedTypesAreImages()
    ensures forall t :: t in AcceptedTypes ==> StartsWith(t, ImagePrefix)
  {
    assert StartsWith(AcceptedTypes[0], ImagePrefix);
    assert StartsWith(AcceptedTypes[1], ImagePrefix);
    assert StartsWith(AcceptedTypes[2], ImagePrefix);
    assert StartsWith(AcceptedTypes[3], ImagePrefix);
  }

  /** `validatePhotoFile`: the image-type check, then the size check, then
      the format whitelist; the first failing check names the error. */
  function ValidatePhotoFile(f: FileInfo): (r: Validation)
    ensures r.Valid? <==> f.mimeType in AcceptedTypes && f.size <= MaxFileSize
    ensures r.Invalid? ==> r.error in {NotImageError, TooLargeError, FormatError}
  {
    AcceptedTypesAreImages();
    if !StartsWith(f.mimeType, ImagePrefix) then Invalid(NotImageError)
    else if f.size > MaxFileSize then Invalid(TooLargeError)
    else if f.mimeType !in AcceptedTypes then Invalid(FormatError)
    else Valid
  }

  /** The checks run in order: a non-image type is reported as such however
      large the file, and an oversized image is reported as oversized
      whatever its format. */
  lemma ValidationOrder(f: FileInfo)
    ensures !StartsWith(f.mimeType, ImagePrefix) ==> ValidatePhotoFile(f) == Invalid(NotImageError)
    ensures StartsWith(f.mimeType, ImagePrefix) && f.size > MaxFileSize
            ==> ValidatePhotoFile(f) == Invalid(TooLargeError)
    ensures f.size <= MaxFileSize && StartsWith(f.mimeType, ImagePrefix) && f.mimeType !in AcceptedTypes
            ==> ValidatePhotoFile(f) == Invalid(FormatError)
  {
  }

  /** The arguments of `uploadPhotoToGoogleDrive`; a missing folder id is
      `None`. */
  datatype UploadRequest = UploadRequest(file: FileInfo, activityId: string, folderId: Option<string>)

  /** `!folderId` in the source: absent or empty. */
  predicate HasFolder(folderId: Option<string>)
  {
    folderId.Some? && folderId.value != ""
  }

  /** The checks `uploadPhotoToGoogleDrive` makes before any I/O; `Some`
      holds the error it throws. */
  function UploadPrecheck(req: UploadRequest): (r: Option<string>)
    ensures r == None <==> (req.activityId != "" && HasFolder(req.folderId)
                            && StartsWith(req.file.mimeType, ImagePrefix) && req.file.size <= MaxFileSize)
  {
    if req.activityId == "" then Some(MissingActivityError)
    else if !HasFolder(req.folderId) then Some(MissingFolderError)
    else if !StartsWith(req.file.mimeType, ImagePrefix) then Some(NotImageError)
    else if req.file.size > MaxFileSize then Some(TooLargeError)
    else None
  }

  /** The precheck reports the missing activity id before the missing folder,
      and both before anything about the file. */
  lemma PrecheckOrder(req: UploadRequest)
    ensures req.activityId == "" ==> UploadPrecheck(req) == Some(MissingActivityError)
    ensures req.activityId != "" && !HasFolder(req.folderId)
            ==> UploadPrecheck(req) == Some(MissingFolderError)
    ensures req.activityId != "" && HasFolder(req.folderId) && UploadPrecheck(req).Some?
            ==> UploadPrecheck(req) == Some(ValidatePhotoFile(req.file).error)
  {
  }

  /** A file `validatePhotoFile` accepts passes the upload's own file checks;
      the upload does not re-check the format whitelist. */
  lemma ValidFilePassesPrecheck(req: UploadRequest)
    requires ValidatePhotoFile(req.file).Valid?
    requires req.activityId != "" && HasFolder(req.folderId)
    ensures UploadPrecheck(req) == None
  {
    AcceptedTypesAreImages();
  }

  /** ... but not conversely: a BMP under the size limit reaches the
      backend when uploaded directly. */
  lemma PrecheckSkipsWhitelist()
    ensures var f := FileInfo("a.bmp", "image/bmp", 1);
      UploadPrecheck(UploadRequest(f, "a", Some("f"))) == None && ValidatePhotoFile(f) == Invalid(FormatError)
  {
    var f := FileInfo("a.bmp", "image/bmp", 1);
    assert StartsWith(f.mimeType, ImagePrefix);
    assert f.mimeType != AcceptedTypes[0] by { assert f.mimeType[6] != AcceptedTypes[0][6]; }
    assert f.mimeType != AcceptedTypes[1] by { assert f.mimeType[6] != AcceptedTypes[1][6]; }
    assert f.mimeType != AcceptedTypes[2] by { assert f.mimeType[6] != AcceptedTypes[2][6]; }
    assert f.mimeType != AcceptedTypes[3] by { assert f.mimeType[6] != AcceptedTypes[3][6]; }
  }

  /** What the backend reports for the uploaded photo. */
  datatype UploadResult = UploadResult(driveFileId: string, thumbnailUrl: string, fullUrl: string,
                                       width: Option<int>, height: Option<int>)

  /** How the I/O after the precheck ends: reading, decoding or compressing
      the image failed with a message, the backend refused with the message
      of its JSON body (possibly empty), or it accepted. */
  datatype Transfer = IoFailed(message: string) | Refused(message: string) | Accepted(result: UploadResult)

  datatype Uploaded = Uploaded(result: UploadResult) | UploadError(message: string)

  /** `uploadPhotoToGoogleDrive` with the I/O's outcome as a parameter. */
  function UploadPhoto(req: UploadRequest, transfer: Transfer): (r: Uploaded)
    ensures r.Uploaded? <==> UploadPrecheck(req) == None && transfer.Accepted?
    ensures r.Uploaded? ==> r.result == transfer.result
    ensures r.UploadError? ==> (r.message != ""
                                || (UploadPrecheck(req) == None && transfer.IoFailed? && transfer.message == ""))
  {
    match UploadPrecheck(req)
    case Some(e) => UploadError(e)
    case None =>
      match transfer
      case IoFailed(m) => UploadError(m)
      case Refused(m) => UploadError(if m == "" then UploadFailedError else m)
      case Accepted(res) => Uploaded(res)
  }

  /** Once the precheck passes, the thrown message is the transfer's own:
      a refusal's message, or the generic failure when it has none, and an
      I/O error's message unchanged. */
  lemma UploadErrorMessages(req: UploadRequest, m: string)
    requires UploadPrecheck(req) == None
    ensures UploadPhoto(req, Refused("")) == UploadError(UploadFailedError)
    ensures m != "" ==> UploadPhoto(req, Refused(m)) == UploadError(m)
    ensures UploadPhoto(req, IoFailed(m)) == UploadError(m)
  {
  }

  /** A precheck failure is reported whatever the I/O would have done: the
      check happens before any of it. */
  lemma PrecheckBeforeIo(req: UploadRequest, t1: Transfer, t2: Transfer)
    requires UploadPrecheck(req).Some?
    ensures UploadPhoto(req, t1) == UploadPhoto(req, t2) == UploadError(UploadPrecheck(req).value)
  {
  }

  /** The dimensions `compressImage` draws at: the longer side (the height
      on a tie) is scaled down to `maxSide` when it exceeds it, and the
      other side in proportion. */
  function Resize(width: real, height: real, maxSide: real): (r: (real, real))
    requires width >= 0.0 && height >= 0.0 && maxSide > 0.0
  {
    if width > height then
      if width > maxSide then (maxSide, height * maxSide / width)
      else (width, height)
    else
      if height > maxSide then (width * maxSide / height, maxSide)
      else (width, height)
  }

  /** Both sides fit after resizing, and neither becomes negative. */
  lemma ResizeFits(width: real, height: real, maxSide: real)
    requires width >= 0.0 && height >= 0.0 && maxSide > 0.0
    ensures var (w, h) := Resize(width, height, maxSide);
      0.0 <= w <= maxSide && 0.0 <= h <= maxSide
  {
    if width > height && width > maxSide {
      ScaledBelow(height, width, maxSide);
    } else if width <= height && height > maxSide {
      ScaledBelow(width, height, maxSide);
    }
  }

  /** `short * maxSide / long` stays below `maxSide` when `short <= long`. */
  lemma ScaledBelow(short: real, long: real, maxSide: real)
    requires 0.0 <= short <= long && long > 0.0 && maxSide > 0.0
    ensures 0.0 <= short * maxSide / long <= maxSide
  {
    var q := short * maxSide / long;
    assert q * long == short * maxSide;
    assert short * maxSide <= long * maxSide;
  }

  /** The aspect ratio is kept: the sides stay in the same proportion. */
  lemma ResizeKeepsAspect(width: real, height: real, maxSide: real)
    requires width >= 0.0 && height >= 0.0 && maxSide > 0.0
    ensures var (w, h) := Resize(width, height, maxSide);
      w * height == h * width
  {
    if width > height && width > maxSide {
      var h := height * maxSide / width;
      assert h * width == height * maxSide;
    } else if width <= height && height > maxSide {
      var w := width * maxSide / height;
      assert w * height == width * maxSide;
    }
  }

  /** An image that already fits is left as it is; one that does not fit
      ends with its longer side exactly at the bound. */
  lemma ResizeWithinBound(width: real, height: real, maxSide: real)
    requires width >= 0.0 && height >= 0.0 && maxSide > 0.0
    ensures width <= maxSide && height <= maxSide <==> Resize(width, height, maxSide) == (width, height)
    ensures (width > maxSide || height > maxSide)
            ==> (Resize(width, height, maxSide).0 == maxSide || Resize(width, height, maxSide).1 == maxSide)
  {
  }

  /** Resizing twice is resizing once. */
  lemma ResizeIdempotent(width: real, height: real, maxSide: real)
    requires width >= 0.0 && height >= 0.0 && maxSide > 0.0
    ensures var (w, h) := Resize(width, height, maxSide);
      Resize(w, h, maxSide) == (w, h)
  {
    ResizeFits(width, height, maxSide);
    var (w, h) := Resize(width, height, maxSide);
    ResizeWithinBound(w, h, maxSide);
  }
}

=== FILE: folder_id.dfy ===
/** The Google Drive folder-id extractor of src/routes/index.tsx and the
    validation gate of the home page's submit handler. */
module FolderId {
  import opened Base
  import opened JsString

  /** The text whose presence makes the input count as a Drive URL. */
  const DriveHost: string := "drive.google.com"

  /** The literal part of the pattern `/\/folders\/([a-zA-Z0-9_-]+)/`. */
  const FoldersPath: string := "/folders/"

  /** The error shown when no folder id can be extracted. */
  const InvalidFolderError: string := "請輸入有效的 Google Drive 資料夾 ID 或連結"

  /** `[a-zA-Z0-9_-]`. */
  predicate IsIdChar(c: char)
  {
    'a' <= c <= 'z' || 'A' <= c <= 'Z' || '0' <= c <= '9' || c == '_' || c == '-'
  }

  /** `/^[a-zA-Z0-9_-]+$/`. */
  predicate IsId(s: string)
  {
    |s| > 0 && forall i :: 0 <= i < |s| ==> IsIdChar(s[i])
  }

  /** The length of the longest run of id characters starting at `start`:
      the greedy `+` of the capture group. */
  function RunLength(s: string, start: nat): (n: nat)
    requires start <= |s|
    ensures start + n <= |s|
    ensures forall k :: start <= k < start + n ==> IsIdChar(s[k])
    ensures start + n == |s| || !IsIdChar(s[start + n])
    decreases |s| - start
  {
    if start < |s| && IsIdChar(s[start]) then 1 + RunLength(s, start + 1) else 0
  }

  /** The pattern matches at `i`: `/folders/` there, followed by at least one
      id character. */
  predicate MatchAt(s: string, i: nat)
  {
    OccursAt(s, FoldersPath, i) && i + |FoldersPath| < |s| && IsIdChar(s[i + |FoldersPath|])
  }

  /** The leftmost match at or after `from`, as `String.prototype.match`
      scans for it. */
  function FindMatch(s: string, from: nat): (r: Option<nat>)
    ensures r.Some? ==> from <= r.value && MatchAt(s, r.value)
    ensures r.Some? ==> forall j :: from <= j < r.value ==> !MatchAt(s, j)
    ensures r.None? ==> forall j :: from <= j ==> !MatchAt(s, j)
    decreases |s| - from
  {
    if from + |FoldersPath| >= |s| then None
    else if MatchAt(s, from) then Some(from)
    else FindMatch(s, from + 1)
  }

  /** The capture group of a match at `i`. */
  function Capture(s: string, i: nat): (id: string)
    requires MatchAt(s, i)
    ensures IsId(id)
  {
    var start := i + |FoldersPath|;
    s[start..start + RunLength(s, start)]
  }

  /** `i` is the leftmost position where the pattern matches. */
  predicate Leftmost(s: string, i: nat)
  {
    MatchAt(s, i) && forall j :: 0 <= j < i ==> !MatchAt(s, j)
  }

  /** `extractDriveFolderId(input)`: trim; a Drive URL yields the capture of
      the leftmost `/folders/<id>` (or nothing); any other input must be an
      id as a whole. */
  function ExtractDriveFolderId(input: string): (r: Option<string>)
    ensures r.Some? ==> IsId(r.value)
  {
    var t := Trim(input);
    if Contains(t, DriveHost) then
      match FindMatch(t, 0)
      case None => None
      case Some(i) => Some(Capture(t, i))
    else if IsId(t) then Some(t)
    else None
  }

  /** A trimmed input that names the Drive host yields an id exactly when
      the pattern matches somewhere. */
  lemma UrlCaseMatches(input: string)
    requires Contains(Trim(input), DriveHost)
    ensures ExtractDriveFolderId(input).Some? <==> exists i: nat :: MatchAt(Trim(input), i)
  {
    var m := FindMatch(Trim(input), 0);
    if m.Some? {
      assert MatchAt(Trim(input), m.value);
    }
  }

  /** ... and the id is the maximal id run after the leftmost matching
      `/folders/`. */
  lemma UrlCaseLeftmost(input: string, i: nat)
    requires Contains(Trim(input), DriveHost) && Leftmost(Trim(input), i)
    ensures ExtractDriveFolderId(input) == Some(Capture(Trim(input), i))
  {
    var t := Trim(input);
    var m := FindMatch(t, 0);
    assert m.Some?;
  }

  /** Input that does not name the Drive host is accepted, trimmed, exactly
      when it is an id as a whole. */
  lemma DirectCase(input: string)
    requires !Contains(Trim(input), DriveHost)
    ensures ExtractDriveFolderId(input) == Some(Trim(input)) <==> IsId(Trim(input))
    ensures !IsId(Trim(input)) ==> ExtractDriveFolderId(input) == None
  {
  }

  /** An id has no whitespace at either end and, having no `.`, cannot
      contain the Drive host. */
  lemma IdIsDirect(id: string)
    requires IsId(id)
    ensures Trim(id) == id
    ensures !Contains(id, DriveHost)
  {
    assert !IsWhitespace(id[0]) && !IsWhitespace(id[|id| - 1]) by {
      assert IsIdChar(id[0]) && IsIdChar(id[|id| - 1]);
    }
    TrimOfTrimmed(id);
    assert DriveHost[5] == '.';
    forall i | 0 <= i < |id|
      ensures id[i] != '.'
    {
      assert IsIdChar(id[i]);
    }
    NotContainsForeignChar(id, DriveHost, 5, '.');
  }

  /** Extraction is idempotent: an extracted id extracts to itself. */
  lemma ExtractIdempotent(input: string)
    requires ExtractDriveFolderId(input).Some?
    ensures ExtractDriveFolderId(ExtractDriveFolderId(input).value) == ExtractDriveFolderId(input)
  {
    IdIsDirect(ExtractDriveFolderId(input).value);
  }

  /** Every id, given on its own, is accepted as it is. */
  lemma BareIdAccepted(id: string)
    requires IsId(id)
    ensures ExtractDriveFolderId(id) == Some(id)
  {
    IdIsDirect(id);
  }

  /** What the submit handler does with the form: reject with the error, or
      create an event with the trimmed title (absent when blank) and the
      extracted folder id. */
  datatype Submit =
    | Rejected(error: string)
    | Create(title: Option<string>, driveFolderId: string)

  /** The synchronous part of `handleSubmit`, up to the `createEvent` call. */
  function HandleSubmit(title: string, folderInput: string): (r: Submit)
    ensures r.Rejected? <==> ExtractDriveFolderId(folderInput).None?
    ensures r.Rejected? ==> r.error == InvalidFolderError
    ensures r.Create? ==> Some(r.driveFolderId) == ExtractDriveFolderId(folderInput) && IsId(r.driveFolderId)
    ensures r.Create? ==> (r.title.None? <==> Trim(title) == "")
    ensures r.Create? && r.title.Some? ==> r.title.value == Trim(title)
  {
    match ExtractDriveFolderId(folderInput)
    case None => Rejected(InvalidFolderError)
    case Some(id) => Create(if Trim(title) == "" then None else Some(Trim(title)), id)
  }

  /** The greedy run is the one that ends at the first non-id character. */
  lemma RunLengthExact(s: string, start: nat, n: nat)
    requires start + n <= |s|
    requires forall k :: start <= k < start + n ==> IsIdChar(s[k])
    requires start + n == |s| || !IsIdChar(s[start + n])
    ensures RunLength(s, start) == n
  {
  }

  /** Text after a prefix with no `f` cannot move the leftmost match into
      the prefix, as long as it starts with `/`. */
  lemma NoMatchInPrefix(prefix: string, rest: string)
    requires forall k :: 0 <= k < |prefix| ==> prefix[k] != 'f'
    requires |rest| > 0 && rest[0] == '/'
    ensures forall j :: 0 <= j < |prefix| ==> !MatchAt(prefix + rest, j)
  {
    var s := prefix + rest;
    forall j | 0 <= j < |prefix|
      ensures !MatchAt(s, j)
    {
      if j + 1 < |prefix| {
        assert s[j + 1] == prefix[j + 1];
      } else {
        assert s[j + 1] == rest[0];
      }
    }
  }

  /** A prefix's occurrences stay occurrences when text is appended. */
  lemma ContainsAppend(prefix: string, rest: string, sub: string)
    requires Contains(prefix, sub)
    ensures Contains(prefix + rest, sub)
  {
    var h: nat :| h <= |prefix| && OccursAt(prefix, sub, h);
    assert (prefix + rest)[h..h + |sub|] == prefix[h..h + |sub|];
    assert OccursAt(prefix + rest, sub, h);
  }

  /** The pattern matches right after the prefix, and its capture is the
      id. */
  lemma MatchAfterPrefix(prefix: string, id: string, suffix: string)
    requires IsId(id)
    requires suffix == [] || !IsIdChar(suffix[0])
    ensures var s := prefix + (FoldersPath + id + suffix);
      MatchAt(s, |prefix|) && Capture(s, |prefix|) == id
  {
    var s := prefix + (FoldersPath + id + suffix);
    var start := |prefix| + |FoldersPath|;
    assert s[|prefix|..start] == FoldersPath;
    assert s[start] == id[0];
    forall k | start <= k < start + |id|
      ensures IsIdChar(s[k])
    {
      assert s[k] == id[k - start];
    }
    if suffix != [] {
      assert s[start + |id|] == suffix[0];
    }
    RunLengthExact(s, start, |id|);
    assert s[start..start + |id|] == id;
  }

  /** A Drive URL of the documented kinds: a prefix naming the host and
      holding no `f` (so no earlier `/folders/` can start in it), then
      `/folders/`, the id, and a suffix that does not continue the id. The
      id is extracted. */
  lemma FolderUrl(prefix: string, id: string, suffix: string)
    requires |prefix| > 0 && !IsWhitespace(prefix[0])
    requires Contains(prefix, DriveHost)
    requires forall k :: 0 <= k < |prefix| ==> prefix[k] != 'f'
    requires IsId(id)
    requires suffix == [] || (!IsIdChar(suffix[0]) && !IsWhitespace(suffix[|suffix| - 1]))
    ensures ExtractDriveFolderId(prefix + FoldersPath + id + suffix) == Some(id)
  {
    var rest := FoldersPath + id + suffix;
    var s := prefix + rest;
    assert s == prefix + FoldersPath + id + suffix;
    assert s[0] == prefix[0];
    assert s[|s| - 1] == rest[|rest| - 1];
    if suffix == [] {
      assert rest[|rest| - 1] == id[|id| - 1];
    } else {
      assert rest[|rest| - 1] == suffix[|suffix| - 1];
    }
    TrimOfTrimmed(s);
    ContainsAppend(prefix, rest, DriveHost);
    MatchAfterPrefix(prefix, id, suffix);
    NoMatchInPrefix(prefix, rest);
    UrlCaseLeftmost(s, |prefix|);
  }

  /** The folder id used by the examples of the input's doc comment. */
  const ExampleId := "1QvBCmxEWaJAzY0oxmaXkvTQFmxenQ2Y6"
  const ExampleUserPath := "https://" + DriveHost + "/drive/u/4"
  const ExampleSharedPath := "https://" + DriveHost + "/drive"

  lemma ExampleIdValid()
    ensures IsId(ExampleId)
  {
  }

  /** A URL copied from a signed-in account's folder view. */
  lemma UserFolderExample()
    ensures ExtractDriveFolderId(ExampleUserPath + FoldersPath + ExampleId) == Some(ExampleId)
  {
    var id := ExampleId;
    ExampleIdValid();
    HostPrefix("/drive/u/4");
    FolderUrl(ExampleUserPath, id, "");
    assert ExampleUserPath + FoldersPath + id + "" == ExampleUserPath + FoldersPath + id;
  }

  /** A sharing link with a query string after the id. */
  lemma SharedFolderExample()
    ensures ExtractDriveFolderId(ExampleSharedPath + FoldersPath + ExampleId + "?usp=sharing")
            == Some(ExampleId)
  {
    var id := ExampleId;
    ExampleIdValid();
    HostPrefix("/drive");
    FolderUrl(ExampleSharedPath, id, "?usp=sharing");
  }

  /** The bare id. */
  lemma BareIdExample()
    ensures ExtractDriveFolderId(ExampleId) == Some(ExampleId)
  {
    ExampleIdValid();
    BareIdAccepted(ExampleId);
  }

  /** `https://drive.google.com` followed by a path without `f` is a prefix
      the documented URLs share. */
  lemma HostPrefix(path: string)
    requires forall k :: 0 <= k < |path| ==> path[k] != 'f'
    ensures var p := "https://" + DriveHost + path;
      |p| > 0 && !IsWhitespace(p[0]) && Contains(p, DriveHost)
      && forall k :: 0 <= k < |p| ==> p[k] != 'f'
  {
    var p := "https://" + DriveHost + path;
    assert p[8..24] == DriveHost;
    assert OccursAt(p, DriveHost, 8);
    forall k | 0 <= k < |p|
      ensures p[k] != 'f'
    {
      if k >= 24 {
        assert p[k] == path[k - 24];
      }
    }
  }
}

=== FILE: info_drawer.dfy ===
/** The event-information bottom sheet (src/components/InfoDrawer.tsx):
    three resting positions, moved by vertical swipes, by clicking the
    header and by clicking the backdrop. Touch coordinates are pixels
    (`clientY`, growing downwards). */
module InfoDrawer {
  import opened Base

  datatype DrawerState = Closed | Peek | Open

  /** The gesture state of the sheet. */
  datatype Drawer = Drawer(state: DrawerState, dragging: bool, startY: real, currentY: real)

  /** The sheet starts peeking, with no drag in progress. */
  const Initial := Drawer(Peek, false, 0.0, 0.0)

  /** Swiping further than this opens or closes a peeking sheet, or lifts a
      closed one. */
  const SwipeThreshold: real := 50.0

  /** An open sheet must be pulled down further than this to drop back. */
  const OpenDropThreshold: real := 100.0

  /** The resting positions in order from lowest to highest. */
  function Rank(s: DrawerState): (n: nat)
    ensures n <= 2
  {
    match s
    case Closed => 0
    case Peek => 1
    case Open => 2
  }

  function TouchStart(d: Drawer, y: real): (r: Drawer)
    ensures r.dragging && r.startY == y && r.currentY == y && r.state == d.state
  {
    Drawer(d.state, true, y, y)
  }

  /** `handleTouchMove`: outside a drag nothing happens; during one the
      sheet stays where it rests, follows the finger downwards, and a
      release now decides by the distance from the touch-down point. */
  function TouchMove(d: Drawer, y: real): (r: Drawer)
    ensures r.state == d.state && r.dragging == d.dragging && r.startY == d.startY
    ensures !d.dragging ==> r == d
    ensures d.dragging && y >= d.startY ==> DragOffset(r) == y - d.startY
    ensures d.dragging && y < d.startY ==> DragOffset(r) == 0.0
    ensures d.dragging ==> TouchEnd(r).state == SwipeTarget(d.state, y - d.startY)
  {
    if !d.dragging then d else d.(currentY := y)
  }

  /** Where a finished swipe of `delta` pixels (negative is upwards) leaves
      a sheet resting at `s`. */
  function SwipeTarget(s: DrawerState, delta: real): (t: DrawerState)
    ensures Rank(t) <= Rank(s) + 1 && Rank(s) <= Rank(t) + 1
    ensures Rank(t) > Rank(s) ==> delta < -SwipeThreshold
    ensures Rank(t) < Rank(s) ==> delta > SwipeThreshold
  {
    match s
    case Peek => if delta < -SwipeThreshold then Open else if delta > SwipeThreshold then Closed else Peek
    case Open => if delta > OpenDropThreshold then Peek else Open
    case Closed => if delta < -SwipeThreshold then Peek else Closed
  }

  /** The transitions a finished swipe makes, listed case by case. */
  lemma SwipeTable(s: DrawerState, delta: real)
    ensures s == Peek ==> (SwipeTarget(s, delta) == Open <==> delta < -50.0)
    ensures s == Peek ==> (SwipeTarget(s, delta) == Closed <==> delta > 50.0)
    ensures s == Open ==> (SwipeTarget(s, delta) == Peek <==> delta > 100.0)
    ensures s == Open ==> SwipeTarget(s, delta) != Closed
    ensures s == Closed ==> (SwipeTarget(s, delta) == Peek <==> delta < -50.0)
    ensures s == Closed ==> SwipeTarget(s, delta) != Open
  {
  }

  /** `handleTouchEnd`: stop dragging and move by the swipe's distance. */
  function TouchEnd(d: Drawer): (r: Drawer)
    ensures !d.dragging ==> r == d
    ensures d.dragging ==> !r.dragging && r.startY == d.startY && r.currentY == d.currentY
  {
    if !d.dragging then d
    else d.(dragging := false, state := SwipeTarget(d.state, d.currentY - d.startY))
  }

  /** `handleHeaderClick`: a peeking sheet opens, anything else goes back
      to peeking. */
  function HeaderClick(d: Drawer): (r: Drawer)
    ensures r.state == Peek || (d.state == Peek && r.state == Open)
    ensures d.state == Peek ==> r.state == Open
    ensures r.dragging == d.dragging && r.startY == d.startY && r.currentY == d.currentY
  {
    d.(state := if d.state == Peek then Open else Peek)
  }

  /** The backdrop is only shown, and so only clickable, while open; a
      click drops the sheet to peeking. */
  function BackdropClick(d: Drawer): (r: Drawer)
    ensures d.state == Open ==> r.state == Peek
    ensures d.state != Open ==> r == d
  {
    if d.state == Open then d.(state := Peek) else d
  }

  datatype Gesture = Start(y: real) | Move(y: real) | End | Header | Backdrop

  function Step(d: Drawer, g: Gesture): Drawer
  {
    match g
    case Start(y) => TouchStart(d, y)
    case Move(y) => TouchMove(d, y)
    case End => TouchEnd(d)
    case Header => HeaderClick(d)
    case Backdrop => BackdropClick(d)
  }

  function Run(d: Drawer, gs: seq<Gesture>): Drawer
    decreases |gs|
  {
    if gs == [] then d else Run(Step(d, gs[0]), gs[1..])
  }

  /** No single gesture moves the sheet by more than one position: in
      particular never straight between closed and open. */
  lemma StepIsAdjacent(d: Drawer, g: Gesture)
    ensures var r := Step(d, g);
      Rank(r.state) <= Rank(d.state) + 1 && Rank(d.state) <= Rank(r.state) + 1
  {
  }

  /** A sequence of `n` gestures moves the sheet at most `n` positions. */
  lemma {:induction false} RunDistance(d: Drawer, gs: seq<Gesture>)
    ensures Rank(Run(d, gs).state) <= Rank(d.state) + |gs|
    ensures Rank(d.state) <= Rank(Run(d, gs).state) + |gs|
    decreases |gs|
  {
    if gs != [] {
      StepIsAdjacent(d, gs[0]);
      RunDistance(Step(d, gs[0]), gs[1..]);
    }
  }

  /** Going from closed to open takes at least two gestures. */
  lemma ClosedToOpenNeedsTwo(d: Drawer, gs: seq<Gesture>)
    requires d.state == Closed && Run(d, gs).state == Open
    ensures |gs| >= 2
  {
    RunDistance(d, gs);
  }

  /** A whole swipe: touch at `y`, move by `dy`, release. */
  function Swipe(y: real, dy: real): seq<Gesture>
  {
    [Start(y), Move(y + dy), End]
  }

  /** A swipe moves the sheet as far as its distance says. */
  lemma RunSwipe(d: Drawer, y: real, dy: real)
    ensures Run(d, Swipe(y, dy)).state == SwipeTarget(d.state, dy)
  {
    var gs := Swipe(y, dy);
    var d1 := TouchStart(d, y);
    var d2 := TouchMove(d1, y + dy);
    assert gs[1..] == [Move(y + dy), End] && gs[1..][1..] == [End];
    assert Run(d, gs) == Run(d1, [Move(y + dy), End]);
    assert Run(d1, [Move(y + dy), End]) == Run(d2, [End]);
    assert Run(d2, [End]) == TouchEnd(d2);
  }

  /** ... and two upward swipes of more than 50 pixels do it. */
  lemma TwoSwipesOpen(d: Drawer, y: real, dy: real)
    requires d.state == Closed && dy < -SwipeThreshold
    ensures Run(d, Swipe(y, dy) + Swipe(y, dy)).state == Open
  {
    RunAppend(d, Swipe(y, dy), Swipe(y, dy));
    RunSwipe(d, y, dy);
    RunSwipe(Run(d, Swipe(y, dy)), y, dy);
  }

  lemma {:induction false} RunAppend(d: Drawer, a: seq<Gesture>, b: seq<Gesture>)
    ensures Run(d, a + b) == Run(Run(d, a), b)
    decreases |a|
  {
    if a != [] {
      assert (a + b)[0] == a[0] && (a + b)[1..] == a[1..] + b;
      RunAppend(Step(d, a[0]), a[1..], b);
    } else {
      assert a + b == b;
    }
  }

  /** The header toggles between peeking and open. */
  lemma HeaderToggles(d: Drawer)
    requires d.state != Closed
    ensures HeaderClick(HeaderClick(d)) == d
  {
  }

  /** The downward offset applied while dragging (`getTransform`): the drag
      distance, but never upwards; none when not dragging. */
  function DragOffset(d: Drawer): (px: real)
    ensures px >= 0.0
    ensures !d.dragging ==> px == 0.0
    ensures d.dragging && d.currentY >= d.startY ==> px == d.currentY - d.startY
  {
    if !d.dragging then 0.0
    else if d.currentY - d.startY < 0.0 then 0.0
    else d.currentY - d.startY
  }

  /** The sheet's height (`getDrawerHeight`). */
  datatype Height = Px(px: nat) | Vh(vh: nat)

  function DrawerHeight(s: DrawerState): (h: Height)
    ensures s == Closed <==> h == Px(0)
  {
    match s
    case Closed => Px(0)
    case Peek => Px(80)
    case Open => Vh(70)
  }
}

=== FILE: js_string.dfy ===
/** The few JavaScript string operations the core relies on: `trim`,
    `includes`, `startsWith` and `length`, over strings as sequences of
    Unicode characters. JavaScript strings are sequences of UTF-16 code
    units, so `length` counts a character above U+FFFF twice. */
module JsString {

  /** The characters `String.prototype.trim` strips: the ECMAScript
      WhiteSpace set (tab, vertical tab, form feed, BOM and every Unicode
      space separator) plus the four LineTerminator characters. */
  predicate IsWhitespace(c: char)
  {
    || c == '\t' || c == '\n' || c == '\U{000B}' || c == '\U{000C}' || c == '\r'
    || c == ' ' || c == '\U{00A0}' || c == '\U{1680}'
    || ('\U{2000}' <= c <= '\U{200A}')
    || c == '\U{2028}' || c == '\U{2029}' || c == '\U{202F}' || c == '\U{205F}'
    || c == '\U{3000}' || c == '\U{FEFF}'
  }

  predicate AllWhitespace(s: string)
  {
    forall i :: 0 <= i < |s| ==> IsWhitespace(s[i])
  }

  /** Drops leading whitespace. */
  function TrimStart(s: string): (r: string)
    ensures |r| <= |s| && r == s[|s| - |r|..]
    ensures AllWhitespace(s[..|s| - |r|])
    ensures r == [] || !IsWhitespace(r[0])
  {
    if |s| > 0 && IsWhitespace(s[0]) then
      var r := TrimStart(s[1..]);
      assert s[1..][..|s| - 1 - |r|] == s[1..|s| - |r|];
      r
    else s
  }

  /** Drops trailing whitespace. */
  function TrimEnd(s: string): (r: string)
    ensures |r| <= |s| && r == s[..|r|]
    ensures AllWhitespace(s[|r|..])
    ensures r == [] || !IsWhitespace(r[|r| - 1])
  {
    if |s| > 0 && IsWhitespace(s[|s| - 1]) then
      var r := TrimEnd(s[..|s| - 1]);
      assert s[..|s| - 1][|r|..] == s[|r|..|s| - 1];
      r
    else s
  }

  /** `s.trim()`: the infix of `s` left after dropping whitespace at both ends. */
  function Trim(s: string): (r: string)
    ensures |r| <= |s|
    ensures Contains(s, r)
    ensures r == [] || (!IsWhitespace(r[0]) && !IsWhitespace(r[|r| - 1]))
  {
    var t := TrimStart(s);
    var r := TrimEnd(t);
    assert OccursAt(s, r, |s| - |t|);
    r
  }

  /** A string with no whitespace at either end is its own trim. */
  lemma TrimOfTrimmed(s: string)
    requires s == [] || (!IsWhitespace(s[0]) && !IsWhitespace(s[|s| - 1]))
    ensures Trim(s) == s
  {
  }

  /** Trimming twice is trimming once. */
  lemma TrimIdempotent(s: string)
    ensures Trim(Trim(s)) == Trim(s)
  {
    var t := Trim(s);
    TrimOfTrimmed(t);
  }

  /** Trimming a string made only of whitespace gives the empty string, and
      only such strings trim to empty. */
  lemma TrimEmptyIff(s: string)
    ensures Trim(s) == [] <==> AllWhitespace(s)
  {
  }

  /** `sub` occurs in `s` starting at index `i`. */
  predicate OccursAt(s: string, sub: string, i: nat)
  {
    i + |sub| <= |s| && s[i..i + |sub|] == sub
  }

  /** `s.includes(sub)`. */
  predicate Contains(s: string, sub: string)
  {
    exists i: nat :: i <= |s| && OccursAt(s, sub, i)
  }

  /** `s.startsWith(prefix)`. */
  predicate StartsWith(s: string, prefix: string)
  {
    |prefix| <= |s| && s[..|prefix|] == prefix
  }

  /** A string that avoids some character `c` cannot contain a string that
      has `c` in it. */
  lemma NotContainsForeignChar(s: string, sub: string, k: nat, c: char)
    requires k < |sub| && sub[k] == c
    requires forall i :: 0 <= i < |s| ==> s[i] != c
    ensures !Contains(s, sub)
  {
    forall i: nat | i <= |s|
      ensures !OccursAt(s, sub, i)
    {
      if i + |sub| <= |s| {
        assert s[i..i + |sub|][k] == s[i + k];
      }
    }
  }

  /** The UTF-16 code units a character takes: a surrogate pair above
      U+FFFF, one unit otherwise. */
  function Utf16Units(c: char): (n: nat)
    ensures n == 1 || n == 2
    ensures n == 2 <==> c as int > 0xFFFF
  {
    if c as int > 0xFFFF then 2 else 1
  }

  /** `s.length`: the number of UTF-16 code units of `s`. */
  function Utf16Length(s: string): (n: nat)
    ensures |s| <= n <= 2 * |s|
    ensures n == |s| <==> forall i :: 0 <= i < |s| ==> s[i] as int <= 0xFFFF
    decreases |s|
  {
    if s == [] then 0
    else
      var n := Utf16Units(s[0]) + Utf16Length(s[1..]);
      assert forall i :: 1 <= i < |s| ==> s[i] == s[1..][i - 1];
      n
  }

  lemma {:induction false} Utf16Append(a: string, b: string)
    ensures Utf16Length(a + b) == Utf16Length(a) + Utf16Length(b)
    decreases |a|
  {
    if a != [] {
      assert (a + b)[1..] == a[1..] + b;
      Utf16Append(a[1..], b);
    } else {
      assert a + b == b;
    }
  }

  /** A string never has more UTF-16 units than a string containing it; in
      particular trimming never makes a string longer. */
  lemma Utf16Infix(s: string, sub: string)
    requires Contains(s, sub)
    ensures Utf16Length(sub) <= Utf16Length(s)
  {
    var i: nat :| i <= |s| && OccursAt(s, sub, i);
    var j := i + |sub|;
    assert s == s[..i] + sub + s[j..];
    Utf16Append(s[..i] + sub, s[j..]);
    Utf16Append(s[..i], sub);
  }
}

=== FILE: messages.dfy ===
/** The records the client exchanges with the backend over the real-time
    connection (src/lib/websocket.ts:8-32). */
module Messages {
  import opened Base

  /** A photo of an event. Immutable once created; `uploadedAt` is a
      millisecond timestamp. */
  datatype Photo = Photo(
    id: string,
    activityId: string,
    sessionId: string,
    driveFileId: string,
    thumbnailUrl: string,
    fullUrl: string,
    uploadedAt: int,
    width: Option<int>,
    height: Option<int>)

  /** A decoded server-to-client message. */
  datatype ServerMessage =
    | Joined(activityId: string, photos: seq<Photo>, timestamp: int,
             playlist: Option<seq<Photo>>, currentIndex: Option<int>)
    | PhotoAdded(photo: Photo)
    | PlayPhoto(photo: Photo, index: int, total: int, timestamp: int)
    | Danmaku(id: string, content: string, sessionId: string, timestamp: int)
    | ActivityEnded(activityId: string, reason: string, timestamp: int)
    | Pong(timestamp: int)
    | ServerError(code: string, message: string, retryAfter: Option<int>)

  /** A client-to-server message as callers hand it to the transport: without
      the session id, which the transport fills in. */
  datatype Outbound =
    | NewPhoto(driveFileId: string, thumbnailUrl: string, fullUrl: string,
               width: Option<int>, height: Option<int>)
    | NewDanmaku(content: string)
    | Ping
}

=== FILE: photo_queue.dfy ===
/** The photo-queue helpers of tests/unit/photoQueue.test.ts: the
    Fisher–Yates shuffle (the only shuffle in the repository), the
    priority-then-regular playback order, and the filter that finds photos
    not yet played. `Math.random()` results are an oracle sequence. */
module PhotoQueue {
  import opened Base

  /** The photo record the queue tests use. */
  datatype QueuedPhoto = QueuedPhoto(id: string, uploadedAt: int)

  /** `[s[i], s[j]] = [s[j], s[i]]` on a copy. */
  function Swap<T>(s: seq<T>, i: nat, j: nat): (r: seq<T>)
    requires i < |s| && j < |s|
    ensures |r| == |s| && r[i] == s[j] && r[j] == s[i]
    ensures forall k :: 0 <= k < |s| && k != i && k != j ==> r[k] == s[k]
  {
    s[i := s[j]][j := s[i]]
  }

  lemma SwapPermutes<T>(s: seq<T>, i: nat, j: nat)
    requires i < |s| && j < |s|
    ensures multiset(Swap(s, i, j)) == multiset(s)
  {
  }

  /** A choice sequence for an input of length `n`: entry `t` is the index
      `j` drawn when the loop is at `i = n - 1 - t`, so `0 <= j <= i`. */
  predicate ValidChoices(n: nat, cs: seq<nat>)
    decreases n
  {
    if n <= 1 then cs == []
    else |cs| > 0 && cs[0] <= n - 1 && ValidChoices(n - 1, cs[1..])
  }

  /** Fisher–Yates as a recursive definition: swap the last position with
      the chosen one, fix it, and shuffle the rest. */
  function FisherYates<T>(a: seq<T>, cs: seq<nat>): (r: seq<T>)
    requires ValidChoices(|a|, cs)
    ensures |r| == |a|
    decreases |a|
  {
    if |a| <= 1 then a
    else
      var n := |a|;
      var b := Swap(a, n - 1, cs[0]);
      assert b == b[..n - 1] + [b[n - 1]];
      FisherYates(b[..n - 1], cs[1..]) + [b[n - 1]]
  }

  /** The prefix the definition recurses on. */
  function Front<T>(a: seq<T>, cs: seq<nat>): (f: seq<T>)
    requires |a| > 1 && ValidChoices(|a|, cs)
    ensures |f| == |a| - 1
  {
    Swap(a, |a| - 1, cs[0])[..|a| - 1]
  }

  /** One unfolding of the definition keeps the multiset when the recursive
      call does. */
  lemma PermutesStep<T>(a: seq<T>, cs: seq<nat>)
    requires |a| > 1 && ValidChoices(|a|, cs)
    requires multiset(FisherYates(Front(a, cs), cs[1..])) == multiset(Front(a, cs))
    ensures multiset(FisherYates(a, cs)) == multiset(a)
  {
    var b := Swap(a, |a| - 1, cs[0]);
    var v := b[|a| - 1];
    FisherYatesUnfold(a, cs);
    SwapPermutes(a, |a| - 1, cs[0]);
    MultisetSnoc(FisherYates(a, cs), FisherYates(Front(a, cs), cs[1..]), v);
    MultisetSnoc(b, Front(a, cs), v);
  }

  /** The recursive definition only reorders its input. */
  lemma {:induction false} FisherYatesPermutes<T>(a: seq<T>, cs: seq<nat>)
    requires ValidChoices(|a|, cs)
    ensures multiset(FisherYates(a, cs)) == multiset(a)
    decreases |a|
  {
    if |a| > 1 {
      FisherYatesPermutes(Front(a, cs), cs[1..]);
      PermutesStep(a, cs);
    }
  }

  lemma MultisetSnoc<T>(x: seq<T>, y: seq<T>, v: T)
    requires x == y + [v]
    ensures multiset(x) == multiset(y) + multiset{v}
  {
  }

  /** The indices `Math.floor(Math.random() * (i + 1))` drawn for an input
      of length `n`, one draw per loop step. */
  function Choices(rs: seq<Draw>, n: nat): (cs: seq<nat>)
    requires |rs| + 1 >= n
    ensures ValidChoices(n, cs)
    decreases n
  {
    if n <= 1 then [] else [PickIndex(rs[0], n)] + Choices(rs[1..], n - 1)
  }

  /** One unfolding of the definition. */
  lemma FisherYatesUnfold<T>(pre: seq<T>, cs: seq<nat>)
    requires |pre| > 1 && ValidChoices(|pre|, cs)
    ensures FisherYates(pre, cs)
            == FisherYates(Swap(pre, |pre| - 1, cs[0])[..|pre| - 1], cs[1..]) + [Swap(pre, |pre| - 1, cs[0])[|pre| - 1]]
  {
  }

  /** One step of the loop: swapping position `i` with the chosen `j`
      and fixing position `i` is one unfolding of the definition. */
  lemma LoopStep<T>(shuffled: seq<T>, cs: seq<nat>, i: nat)
    requires 0 < i < |shuffled| && ValidChoices(i + 1, cs)
    ensures ValidChoices(i, cs[1..])
    ensures FisherYates(shuffled[..i + 1], cs) + shuffled[i + 1..]
            == FisherYates(Swap(shuffled, i, cs[0])[..i], cs[1..]) + Swap(shuffled, i, cs[0])[i..]
  {
    var pre := shuffled[..i + 1];
    var b := Swap(pre, i, cs[0]);
    var next := Swap(shuffled, i, cs[0]);
    FisherYatesUnfold(pre, cs);
    assert b[..i] == next[..i];
    assert next[i..] == [b[i]] + shuffled[i + 1..];
    assert FisherYates(pre, cs) == FisherYates(b[..i], cs[1..]) + [b[i]];
  }

  /** What the loop of `shuffleArray` keeps: the definition applied to the
      whole input equals the definition applied to the unfixed prefix, with
      the choices still to be drawn, followed by the fixed suffix. */
  ghost predicate ShuffleInvariant<T>(a: seq<T>, rs: seq<Draw>, shuffled: seq<T>, i: int)
    requires |rs| + 1 >= |a| && |shuffled| == |a| && 0 <= i < |a|
  {
    FisherYates(a, Choices(rs, |a|))
      == FisherYates(shuffled[..i + 1], Choices(rs[|a| - 1 - i..], i + 1)) + shuffled[i + 1..]
  }

  lemma ChoicesStep(rs: seq<Draw>, t: nat, i: nat)
    requires i > 0 && t < |rs| && |rs[t..]| + 1 >= i + 1
    ensures Choices(rs[t..], i + 1) == [PickIndex(rs[t], i + 1)] + Choices(rs[t + 1..], i)
  {
    assert rs[t..][1..] == rs[t + 1..];
  }

  /** One iteration keeps the loop invariant. */
  lemma ShuffleStep<T>(a: seq<T>, rs: seq<Draw>, shuffled: seq<T>, i: nat)
    requires |rs| + 1 >= |a| && |shuffled| == |a| && 0 < i < |a|
    requires ShuffleInvariant(a, rs, shuffled, i)
    ensures ShuffleInvariant(a, rs, Swap(shuffled, i, PickIndex(rs[|a| - 1 - i], i + 1)), i - 1)
  {
    var t := |a| - 1 - i;
    var cs := Choices(rs[t..], i + 1);
    ChoicesStep(rs, t, i);
    LoopStep(shuffled, cs, i);
    var next := Swap(shuffled, i, cs[0]);
    assert FisherYates(a, Choices(rs, |a|))
        == FisherYates(next[..i], Choices(rs[t + 1..], i)) + next[i..];
    assert |a| - 1 - (i - 1) == t + 1 && (i - 1) + 1 == i;
  }

  /** Before the loop nothing is fixed and every choice is still to be
      drawn. */
  lemma ShuffleStart<T>(a: seq<T>, rs: seq<Draw>)
    requires |rs| + 1 >= |a| > 0
    ensures ShuffleInvariant(a, rs, a, |a| - 1)
  {
    assert rs[0..] == rs && a[..|a|] == a && a[|a|..] == [];
  }

  /** When the loop stops at index 0, the array is the definition's result. */
  lemma ShuffleDone<T>(a: seq<T>, rs: seq<Draw>, shuffled: seq<T>)
    requires |rs| + 1 >= |a| && |shuffled| == |a| > 0
    requires ShuffleInvariant(a, rs, shuffled, 0)
    ensures shuffled == FisherYates(a, Choices(rs, |a|))
  {
    assert shuffled[..1] + shuffled[1..] == shuffled;
  }

  /** The loop of `shuffleArray`, from the last index down to 1. */
  method ShuffleLoop<T>(a: seq<T>, rs: seq<Draw>) returns (shuffled: seq<T>)
    requires |rs| + 1 >= |a| > 0
    ensures |shuffled| == |a| && ShuffleInvariant(a, rs, shuffled, 0)
  {
    shuffled := a;
    var i := |a| - 1;
    ShuffleStart(a, rs);
    while i > 0
      invariant 0 <= i < |a| && |shuffled| == |a|
      invariant ShuffleInvariant(a, rs, shuffled, i)
    {
      var j := PickIndex(rs[|a| - 1 - i], i + 1);
      ShuffleStep(a, rs, shuffled, i);
      shuffled := Swap(shuffled, i, j);
      i := i - 1;
    }
  }

  /** `shuffleArray`: copies the input (which is a value here, so it cannot
      be modified) and runs the Fisher–Yates loop from the last index down
      to 1. The result is a permutation of the input, and it is exactly the
      recursive definition applied to the choices drawn. */
  method Shuffle<T>(a: seq<T>, rs: seq<Draw>) returns (r: seq<T>)
    requires |rs| + 1 >= |a|
    ensures |r| == |a| && multiset(r) == multiset(a)
    ensures r == FisherYates(a, Choices(rs, |a|))
    ensures |a| <= 1 ==> r == a
  {
    if |a| == 0 {
      return a;
    }
    var shuffled := ShuffleLoop(a, rs);
    ShuffleDone(a, rs, shuffled);
    r := shuffled;
    FisherYatesPermutes(a, Choices(rs, |a|));
  }

  lemma SwapKeepsDistinct<T>(s: seq<T>, i: nat, j: nat)
    requires i < |s| && j < |s| && Distinct(s)
    ensures Distinct(Swap(s, i, j))
  {
    var r := Swap(s, i, j);
    forall p, q | 0 <= p < q < |r|
      ensures r[p] != r[q]
    {
      var p' := if p == i then j else if p == j then i else p;
      var q' := if q == i then j else if q == j then i else q;
      assert r[p] == s[p'] && r[q] == s[q'] && p' != q';
    }
  }

  /** Different choice sequences give different orders of a duplicate-free
      input. With `n!` valid choice sequences for length `n`, this is what
      makes every permutation equally likely when each choice is uniform. */
  lemma {:induction false} FisherYatesInjective<T>(a: seq<T>, cs1: seq<nat>, cs2: seq<nat>)
    requires Distinct(a) && ValidChoices(|a|, cs1) && ValidChoices(|a|, cs2)
    requires FisherYates(a, cs1) == FisherYates(a, cs2)
    ensures cs1 == cs2
    decreases |a|
  {
    if |a| > 1 {
      var n := |a|;
      var b1 := Swap(a, n - 1, cs1[0]);
      var b2 := Swap(a, n - 1, cs2[0]);
      FisherYatesUnfold(a, cs1);
      FisherYatesUnfold(a, cs2);
      var r := FisherYates(a, cs1);
      assert r[n - 1] == a[cs1[0]];
      assert r[n - 1] == a[cs2[0]];
      assert cs1[0] == cs2[0];
      assert b1 == b2;
      SwapKeepsDistinct(a, n - 1, cs1[0]);
      assert Distinct(b1[..n - 1]);
      assert FisherYates(b1[..n - 1], cs1[1..]) == r[..n - 1];
      assert FisherYates(b1[..n - 1], cs2[1..]) == r[..n - 1];
      FisherYatesInjective(b1[..n - 1], cs1[1..], cs2[1..]);
      assert cs1 == [cs1[0]] + cs1[1..];
      assert cs2 == [cs2[0]] + cs2[1..];
    }
  }

  /** The playback order: every priority photo, then every regular photo,
      each list in its own order. */
  function PlaybackQueue(priority: seq<QueuedPhoto>, regular: seq<QueuedPhoto>): (q: seq<QueuedPhoto>)
    ensures |q| == |priority| + |regular|
    ensures forall i :: 0 <= i < |priority| ==> q[i] == priority[i]
    ensures forall j :: 0 <= j < |regular| ==> q[|priority| + j] == regular[j]
  {
    priority + regular
  }

  /** The test's filter condition: the photo's id has not been played. */
  function Unplayed(played: set<string>): QueuedPhoto -> bool
  {
    (p: QueuedPhoto) => p.id !in played
  }

  /** The photos not played yet, in their original order. */
  function NewPhotos(photos: seq<QueuedPhoto>, played: set<string>): (r: seq<QueuedPhoto>)
    ensures forall p :: p in r <==> p in photos && p.id !in played
    ensures |r| <= |photos|
  {
    Filter(photos, Unplayed(played))
  }

  /** Photos that arrived after the played ones are exactly the new photos,
      in arrival order. */
  lemma NewPhotosAfterPlayed(existing: seq<QueuedPhoto>, arrived: seq<QueuedPhoto>, played: set<string>)
    requires forall p :: p in existing ==> p.id in played
    requires forall p :: p in arrived ==> p.id !in played
    ensures NewPhotos(existing + arrived, played) == arrived
  {
    FilterAppend(existing, arrived, Unplayed(played));
    var none := Filter(existing, Unplayed(played));
    if none != [] {
      assert none[0] in none;
    }
    FilterAll(arrived, played);
  }

  lemma {:induction false} FilterAll(s: seq<QueuedPhoto>, played: set<string>)
    requires forall p :: p in s ==> p.id !in played
    ensures Filter(s, Unplayed(played)) == s
    decreases |s|
  {
    if s != [] {
      assert s[0] in s;
      FilterAll(s[1..], played);
      assert s == [s[0]] + s[1..];
    }
  }
}

=== FILE: photo_upload.dfy ===
/** The participant's batch photo picker and uploader
    (src/components/PhotoUpload.tsx): choosing files up to a limit,
    removing one, uploading the batch one file after another with a
    simulated progress counter, and cancelling. The clock, the
    file-reading callbacks, the progress interval's firings and each
    upload's outcome are parameters. */
module PhotoUpload {
  import opened Base
  import opened JsString
  import opened DriveUpload

  /** The most photos one batch may hold. */
  const MaxPhotos: nat := 50

  const TooManyError := "最多只能選擇 50 張照片"

  /** Simulated progress stops here until the upload finishes. */
  const ProgressCeiling: nat := 90

  /** The id `${Date.now()}-${index}` of a chosen file: the selection's
      clock reading and the file's position in that selection. Neither part
      contains `-`, so the pair and the string determine each other. */
  datatype FileId = FileId(selectedAt: int, index: nat)

  /** A chosen file; its preview data URL is not modelled. */
  datatype Selected = Selected(file: FileInfo, id: FileId)

  datatype Phase = Pending | Uploading | Success | Failure

  datatype UploadStatus = UploadStatus(phase: Phase, progress: nat, error: Option<string>)

  /** The component's state. `timers` lists the progress intervals still
      running, by the file each one advances, oldest first. */
  datatype State = State(
    selected: seq<Selected>,
    statuses: map<FileId, UploadStatus>,
    uploading: bool,
    error: Option<string>,
    timers: seq<FileId>)

  const Initial := State([], map[], false, None, [])

  function Ids(sel: seq<Selected>): (r: seq<FileId>)
    ensures |r| == |sel| && forall i :: 0 <= i < |sel| ==> r[i] == sel[i].id
  {
    seq(|sel|, i requires 0 <= i < |sel| => sel[i].id)
  }

  lemma IdsAppend(a: seq<Selected>, b: seq<Selected>)
    ensures Ids(a + b) == Ids(a) + Ids(b)
  {
  }

  /** `errors.join('\n')`: the lines in order, a newline between two
      neighbours and none at either end. */
  function JoinLines(lines: seq<string>): (r: string)
    ensures lines == [] ==> r == ""
    ensures |lines| == 1 ==> r == lines[0]
    ensures |lines| > 1 ==> r == lines[0] + "\n" + JoinLines(lines[1..])
    ensures lines != [] ==> lines[0] <= r
  {
    if lines == [] then ""
    else if |lines| == 1 then lines[0]
    else lines[0] + "\n" + JoinLines(lines[1..])
  }

  /** `s.split('\n')`: the pieces between newlines, in order; at least one. */
  function SplitLines(s: string): (r: seq<string>)
    ensures r != []
    decreases |s|
  {
    if s == [] then [""]
    else
      var rest := SplitLines(s[1..]);
      if s[0] == '\n' then [""] + rest else [[s[0]] + rest[0]] + rest[1..]
  }

  predicate NoNewline(s: string)
  {
    forall i :: 0 <= i < |s| ==> s[i] != '\n'
  }

  lemma {:induction false} SplitAfterLine(a: string, b: string)
    requires NoNewline(a)
    ensures SplitLines(a + "\n" + b) == [a] + SplitLines(b)
    decreases |a|
  {
    if a == [] {
      assert a + "\n" + b == "\n" + b;
      assert ("\n" + b)[1..] == b;
    } else {
      SplitAfterLine(a[1..], b);
      assert (a + "\n" + b)[1..] == a[1..] + "\n" + b;
      assert [a[0]] + a[1..] == a;
    }
  }

  lemma {:induction false} SplitSingleLine(a: string)
    requires NoNewline(a)
    ensures SplitLines(a) == [a]
    decreases |a|
  {
    if a != [] {
      SplitSingleLine(a[1..]);
      assert [a[0]] + a[1..] == a;
    }
  }

  /** Joining lines that hold no newline can be undone by splitting at the
      newlines: the joined message keeps every line, in order. */
  lemma {:induction false} SplitJoinLines(lines: seq<string>)
    requires lines != []
    requires forall i :: 0 <= i < |lines| ==> NoNewline(lines[i])
    ensures SplitLines(JoinLines(lines)) == lines
    decreases |lines|
  {
    if |lines| == 1 {
      SplitSingleLine(lines[0]);
    } else {
      SplitJoinLines(lines[1..]);
      SplitAfterLine(lines[0], JoinLines(lines[1..]));
      assert [lines[0]] + lines[1..] == lines;
    }
  }

  /** The files of one selection that pass validation, each with its id;
      `from` is the position of `files[0]` in the selection. */
  function Picks(files: seq<FileInfo>, now: int, from: nat): (r: seq<Selected>)
    ensures |r| <= |files|
    ensures forall s :: s in r ==> (ValidatePhotoFile(s.file).Valid? && s.id.selectedAt == now
                                  && from <= s.id.index < from + |files|)
  {
    if files == [] then []
    else if ValidatePhotoFile(files[0]).Valid? then
      [Selected(files[0], FileId(now, from))] + Picks(files[1..], now, from + 1)
    else Picks(files[1..], now, from + 1)
  }

  /** Every valid file is picked under its own position, and nothing else
      is. */
  lemma {:induction false} PicksExactly(files: seq<FileInfo>, now: int, from: nat, i: nat)
    requires i < |files|
    ensures Selected(files[i], FileId(now, from + i)) in Picks(files, now, from)
            <==> ValidatePhotoFile(files[i]).Valid?
    decreases |files|
  {
    var r := Picks(files, now, from);
    var s := Selected(files[i], FileId(now, from + i));
    if i == 0 {
      if !ValidatePhotoFile(files[0]).Valid? {
        assert s !in Picks(files[1..], now, from + 1);
      }
    } else {
      PicksExactly(files[1..], now, from + 1, i - 1);
      assert files[1..][i - 1] == files[i];
      if ValidatePhotoFile(files[0]).Valid? {
        assert r == [Selected(files[0], FileId(now, from))] + Picks(files[1..], now, from + 1);
        assert s != r[0];
      }
    }
  }

  /** The picks are listed by increasing position, so their ids differ. */
  lemma {:induction false} PicksDistinct(files: seq<FileInfo>, now: int, from: nat)
    ensures Distinct(Ids(Picks(files, now, from)))
    decreases |files|
  {
    if files != [] {
      PicksDistinct(files[1..], now, from + 1);
      var rest := Picks(files[1..], now, from + 1);
      if ValidatePhotoFile(files[0]).Valid? {
        var head := [Selected(files[0], FileId(now, from))];
        IdsAppend(head, rest);
        forall x | x in Ids(head) ensures x !in Ids(rest) {
        }
        DistinctJoin(Ids(head), Ids(rest));
      }
    }
  }

  /** A file validation refuses. */
  predicate Rejected(f: FileInfo)
  {
    ValidatePhotoFile(f).Invalid?
  }

  /** `${file.name}: ${validation.error}`, the line reporting a refused file. */
  function RejectLine(f: FileInfo): string
    requires Rejected(f)
  {
    f.name + ": " + ValidatePhotoFile(f).error
  }

  /** One line per rejected file, in the order of the selection: its name
      and the validation error. There are none exactly when every file is
      valid. */
  function ErrorLines(files: seq<FileInfo>): (r: seq<string>)
    ensures var bad := Filter(files, Rejected);
      |r| == |bad| && forall i :: 0 <= i < |r| ==> Rejected(bad[i]) && r[i] == RejectLine(bad[i])
    ensures r == [] <==> forall i :: 0 <= i < |files| ==> ValidatePhotoFile(files[i]).Valid?
    decreases |files|
  {
    if files == [] then []
    else
      var rest := ErrorLines(files[1..]);
      var r := (if Rejected(files[0]) then [RejectLine(files[0])] else []) + rest;
      assert forall i :: 1 <= i < |files| ==> files[i] == files[1..][i - 1];
      assert Rejected(files[0]) ==> Filter(files, Rejected) == [files[0]] + Filter(files[1..], Rejected);
      r
  }

  /** `handleFileSelect` once every chosen file's reader has loaded. A
      batch that would pass the limit is refused as a whole; one with no
      valid file never completes a reader, so nothing at all changes. */
  function SelectFiles(st: State, files: seq<FileInfo>, now: int): (r: State)
    ensures r.statuses == st.statuses && r.uploading == st.uploading && r.timers == st.timers
    ensures st.selected <= r.selected
    ensures |st.selected| <= MaxPhotos ==> |r.selected| <= MaxPhotos
  {
    if files == [] then st
    else if |st.selected| + |files| > MaxPhotos then st.(error := Some(TooManyError))
    else
      var picks := Picks(files, now, 0);
      if picks == [] then st
      else
        var lines := ErrorLines(files);
        st.(selected := st.selected + picks,
            error := if lines == [] then None else Some(JoinLines(lines)))
  }

  /** What a selection does to the chosen list: a batch past the limit is
      refused with the limit error and leaves the list as it was;
      otherwise exactly the valid files are appended, each under its own
      position. */
  lemma SelectOutcome(st: State, files: seq<FileInfo>, now: int)
    requires files != []
    ensures var r := SelectFiles(st, files, now);
      if |st.selected| + |files| > MaxPhotos then
        r.selected == st.selected && r.error == Some(TooManyError)
      else
        r.selected == st.selected + Picks(files, now, 0)
        && (Picks(files, now, 0) != [] ==>
              r.error == (if ErrorLines(files) == [] then None else Some(JoinLines(ErrorLines(files)))))
        && forall i :: 0 <= i < |files| ==>
             (Selected(files[i], FileId(now, i)) in r.selected[|st.selected|..]
              <==> ValidatePhotoFile(files[i]).Valid?)
  {
    var r := SelectFiles(st, files, now);
    if |st.selected| + |files| <= MaxPhotos {
      assert r.selected[|st.selected|..] == Picks(files, now, 0);
      forall i | 0 <= i < |files|
        ensures Selected(files[i], FileId(now, i)) in r.selected[|st.selected|..]
                <==> ValidatePhotoFile(files[i]).Valid?
      {
        PicksExactly(files, now, 0, i);
      }
    }
  }

  /** A selection in which every file fails validation changes nothing,
      not even the error message. */
  lemma AllInvalidChangesNothing(st: State, files: seq<FileInfo>, now: int)
    requires forall i :: 0 <= i < |files| ==> ValidatePhotoFile(files[i]).Invalid?
    ensures SelectFiles(st, files, now) == st || |st.selected| + |files| > MaxPhotos
  {
    if files != [] && |st.selected| + |files| <= MaxPhotos {
      var picks := Picks(files, now, 0);
      if picks != [] {
        PicksFromFiles(files, now, 0, picks[0]);
      }
    }
  }

  /** A pick carries the file found at its position. */
  lemma {:induction false} PicksFromFiles(files: seq<FileInfo>, now: int, from: nat, s: Selected)
    requires s in Picks(files, now, from)
    ensures from <= s.id.index < from + |files| && s == Selected(files[s.id.index - from], FileId(now, s.id.index))
    decreases |files|
  {
    if files != [] {
      var rest := Picks(files[1..], now, from + 1);
      if s in rest {
        PicksFromFiles(files[1..], now, from + 1, s);
        assert files[1..][s.id.index - (from + 1)] == files[s.id.index - from];
      }
    }
  }

  /** Ids stay unique across selections made at increasing times. */
  lemma SelectKeepsIdsDistinct(st: State, files: seq<FileInfo>, now: int)
    requires Distinct(Ids(st.selected))
    requires forall s :: s in st.selected ==> s.id.selectedAt < now
    ensures Distinct(Ids(SelectFiles(st, files, now).selected))
  {
    if files != [] && |st.selected| + |files| <= MaxPhotos {
      var picks := Picks(files, now, 0);
      PicksDistinct(files, now, 0);
      IdsAppend(st.selected, picks);
      forall x | x in Ids(st.selected) ensures x !in Ids(picks) {
        var k :| 0 <= k < |st.selected| && Ids(st.selected)[k] == x;
        assert st.selected[k] in st.selected;
      }
      DistinctJoin(Ids(st.selected), Ids(picks));
    }
  }

  /** `handleRemoveFile`: drop the file with that id from the list and its
      status from the map. */
  function RemoveFile(st: State, id: FileId): (r: State)
    ensures forall s :: s in r.selected <==> s in st.selected && s.id != id
    ensures Subsequence(r.selected, st.selected)
    ensures forall k :: k in r.statuses <==> k in st.statuses && k != id
    ensures forall k :: k in r.statuses ==> r.statuses[k] == st.statuses[k]
    ensures r.uploading == st.uploading && r.error == st.error && r.timers == st.timers
  {
    st.(selected := Filter(st.selected, (s: Selected) => s.id != id),
        statuses := st.statuses - {id})
  }

  /** Removal keeps the other files in their order: taking out the one
      file with that id leaves what came before it followed by what came
      after it. */
  lemma RemoveFromMiddle(st: State, id: FileId, p: seq<Selected>, x: Selected, q: seq<Selected>)
    requires st.selected == p + [x] + q && x.id == id
    requires forall s :: s in p + q ==> s.id != id
    ensures RemoveFile(st, id).selected == p + q
  {
    var keep := (s: Selected) => s.id != id;
    assert forall i :: 0 <= i < |p| ==> p[i] in p + q;
    assert forall i :: 0 <= i < |q| ==> q[i] in p + q;
    FilterDropOne(p, x, q, keep);
  }

  /** Removing a file twice is removing it once. */
  lemma RemoveIdempotent(st: State, id: FileId)
    ensures RemoveFile(RemoveFile(st, id), id) == RemoveFile(st, id)
  {
    var once := RemoveFile(st, id);
    FilterAll(once.selected, (s: Selected) => s.id != id);
    assert once.statuses - {id} == once.statuses;
  }

  /** Filtering a list whose every element passes leaves it as it is. */
  lemma {:induction false} FilterAll<T(!new)>(s: seq<T>, p: T -> bool)
    requires forall x :: x in s ==> p(x)
    ensures Filter(s, p) == s
  {
    if s != [] {
      assert forall x :: x in s[1..] ==> x in s;
      FilterAll(s[1..], p);
      assert [s[0]] + s[1..] == s;
    }
  }

  /** `handleCancel`. Running progress intervals are not stopped by it. */
  function Cancel(st: State): (r: State)
    ensures r.selected == [] && r.statuses == map[] && r.error == None
    ensures r.uploading == st.uploading && r.timers == st.timers
  {
    st.(selected := [], statuses := map[], error := None)
  }

  /** The ids whose upload has succeeded. */
  function Succeeded(statuses: map<FileId, UploadStatus>): (r: set<FileId>)
    ensures r <= statuses.Keys
    ensures forall k :: k in r <==> k in statuses && statuses[k].phase == Success
  {
    set k | k in statuses && statuses[k].phase == Success
  }

  /** `uploadedCount`: how many statuses are `success`. */
  function UploadedCount(statuses: map<FileId, UploadStatus>): (n: nat)
    ensures n == |Succeeded(statuses)| && n <= |statuses|
  {
    SubsetCard(Succeeded(statuses), statuses.Keys);
    |Succeeded(statuses)|
  }

  lemma {:induction false} SubsetCard<T>(a: set<T>, b: set<T>)
    requires a <= b
    ensures |a| <= |b|
    decreases |b|
  {
    if a != {} {
      var x :| x in a;
      SubsetCard(a - {x}, b - {x});
    }
  }

  /** The statuses `handleUpload` starts from: every chosen file pending at
      0%. Statuses of files no longer chosen are dropped. */
  function PendingStatuses(sel: seq<Selected>): (r: map<FileId, UploadStatus>)
    ensures forall i :: 0 <= i < |sel| ==> sel[i].id in r
    ensures forall k :: k in r ==> k in Ids(sel) && r[k] == UploadStatus(Pending, 0, None)
  {
    map k | k in Ids(sel) :: UploadStatus(Pending, 0, None)
  }

  /** One firing of the progress interval for `id`: ten more percent, but
      never past the ceiling. A status that is gone is left alone. */
  function Advance(statuses: map<FileId, UploadStatus>, id: FileId): (r: map<FileId, UploadStatus>)
    ensures r.Keys == statuses.Keys
    ensures forall k :: k in statuses && k != id ==> r[k] == statuses[k]
    ensures id in statuses ==> (r[id].phase == statuses[id].phase && r[id].error == statuses[id].error
                                && r[id].progress <= ProgressCeiling)
    ensures id in statuses ==> r[id].progress == Min(statuses[id].progress + 10, ProgressCeiling)
    ensures id in statuses && statuses[id].progress <= ProgressCeiling
            ==> statuses[id].progress < r[id].progress || r[id].progress == ProgressCeiling
  {
    if id in statuses then
      statuses[id := statuses[id].(progress := Min(statuses[id].progress + 10, ProgressCeiling))]
    else statuses
  }

  /** `n` firings of the interval for `id` and of no other. */
  function AdvanceTimes(statuses: map<FileId, UploadStatus>, id: FileId, n: nat): (r: map<FileId, UploadStatus>)
    ensures r.Keys == statuses.Keys
    ensures forall k :: k in statuses && k != id ==> r[k] == statuses[k]
  {
    if n == 0 then statuses else AdvanceTimes(Advance(statuses, id), id, n - 1)
  }

  /** After `n` firings the progress is ten per firing, capped at the
      ceiling: the cap is reached after nine firings from 0% and then
      stays. */
  lemma {:induction false} AdvanceTimesProgress(statuses: map<FileId, UploadStatus>, id: FileId, n: nat)
    requires id in statuses && n > 0
    ensures AdvanceTimes(statuses, id, n)[id].progress == Min(statuses[id].progress + 10 * n, ProgressCeiling)
    ensures AdvanceTimes(statuses, id, n)[id].phase == statuses[id].phase
  {
    var next := Advance(statuses, id);
    if n > 1 {
      AdvanceTimesProgress(next, id, n - 1);
    }
  }

  /** Nine firings take a fresh upload from 0% to the ceiling. */
  lemma NineFiringsReachCeiling(statuses: map<FileId, UploadStatus>, id: FileId)
    requires id in statuses && statuses[id].progress == 0
    ensures AdvanceTimes(statuses, id, 9)[id].progress == ProgressCeiling
    ensures AdvanceTimes(statuses, id, 8)[id].progress == 80
  {
    AdvanceTimesProgress(statuses, id, 9);
    AdvanceTimesProgress(statuses, id, 8);
  }

  /** One round of progress: every running interval fires once, oldest
      first. Only the progress of a file with a running interval moves. */
  function TickRound(statuses: map<FileId, UploadStatus>, timers: seq<FileId>): (r: map<FileId, UploadStatus>)
    ensures r.Keys == statuses.Keys
    ensures forall k :: k in statuses ==> r[k].phase == statuses[k].phase && r[k].error == statuses[k].error
    ensures forall k :: k in statuses && k !in timers ==> r[k] == statuses[k]
    ensures forall k :: k in statuses && statuses[k].progress <= ProgressCeiling ==> r[k].progress <= ProgressCeiling
  {
    if timers == [] then statuses
    else TickRound(Advance(statuses, timers[0]), timers[1..])
  }

  /** `rounds` rounds of progress while one request is in flight. */
  function Ticks(statuses: map<FileId, UploadStatus>, timers: seq<FileId>, rounds: nat): (r: map<FileId, UploadStatus>)
    ensures r.Keys == statuses.Keys
    ensures forall k :: k in statuses ==> r[k].phase == statuses[k].phase && r[k].error == statuses[k].error
    ensures forall k :: k in statuses && k !in timers ==> r[k] == statuses[k]
    ensures forall k :: k in statuses && statuses[k].progress <= ProgressCeiling ==> r[k].progress <= ProgressCeiling
  {
    if rounds == 0 then statuses else Ticks(TickRound(statuses, timers), timers, rounds - 1)
  }

  /** The interval started last is the one `clearInterval` stops. */
  function StopLast(timers: seq<FileId>): (r: seq<FileId>)
    ensures timers != [] ==> timers == r + [timers[|timers| - 1]]
  {
    if timers == [] then [] else timers[..|timers| - 1]
  }

  /** Marks `id` as uploading, keeping its progress, and starts its
      interval. */
  function StartFile(st: State, id: FileId): (r: State)
    ensures r.timers == st.timers + [id]
    ensures id in st.statuses ==> r.statuses == st.statuses[id := st.statuses[id].(phase := Uploading)]
    ensures id !in st.statuses ==> r.statuses == st.statuses
    ensures r.selected == st.selected && r.error == st.error && r.uploading == st.uploading
  {
    st.(statuses := if id in st.statuses then st.statuses[id := st.statuses[id].(phase := Uploading)]
                    else st.statuses,
        timers := st.timers + [id])
  }

  /** The status an upload ends in: success at 100%, or failure with the
      message and the progress reached so far. */
  function Settle(s: UploadStatus, outcome: Uploaded): (r: UploadStatus)
    ensures r.phase == Success <==> outcome.Uploaded?
  {
    match outcome
    case Uploaded(_) => s.(phase := Success, progress := 100)
    case UploadError(m) => s.(phase := Failure, error := Some(m))
  }

  /** The end of one file's upload, with the interval stopped however the
      request ended. */
  function Finish(st: State, id: FileId, outcome: Uploaded): (r: State)
    ensures st.timers != [] ==> |r.timers| < |st.timers|
  {
    st.(statuses := if id in st.statuses then st.statuses[id := Settle(st.statuses[id], outcome)]
                    else st.statuses,
        timers := StopLast(st.timers))
  }

  /** The end of one file's upload as the source writes it: the interval is
      stopped only after a successful request, because a thrown error skips
      `clearInterval` on its way to the `catch`. */
  function FinishAsWritten(st: State, id: FileId, outcome: Uploaded): (r: State)
    ensures outcome.UploadError? ==> r.timers == st.timers
    ensures outcome.Uploaded? ==> r == Finish(st, id, outcome)
  {
    st.(statuses := if id in st.statuses then st.statuses[id := Settle(st.statuses[id], outcome)]
                    else st.statuses,
        timers := if outcome.Uploaded? then StopLast(st.timers) else st.timers)
  }

  /** How the upload of one file goes: the rounds of progress while the
      request is in flight, and how reading, compressing and sending it
      ended. */
  datatype FileRun = FileRun(rounds: nat, transfer: Transfer)

  /** What `uploadPhotoToGoogleDrive` returns for the `i`-th file. */
  function OutcomeOf(sel: Selected, activityId: string, folderId: Option<string>, run: FileRun): Uploaded
  {
    UploadPhoto(UploadRequest(sel.file, activityId, folderId), run.transfer)
  }

  /** One pass of the loop of `handleUpload`: mark the file uploading,
      let its interval run while the request is in flight, settle it. */
  function UploadOne(st: State, sel: Selected, activityId: string, folderId: Option<string>,
                     run: FileRun, asWritten: bool): (r: State)
    ensures r.selected == st.selected && r.uploading == st.uploading && r.error == st.error
  {
    var started := StartFile(st, sel.id);
    var ticked := started.(statuses := Ticks(started.statuses, started.timers, run.rounds));
    var outcome := OutcomeOf(sel, activityId, folderId, run);
    if asWritten then FinishAsWritten(ticked, sel.id, outcome) else Finish(ticked, sel.id, outcome)
  }

  /** The loop of `handleUpload` over `files`, the `k`-th file onward. */
  function RunFiles(st: State, files: seq<Selected>, activityId: string, folderId: Option<string>,
                    plan: nat -> FileRun, k: nat, asWritten: bool): (r: State)
    ensures r.selected == st.selected && r.uploading == st.uploading && r.error == st.error
    decreases |files|
  {
    if files == [] then st
    else
      var next := UploadOne(st, files[0], activityId, folderId, plan(k), asWritten);
      RunFiles(next, files[1..], activityId, folderId, plan, k + 1, asWritten)
  }

  /** `handleUpload` up to the end of its loop: nothing happens without a
      chosen file; otherwise every chosen file is reset to pending and
      uploaded in order. */
  function UploadAll(st: State, activityId: string, folderId: Option<string>, plan: nat -> FileRun): (r: State)
    ensures r.selected == st.selected
    ensures st.selected != [] ==> r.uploading && r.error == None
  {
    if st.selected == [] then st
    else
      var begun := st.(uploading := true, error := None, statuses := PendingStatuses(st.selected));
      RunFiles(begun, st.selected, activityId, folderId, plan, 0, false)
  }

  /** The same with the interval stopped only on success. */
  function UploadAllAsWritten(st: State, activityId: string, folderId: Option<string>,
                              plan: nat -> FileRun): (r: State)
    ensures r.selected == st.selected
  {
    if st.selected == [] then st
    else
      var begun := st.(uploading := true, error := None, statuses := PendingStatuses(st.selected));
      RunFiles(begun, st.selected, activityId, folderId, plan, 0, true)
  }

  /** How a finished upload shows in the status map: success at 100%, or
      failure carrying the message with the progress still below the
      ceiling. */
  predicate SettledIn(m: map<FileId, UploadStatus>, id: FileId, outcome: Uploaded)
  {
    id in m &&
    match outcome
    case Uploaded(_) => m[id].phase == Success && m[id].progress == 100
    case UploadError(e) => m[id].phase == Failure && m[id].error == Some(e) && m[id].progress <= ProgressCeiling
  }

  /** The outcomes of the uploads of `files`, the `k`-th plan entry
      onward. */
  function Outcomes(files: seq<Selected>, activityId: string, folderId: Option<string>,
                    plan: nat -> FileRun, k: nat): (r: seq<Uploaded>)
    ensures |r| == |files|
    ensures forall i :: 0 <= i < |files| ==> r[i] == OutcomeOf(files[i], activityId, folderId, plan(k + i))
  {
    seq(|files|, i requires 0 <= i < |files| => OutcomeOf(files[i], activityId, folderId, plan(k + i)))
  }

  /** Each id shows the outcome at the same position. */
  predicate AllSettled(m: map<FileId, UploadStatus>, ids: seq<FileId>, outcomes: seq<Uploaded>)
  {
    |ids| == |outcomes| && forall i :: 0 <= i < |ids| ==> SettledIn(m, ids[i], outcomes[i])
  }

  /** Two status maps agree on every key outside `ids`. */
  predicate SameOutside(a: map<FileId, UploadStatus>, b: map<FileId, UploadStatus>, ids: seq<FileId>)
  {
    a.Keys == b.Keys && forall key :: key in a && key !in ids ==> b[key] == a[key]
  }

  /** One file's upload with the interval stopped in every case: it
      settles, and nothing else changes. */
  lemma FileSettles(st: State, sel: Selected, activityId: string, folderId: Option<string>, run: FileRun)
    requires st.timers == []
    requires sel.id in st.statuses && st.statuses[sel.id].progress <= ProgressCeiling
    ensures var r := UploadOne(st, sel, activityId, folderId, run, false);
      r.timers == [] && SameOutside(st.statuses, r.statuses, [sel.id])
      && SettledIn(r.statuses, sel.id, OutcomeOf(sel, activityId, folderId, run))
  {
    var started := StartFile(st, sel.id);
    assert started.timers == [sel.id];
    var t := Ticks(started.statuses, started.timers, run.rounds);
    assert t[sel.id].progress <= ProgressCeiling;
  }

  /** The loop settles every file by its own upload's outcome, stops every
      interval it starts, and leaves the statuses of other files alone. */
  lemma {:induction false} RunFilesSettles(st: State, files: seq<Selected>, activityId: string,
                                          folderId: Option<string>, plan: nat -> FileRun, k: nat)
    requires st.timers == []
    requires Distinct(Ids(files))
    requires forall i :: 0 <= i < |files| ==>
               files[i].id in st.statuses && st.statuses[files[i].id].progress <= ProgressCeiling
    ensures var r := RunFiles(st, files, activityId, folderId, plan, k, false);
      r.timers == [] && SameOutside(st.statuses, r.statuses, Ids(files))
      && AllSettled(r.statuses, Ids(files), Outcomes(files, activityId, folderId, plan, k))
    decreases |files|
  {
    if files != [] {
      var one := UploadOne(st, files[0], activityId, folderId, plan(k), false);
      FileSettles(st, files[0], activityId, folderId, plan(k));
      StepPrepares(st.statuses, one.statuses, files);
      RunFilesSettles(one, files[1..], activityId, folderId, plan, k + 1);
      var r := RunFiles(one, files[1..], activityId, folderId, plan, k + 1, false);
      var ids := Ids(files);
      var outcomes := Outcomes(files, activityId, folderId, plan, k);
      IdsTail(files);
      OutcomesTail(files, activityId, folderId, plan, k);
      StepSettles(st.statuses, one.statuses, r.statuses, ids, outcomes);
    }
  }

  lemma IdsTail(files: seq<Selected>)
    requires files != []
    ensures Ids(files)[1..] == Ids(files[1..])
  {
  }

  lemma OutcomesTail(files: seq<Selected>, activityId: string, folderId: Option<string>,
                     plan: nat -> FileRun, k: nat)
    requires files != []
    ensures Outcomes(files, activityId, folderId, plan, k)[1..] == Outcomes(files[1..], activityId, folderId, plan, k + 1)
  {
    var a := Outcomes(files, activityId, folderId, plan, k)[1..];
    var b := Outcomes(files[1..], activityId, folderId, plan, k + 1);
    forall i | 0 <= i < |a| ensures a[i] == b[i] {
      assert files[1..][i] == files[i + 1];
    }
  }

  /** After the first file's pass, the rest are still present and below the
      ceiling. */
  lemma StepPrepares(a: map<FileId, UploadStatus>, b: map<FileId, UploadStatus>, files: seq<Selected>)
    requires files != [] && Distinct(Ids(files))
    requires SameOutside(a, b, [files[0].id])
    requires forall i :: 0 <= i < |files| ==> files[i].id in a && a[files[i].id].progress <= ProgressCeiling
    ensures Distinct(Ids(files[1..]))
    ensures forall i :: 0 <= i < |files[1..]| ==>
              files[1..][i].id in b && b[files[1..][i].id].progress <= ProgressCeiling
  {
    assert Ids(files) == [files[0].id] + Ids(files[1..]);
    DistinctParts([files[0].id], Ids(files[1..]));
    forall i | 0 <= i < |files[1..]|
      ensures files[1..][i].id in b && b[files[1..][i].id].progress <= ProgressCeiling
    {
      assert files[1..][i] == files[i + 1];
      assert Ids(files)[0] != Ids(files)[i + 1];
    }
  }

  /** The first file's settled status survives the passes over the rest. */
  lemma StepSettles(a: map<FileId, UploadStatus>, b: map<FileId, UploadStatus>, c: map<FileId, UploadStatus>,
                    ids: seq<FileId>, outcomes: seq<Uploaded>)
    requires ids != [] && |ids| == |outcomes| && Distinct(ids)
    requires SameOutside(a, b, [ids[0]]) && SettledIn(b, ids[0], outcomes[0])
    requires SameOutside(b, c, ids[1..]) && AllSettled(c, ids[1..], outcomes[1..])
    ensures SameOutside(a, c, ids)
    ensures AllSettled(c, ids, outcomes)
  {
    assert ids == [ids[0]] + ids[1..];
    DistinctParts([ids[0]], ids[1..]);
    SameOutsideTrans(a, b, c, ids[0], ids[1..]);
    assert c[ids[0]] == b[ids[0]];
    forall i | 0 < i < |ids|
      ensures SettledIn(c, ids[i], outcomes[i])
    {
      assert ids[1..][i - 1] == ids[i] && outcomes[1..][i - 1] == outcomes[i];
    }
  }

  lemma SameOutsideTrans(a: map<FileId, UploadStatus>, b: map<FileId, UploadStatus>,
                         c: map<FileId, UploadStatus>, id: FileId, rest: seq<FileId>)
    requires SameOutside(a, b, [id]) && SameOutside(b, c, rest)
    ensures SameOutside(a, c, [id] + rest)
  {
  }

  /** `handleUpload` with the interval stopped in every case: every chosen
      file ends settled by its own upload, in the order chosen; the status
      map holds exactly the chosen files; no interval is left running; and
      the files counted as uploaded are exactly those whose upload
      succeeded. */
  lemma UploadAllSettles(st: State, activityId: string, folderId: Option<string>, plan: nat -> FileRun)
    requires st.timers == [] && Distinct(Ids(st.selected))
    ensures var r := UploadAll(st, activityId, folderId, plan);
      r.timers == []
      && AllSettled(r.statuses, Ids(st.selected), Outcomes(st.selected, activityId, folderId, plan, 0))
      && (st.selected != [] ==> forall key :: key in r.statuses <==> key in Ids(st.selected))
  {
    if st.selected != [] {
      var begun := st.(uploading := true, error := None, statuses := PendingStatuses(st.selected));
      RunFilesSettles(begun, st.selected, activityId, folderId, plan, 0);
    }
  }

  /** The uploaded count after a batch is the number of succeeded uploads
      among the chosen files. */
  lemma UploadedCountAfterBatch(st: State, activityId: string, folderId: Option<string>, plan: nat -> FileRun)
    requires st.timers == [] && Distinct(Ids(st.selected)) && st.selected != []
    ensures var r := UploadAll(st, activityId, folderId, plan);
      var outcomes := Outcomes(st.selected, activityId, folderId, plan, 0);
      Succeeded(r.statuses) == set i | 0 <= i < |st.selected| && outcomes[i].Uploaded? :: Ids(st.selected)[i]
  {
    UploadAllSettles(st, activityId, folderId, plan);
    var r := UploadAll(st, activityId, folderId, plan);
    SucceededAre(r.statuses, Ids(st.selected), Outcomes(st.selected, activityId, folderId, plan, 0));
  }

  /** In a map whose keys are the settled ids, the succeeded ids are those
      whose upload succeeded. */
  lemma SucceededAre(m: map<FileId, UploadStatus>, ids: seq<FileId>, outcomes: seq<Uploaded>)
    requires AllSettled(m, ids, outcomes)
    requires forall key :: key in m <==> key in ids
    ensures Succeeded(m) == set i | 0 <= i < |ids| && outcomes[i].Uploaded? :: ids[i]
  {
    var want := set i | 0 <= i < |ids| && outcomes[i].Uploaded? :: ids[i];
    forall key | key in Succeeded(m) ensures key in want {
      var i :| 0 <= i < |ids| && ids[i] == key;
      assert SettledIn(m, ids[i], outcomes[i]);
    }
    forall key | key in want ensures key in Succeeded(m) {
      var i :| 0 <= i < |ids| && outcomes[i].Uploaded? && ids[i] == key;
      assert SettledIn(m, ids[i], outcomes[i]);
    }
  }

  /** After a cancel, an upload does nothing and nothing counts as
      uploaded. */
  lemma CancelClears(st: State, activityId: string, folderId: Option<string>, plan: nat -> FileRun)
    ensures UploadAll(Cancel(st), activityId, folderId, plan) == Cancel(st)
    ensures UploadedCount(Cancel(st).statuses) == 0
  {
  }

  /** `allSuccess`: every status in the map reads as success. Like
      `Array.prototype.every`, it holds of an empty map. */
  predicate AllSuccess(statuses: map<FileId, UploadStatus>)
  {
    forall k :: k in statuses ==> statuses[k].phase == Success
  }

  /** What follows the loop, given the status map `allSuccess` is judged
      on: when every status in it reads as success, the batch is cleared
      (after a pause of 1.5 s, through which the form stays locked);
      otherwise the form is unlocked with the results kept. */
  function FinishBatch(st: State, judged: map<FileId, UploadStatus>): (r: State)
    ensures !r.uploading && r.error == st.error && r.timers == st.timers
    ensures AllSuccess(judged) ==> r.selected == [] && r.statuses == map[]
    ensures !AllSuccess(judged) ==> r.selected == st.selected && r.statuses == st.statuses
  {
    if AllSuccess(judged) then st.(selected := [], statuses := map[], uploading := false)
    else st.(uploading := false)
  }

  /** The whole of `handleUpload` as written, through the timeout it may
      set. `allSuccess` reads `uploadStatuses` as the render in which
      Upload was clicked saw it, not the statuses the loop produced. */
  function BatchAsWritten(st: State, activityId: string, folderId: Option<string>,
                          plan: nat -> FileRun): (r: State)
    ensures st.selected == [] ==> r == st
    ensures st.selected != [] ==> !r.uploading && r.error == None
  {
    if st.selected == [] then st
    else FinishBatch(UploadAllAsWritten(st, activityId, folderId, plan), st.statuses)
  }

  /** `handleUpload` corrected: every request's interval is stopped, and
      `allSuccess` is judged on the statuses the loop produced. */
  function Batch(st: State, activityId: string, folderId: Option<string>, plan: nat -> FileRun): (r: State)
    ensures st.selected == [] ==> r == st
    ensures st.selected != [] ==> !r.uploading && r.error == None
  {
    if st.selected == [] then st
    else
      var done := UploadAll(st, activityId, folderId, plan);
      FinishBatch(done, done.statuses)
  }

  /** In a map holding exactly the settled ids, every status reads as
      success iff every upload succeeded. */
  lemma AllSuccessIff(m: map<FileId, UploadStatus>, ids: seq<FileId>, outcomes: seq<Uploaded>)
    requires AllSettled(m, ids, outcomes)
    requires forall key :: key in m <==> key in ids
    ensures AllSuccess(m) <==> forall i :: 0 <= i < |outcomes| ==> outcomes[i].Uploaded?
  {
    if AllSuccess(m) {
      forall i | 0 <= i < |outcomes| ensures outcomes[i].Uploaded? {
        assert SettledIn(m, ids[i], outcomes[i]);
      }
    }
    if forall i :: 0 <= i < |outcomes| ==> outcomes[i].Uploaded? {
      forall key | key in m ensures m[key].phase == Success {
        var i :| 0 <= i < |ids| && ids[i] == key;
        assert SettledIn(m, ids[i], outcomes[i]);
      }
    }
  }

  /** With the corrected batch, the chosen files are cleared exactly when
      every upload succeeded; otherwise they stay, each showing its own
      outcome (a failure with its message), and the form is unlocked. */
  lemma BatchKeepsFailures(st: State, activityId: string, folderId: Option<string>, plan: nat -> FileRun)
    requires st.timers == [] && Distinct(Ids(st.selected)) && st.selected != []
    ensures var r := Batch(st, activityId, folderId, plan);
      var outcomes := Outcomes(st.selected, activityId, folderId, plan, 0);
      && !r.uploading && r.timers == []
      && (r.selected == [] <==> forall i :: 0 <= i < |outcomes| ==> outcomes[i].Uploaded?)
      && (r.selected != [] ==> r.selected == st.selected && AllSettled(r.statuses, Ids(st.selected), outcomes))
  {
    var done := UploadAll(st, activityId, folderId, plan);
    var outcomes := Outcomes(st.selected, activityId, folderId, plan, 0);
    UploadAllSettles(st, activityId, folderId, plan);
    AllSuccessIff(done.statuses, Ids(st.selected), outcomes);
  }

  /** What the participant can do while the form is not busy: choose
      files, remove one, cancel, click Upload (the batch then runs to its
      end; no control is enabled meanwhile), or let the progress intervals
      still running fire once each. */
  datatype Action =
    | Choose(files: seq<FileInfo>, now: int)
    | RemoveClick(id: FileId)
    | CancelClick
    | UploadClick(plan: nat -> FileRun)
    | Tick

  function ActAsWritten(st: State, activityId: string, folderId: Option<string>, a: Action): State
  {
    match a
    case Choose(files, now) => SelectFiles(st, files, now)
    case RemoveClick(id) => RemoveFile(st, id)
    case CancelClick => Cancel(st)
    case UploadClick(plan) => BatchAsWritten(st, activityId, folderId, plan)
    case Tick => st.(statuses := TickRound(st.statuses, st.timers))
  }

  function RunAsWritten(st: State, activityId: string, folderId: Option<string>, acts: seq<Action>): State
    decreases |acts|
  {
    if acts == [] then st else RunAsWritten(ActAsWritten(st, activityId, folderId, acts[0]), activityId, folderId, acts[1..])
  }

  lemma {:induction false} RunAsWrittenQuiet(st: State, activityId: string, folderId: Option<string>,
                                            acts: seq<Action>)
    requires !st.uploading && st.statuses == map[]
    ensures var r := RunAsWritten(st, activityId, folderId, acts);
      !r.uploading && r.statuses == map[]
    decreases |acts|
  {
    if acts != [] {
      var next := ActAsWritten(st, activityId, folderId, acts[0]);
      assert !next.uploading && next.statuses == map[] by {
        match acts[0]
        case RemoveClick(id) =>
          assert forall k :: k !in next.statuses;
        case Tick =>
          assert next.statuses.Keys == st.statuses.Keys;
        case _ =>
      }
      RunAsWrittenQuiet(next, activityId, folderId, acts[1..]);
    }
  }

  /** As written, whatever the participant did before, the form is never
      busy between actions and no status is ever shown then; so the render
      in which Upload is clicked always sees an empty map, `allSuccess` is
      always true, and every batch ends cleared, failed uploads included:
      the branch that keeps the results is never taken. */
  lemma EveryBatchEndsCleared(activityId: string, folderId: Option<string>, before: seq<Action>,
                              plan: nat -> FileRun)
    ensures var st := RunAsWritten(Initial, activityId, folderId, before);
      && !st.uploading && st.statuses == map[]
      && var r := BatchAsWritten(st, activityId, folderId, plan);
         r.selected == [] && r.statuses == map[] && !r.uploading
  {
    RunAsWrittenQuiet(Initial, activityId, folderId, before);
  }

  /** A concrete case: one JPEG that the backend refuses with "busy". The
      upload fails, yet the batch ends with the file and its failure
      message cleared, as if it had succeeded. */
  lemma FailedBatchIsCleared()
    ensures var sel := Selected(FileInfo("a.jpg", "image/jpeg", 1), FileId(0, 0));
      var plan := (_: nat) => FileRun(0, Refused("busy"));
      var st := Initial.(selected := [sel]);
      && sel.id in UploadAllAsWritten(st, "a", Some("f"), plan).statuses
      && UploadAllAsWritten(st, "a", Some("f"), plan).statuses[sel.id].phase == Failure
      && BatchAsWritten(st, "a", Some("f"), plan).selected == []
      && BatchAsWritten(st, "a", Some("f"), plan).statuses == map[]
  {
    var sel := Selected(FileInfo("a.jpg", "image/jpeg", 1), FileId(0, 0));
    var plan := (_: nat) => FileRun(0, Refused("busy"));
    var st := Initial.(selected := [sel]);
    var begun := st.(uploading := true, error := None, statuses := PendingStatuses(st.selected));
    RefusedJpeg(sel, plan(0));
    assert st.selected[0] == sel;
    AsWrittenFailureLeaksTimer(begun, sel, "a", Some("f"), plan(0));
    assert RunFiles(begun, [sel], "a", Some("f"), plan, 0, true) == UploadOne(begun, sel, "a", Some("f"), plan(0), true);
  }

  /** As the source writes it, a failed upload leaves its interval running
      and its status still advancing. */
  lemma AsWrittenFailureLeaksTimer(st: State, sel: Selected, activityId: string, folderId: Option<string>,
                                   run: FileRun)
    requires sel.id in st.statuses && OutcomeOf(sel, activityId, folderId, run).UploadError?
    ensures var r := UploadOne(st, sel, activityId, folderId, run, true);
      r.timers == st.timers + [sel.id] && sel.id in r.statuses && r.statuses[sel.id].phase == Failure
  {
  }

  /** A concrete case: one file refused by the backend, with no progress
      round before the refusal, ends failed at 0% with its interval alive,
      and the next round moves the failed file's progress to 10%. */
  lemma LeakedTimerAfterFailure()
    ensures var sel := Selected(FileInfo("a.jpg", "image/jpeg", 1), FileId(0, 0));
      var r := UploadAllAsWritten(Initial.(selected := [sel]), "a", Some("f"), (_: nat) => FileRun(0, Refused("busy")));
      r.timers == [sel.id] && sel.id in r.statuses && r.statuses[sel.id].phase == Failure
      && r.statuses[sel.id].progress == 0 && TickRound(r.statuses, r.timers)[sel.id].progress == 10
  {
    var sel := Selected(FileInfo("a.jpg", "image/jpeg", 1), FileId(0, 0));
    var run := FileRun(0, Refused("busy"));
    var st := Initial.(selected := [sel]);
    var begun := st.(uploading := true, error := None, statuses := PendingStatuses(st.selected));
    RefusedJpeg(sel, run);
    assert st.selected[0] == sel;
    AsWrittenFailureLeaksTimer(begun, sel, "a", Some("f"), run);
    var r := UploadOne(begun, sel, "a", Some("f"), run, true);
    assert RunFiles(begun, [sel], "a", Some("f"), (_: nat) => run, 0, true) == r;
    assert r.statuses[sel.id].progress == 0;
  }

  lemma RefusedJpeg(sel: Selected, run: FileRun)
    requires sel.file.mimeType == "image/jpeg" && sel.file.size == 1 && run.transfer == Refused("busy")
    ensures OutcomeOf(sel, "a", Some("f"), run) == UploadError("busy")
  {
    assert StartsWith(sel.file.mimeType, ImagePrefix);
  }
}

=== FILE: photo_wall.dfy ===
/** The photo wall (src/components/PhotoWall.tsx): a grid of every photo
    whose image has not failed to load, newest first, or a slideshow whose
    current photo the backend chooses, shown with a cross-fade. Image loading,
    lazy loading and the fade timer are events; React effects are modelled
    by re-running the effect whenever its dependencies change. */
module PhotoWall {
  import opened Base

  /** The fields of a photo record the wall uses; `uploadedAt` is a
      millisecond timestamp. */
  datatype Photo = Photo(id: string, thumbnailUrl: string, fullUrl: string, uploadedAt: int)

  datatype Mode = Grid | Slideshow

  /** The photos the grid shows: those whose id has not failed, in the
      order given (`validPhotos`). */
  function ValidPhotos(photos: seq<Photo>, failed: set<string>): (r: seq<Photo>)
    ensures forall p :: p in r <==> p in photos && p.id !in failed
    ensures Subsequence(r, photos)
  {
    Filter(photos, (p: Photo) => p.id !in failed)
  }

  /** A failed id is never shown again... */
  lemma FailedNeverShown(photos: seq<Photo>, failed: set<string>, id: string)
    requires id in failed
    ensures forall p :: p in ValidPhotos(photos, failed) ==> p.id != id
  {
  }

  /** ... and filtering with a larger failed set is filtering the already
      filtered list again: failures only ever remove photos, keeping the
      order of the rest. */
  lemma {:induction false} ValidPhotosMonotone(photos: seq<Photo>, f1: set<string>, f2: set<string>)
    requires f1 <= f2
    ensures ValidPhotos(ValidPhotos(photos, f1), f2) == ValidPhotos(photos, f2)
    decreases |photos|
  {
    if photos != [] {
      ValidPhotosMonotone(photos[1..], f1, f2);
      var rest := ValidPhotos(photos[1..], f1);
      if photos[0].id !in f1 {
        assert ValidPhotos(photos, f1) == [photos[0]] + rest;
        assert ([photos[0]] + rest)[1..] == rest;
      }
    }
  }

  /** An image failing to load adds its id to the failed set
      (`setFailedPhotoIds(prev => new Set([...prev, id]))`); nothing ever
      removes one. */
  function MarkFailed(failed: set<string>, id: string): (r: set<string>)
    ensures failed <= r && id in r
    ensures forall x :: x in r ==> x in failed || x == id
  {
    failed + {id}
  }

  /** The failed set after a run of load failures. */
  function FailAll(failed: set<string>, ids: seq<string>): set<string>
    decreases |ids|
  {
    if ids == [] then failed else FailAll(MarkFailed(failed, ids[0]), ids[1..])
  }

  /** After any run of failures the set holds exactly the earlier ids and the
      failed ones: it only grows. */
  lemma {:induction false} FailAllGrows(failed: set<string>, ids: seq<string>)
    ensures FailAll(failed, ids) == failed + set i | i in ids
    decreases |ids|
  {
    if ids != [] {
      FailAllGrows(MarkFailed(failed, ids[0]), ids[1..]);
      assert (set i | i in ids) == {ids[0]} + set i | i in ids[1..] by {
        assert forall i :: i in ids <==> i == ids[0] || i in ids[1..] by {
          assert ids == [ids[0]] + ids[1..];
        }
      }
    }
  }

  /** Newest first: `uploadedAt` does not increase along the sequence. */
  predicate NewestFirst(s: seq<Photo>)
  {
    forall i, j :: 0 <= i < j < |s| ==> s[i].uploadedAt >= s[j].uploadedAt
  }

  /** The photos of `s` uploaded at time `t`, in their order in `s`. */
  function UploadedAt(s: seq<Photo>, t: int): (r: seq<Photo>)
    ensures forall p :: p in r <==> p in s && p.uploadedAt == t
  {
    Filter(s, (p: Photo) => p.uploadedAt == t)
  }

  /** Places `x` before the first photo of `s` uploaded no later than it. */
  function Insert(x: Photo, s: seq<Photo>): (r: seq<Photo>)
    ensures multiset(r) == multiset(s) + multiset{x}
    decreases |s|
  {
    if s == [] || s[0].uploadedAt <= x.uploadedAt then [x] + s
    else
      assert s == [s[0]] + s[1..];
      [s[0]] + Insert(x, s[1..])
  }

  /** The grid order: `sort((a, b) => b.uploadedAt - a.uploadedAt)`, which
      JavaScript requires to be stable; an insertion sort with that
      comparator. */
  function SortNewestFirst(s: seq<Photo>): (r: seq<Photo>)
    ensures multiset(r) == multiset(s)
    decreases |s|
  {
    if s == [] then []
    else
      assert s == [s[0]] + s[1..];
      Insert(s[0], SortNewestFirst(s[1..]))
  }

  /** No photo of `s` is newer than `t`. */
  predicate NoneNewerThan(s: seq<Photo>, t: int)
  {
    forall i :: 0 <= i < |s| ==> s[i].uploadedAt <= t
  }

  lemma InsertNoneNewer(x: Photo, s: seq<Photo>, t: int)
    requires NoneNewerThan(s, t) && x.uploadedAt <= t
    ensures NoneNewerThan(Insert(x, s), t)
  {
    var r := Insert(x, s);
    forall i | 0 <= i < |r| ensures r[i].uploadedAt <= t {
      assert r[i] in multiset(s) + multiset{x};
      if r[i] != x {
        var k :| 0 <= k < |s| && s[k] == r[i];
      }
    }
  }

  lemma ConsNewestFirst(h: Photo, s: seq<Photo>)
    requires NewestFirst(s) && NoneNewerThan(s, h.uploadedAt)
    ensures NewestFirst([h] + s)
  {
    var r := [h] + s;
    forall i, j | 0 <= i < j < |r| ensures r[i].uploadedAt >= r[j].uploadedAt {
      assert r[j] == s[j - 1];
      if i > 0 {
        assert r[i] == s[i - 1];
      }
    }
  }

  lemma NewestFirstHead(s: seq<Photo>)
    requires NewestFirst(s) && s != []
    ensures NoneNewerThan(s[1..], s[0].uploadedAt)
  {
    forall i | 0 <= i < |s[1..]| ensures s[1..][i].uploadedAt <= s[0].uploadedAt {
      assert s[1..][i] == s[i + 1];
    }
  }

  lemma {:induction false} InsertSorted(x: Photo, s: seq<Photo>)
    requires NewestFirst(s)
    ensures NewestFirst(Insert(x, s))
    decreases |s|
  {
    if s == [] || s[0].uploadedAt <= x.uploadedAt {
      if s != [] {
        NewestFirstHead(s);
        assert NoneNewerThan(s, x.uploadedAt) by {
          assert s == [s[0]] + s[1..];
        }
      }
      ConsNewestFirst(x, s);
    } else {
      NewestFirstTail(s);
      InsertSorted(x, s[1..]);
      NewestFirstHead(s);
      InsertNoneNewer(x, s[1..], s[0].uploadedAt);
      ConsNewestFirst(s[0], Insert(x, s[1..]));
    }
  }

  /** Inserting `x` adds it in front of the photos uploaded at the same
      time, and leaves the order among them alone. */
  lemma {:induction false} InsertStable(x: Photo, s: seq<Photo>, t: int)
    ensures UploadedAt(Insert(x, s), t)
            == (if x.uploadedAt == t then [x] else []) + UploadedAt(s, t)
    decreases |s|
  {
    if s == [] || s[0].uploadedAt <= x.uploadedAt {
      assert ([x] + s)[0] == x && ([x] + s)[1..] == s;
    } else {
      InsertStable(x, s[1..], t);
      var r := [s[0]] + Insert(x, s[1..]);
      assert r[0] == s[0] && r[1..] == Insert(x, s[1..]);
    }
  }

  /** The grid is newest first. */
  lemma {:induction false} SortIsNewestFirst(s: seq<Photo>)
    ensures NewestFirst(SortNewestFirst(s))
    decreases |s|
  {
    if s != [] {
      SortIsNewestFirst(s[1..]);
      InsertSorted(s[0], SortNewestFirst(s[1..]));
    }
  }

  /** The sort is stable: photos uploaded at the same time keep their
      relative order. */
  lemma {:induction false} SortIsStable(s: seq<Photo>, t: int)
    ensures UploadedAt(SortNewestFirst(s), t) == UploadedAt(s, t)
    decreases |s|
  {
    if s != [] {
      SortIsStable(s[1..], t);
      InsertStable(s[0], SortNewestFirst(s[1..]), t);
    }
  }

  /** Every ordering that is newest first and keeps same-time photos in
      their original order is the sort's ordering. */
  lemma {:induction false} SortIsUnique(s: seq<Photo>, r: seq<Photo>)
    requires NewestFirst(r)
    requires forall t :: UploadedAt(r, t) == UploadedAt(s, t)
    ensures r == SortNewestFirst(s)
    decreases |r|
  {
    var q := SortNewestFirst(s);
    SortIsNewestFirst(s);
    forall t ensures UploadedAt(q, t) == UploadedAt(r, t) {
      SortIsStable(s, t);
    }
    SameGroupsSameOrder(r, q);
  }

  /** Two newest-first sequences with the same photos per upload time are
      equal. */
  lemma {:induction false} SameGroupsSameOrder(a: seq<Photo>, b: seq<Photo>)
    requires NewestFirst(a) && NewestFirst(b)
    requires forall t :: UploadedAt(a, t) == UploadedAt(b, t)
    ensures a == b
    decreases |a| + |b|
  {
    if a == [] || b == [] {
      if a != [] {
        HeadOfGroup(a, a[0].uploadedAt);
      } else if b != [] {
        HeadOfGroup(b, b[0].uploadedAt);
      }
    } else {
      HeadIsNewest(a, b);
      HeadIsNewest(b, a);
      var t := a[0].uploadedAt;
      HeadOfGroup(a, t);
      HeadOfGroup(b, t);
      assert UploadedAt(a, t) == UploadedAt(b, t);
      forall u ensures UploadedAt(a[1..], u) == UploadedAt(b[1..], u) {
        TailGroups(a, b, u);
      }
      NewestFirstTail(a);
      NewestFirstTail(b);
      SameGroupsSameOrder(a[1..], b[1..]);
      assert a == [a[0]] + a[1..] && b == [b[0]] + b[1..];
    }
  }

  lemma TailGroups(a: seq<Photo>, b: seq<Photo>, u: int)
    requires a != [] && b != [] && a[0] == b[0]
    requires UploadedAt(a, u) == UploadedAt(b, u)
    ensures UploadedAt(a[1..], u) == UploadedAt(b[1..], u)
  {
    DropHead(a, u);
    DropHead(b, u);
    var h := if a[0].uploadedAt == u then [a[0]] else [];
    assert (h + UploadedAt(a[1..], u))[|h|..] == UploadedAt(a[1..], u);
    assert (h + UploadedAt(b[1..], u))[|h|..] == UploadedAt(b[1..], u);
  }

  lemma NewestFirstTail(s: seq<Photo>)
    requires NewestFirst(s) && s != []
    ensures NewestFirst(s[1..])
  {
    forall i, j | 0 <= i < j < |s[1..]| ensures s[1..][i].uploadedAt >= s[1..][j].uploadedAt {
      assert s[1..][i] == s[i + 1] && s[1..][j] == s[j + 1];
    }
  }

  /** The head of a newest-first sequence is at least as new as anything in
      another with the same groups. */
  lemma HeadIsNewest(a: seq<Photo>, b: seq<Photo>)
    requires NewestFirst(a) && a != [] && b != []
    requires forall t :: UploadedAt(a, t) == UploadedAt(b, t)
    ensures a[0].uploadedAt >= b[0].uploadedAt
  {
    var t := b[0].uploadedAt;
    HeadOfGroup(b, t);
    assert b[0] in UploadedAt(a, t);
    var k :| 0 <= k < |a| && a[k] == b[0];
  }

  /** The first photo of a group is the sequence's head when the head is in
      that group. */
  lemma HeadOfGroup(s: seq<Photo>, t: int)
    requires s != [] && s[0].uploadedAt == t
    ensures UploadedAt(s, t) != [] && UploadedAt(s, t)[0] == s[0]
  {
    assert s == [s[0]] + s[1..];
  }

  /** Dropping the head drops it from its group only. */
  lemma DropHead(s: seq<Photo>, t: int)
    requires s != []
    ensures UploadedAt(s, t) == (if s[0].uploadedAt == t then [s[0]] else []) + UploadedAt(s[1..], t)
  {
    assert s == [s[0]] + s[1..];
  }

  /** The values the transition effect depends on
      (`[currentPhoto, displayedPhoto, mode]`). */
  datatype Deps = Deps(current: Option<Photo>, displayed: Option<Photo>, mode: Mode)

  /** The wall's slideshow state: the props it was last rendered with, its
      own state, the photo the pending fade timer will display, and the
      dependencies the effect last ran with. */
  datatype Wall = Wall(mode: Mode, current: Option<Photo>,
                       displayed: Option<Photo>, previous: Option<Photo>, transitioning: bool,
                       timer: Option<Photo>, lastRun: Option<Deps>)

  function DepsOf(w: Wall): Deps
  {
    Deps(w.current, w.displayed, w.mode)
  }

  /** The effect starts a transition only in slideshow mode, with a current
      photo whose id differs from the displayed one's. */
  predicate StartsTransition(w: Wall)
  {
    w.mode == Slideshow && w.current.Some?
    && (w.displayed.None? || w.displayed.value.id != w.current.value.id)
  }

  /** One run of the transition effect: the previous run's cleanup cancels
      any pending timer, then the effect either returns early or starts the
      fade and schedules the switch to the current photo. */
  function RunEffect(w: Wall): (r: Wall)
    ensures r.lastRun == Some(DepsOf(w)) && r.mode == w.mode && r.current == w.current
    ensures r.displayed == w.displayed
    ensures !StartsTransition(w)
            ==> r.timer == None && r.previous == w.previous && r.transitioning == w.transitioning
    ensures StartsTransition(w)
            ==> r.timer == w.current && r.previous == w.displayed && r.transitioning
  {
    var cleaned := w.(timer := None, lastRun := Some(DepsOf(w)));
    if !StartsTransition(w) then cleaned
    else cleaned.(transitioning := true, previous := w.displayed, timer := w.current)
  }

  /** React re-runs the effect after a render only when a dependency
      changed. */
  function Settle(w: Wall): (r: Wall)
    ensures r.lastRun == Some(DepsOf(r))
  {
    if w.lastRun == Some(DepsOf(w)) then w else RunEffect(w)
  }

  /** The wall as first rendered. */
  function Mount(mode: Mode, current: Option<Photo>): Wall
  {
    Settle(Wall(mode, current, None, None, false, None, None))
  }

  /** A render with new props. */
  function Render(w: Wall, mode: Mode, current: Option<Photo>): Wall
  {
    Settle(w.(mode := mode, current := current))
  }

  /** The fade timer fires: the photo it captured becomes the displayed one
      and the transition ends. */
  function TimerFires(w: Wall): Wall
  {
    match w.timer
    case None => w
    case Some(p) => Settle(w.(displayed := Some(p), transitioning := false, timer := None))
  }

  /** `photoToShow`: the old photo while fading, the displayed one after. */
  function PhotoToShow(w: Wall): (r: Option<Photo>)
    ensures w.transitioning ==> r == w.previous
    ensures !w.transitioning ==> r == w.displayed
  {
    if w.transitioning then w.previous else w.displayed
  }

  /** What holds of the wall after every render and every timer: the effect
      has run for the current dependencies, a timer is pending exactly when
      the displayed photo differs from the current one in slideshow mode, and
      a pending timer will show the current photo while the displayed one is
      kept as the fading one. */
  predicate Good(w: Wall)
  {
    && w.lastRun == Some(DepsOf(w))
    && (w.timer.Some? <==> StartsTransition(w))
    && (w.timer.Some? ==> w.timer == w.current && w.transitioning && w.previous == w.displayed)
  }

  lemma MountIsGood(mode: Mode, current: Option<Photo>)
    ensures Good(Mount(mode, current))
  {
  }

  lemma RenderKeepsGood(w: Wall, mode: Mode, current: Option<Photo>)
    requires Good(w)
    ensures Good(Render(w, mode, current))
  {
  }

  lemma TimerKeepsGood(w: Wall)
    requires Good(w)
    ensures Good(TimerFires(w))
  {
  }

  /** A render with a new photo starts the fade: the photo on screen stays
      the one displayed before, and the timer will switch to the new one.
      When it fires the new photo is shown, the fade is over, and rendering
      the same props again changes nothing. */
  lemma CrossFade(w: Wall, p: Photo)
    requires Good(w)
    requires w.displayed.None? || w.displayed.value.id != p.id
    ensures var r1 := Render(w, Slideshow, Some(p));
      && r1.transitioning && r1.timer == Some(p) && PhotoToShow(r1) == w.displayed
      && var r2 := TimerFires(r1);
      && r2.displayed == Some(p) && !r2.transitioning && r2.timer == None
      && PhotoToShow(r2) == Some(p)
      && Render(r2, Slideshow, Some(p)) == r2
  {
  }

  /** The effect does nothing but cancel the timer when the mode is not
      slideshow, there is no current photo, or its id is the displayed one. */
  lemma NoTransitionWithoutNewPhoto(w: Wall, mode: Mode, current: Option<Photo>)
    requires Good(w)
    requires mode != Slideshow || current.None?
             || (w.displayed.Some? && w.displayed.value.id == current.value.id)
    ensures var r := Render(w, mode, current);
      r.displayed == w.displayed && r.previous == w.previous
      && r.transitioning == w.transitioning && r.timer == None
  {
  }

  /** A fade interrupted by losing the current photo is never finished: its
      timer is cancelled, the wall stays in transition, and the old photo
      stays on screen until a new photo arrives. */
  lemma InterruptedFadeStays(w: Wall)
    requires Good(w) && w.timer.Some?
    ensures var r := Render(w, Slideshow, None);
      r.transitioning && r.timer == None && PhotoToShow(r) == w.displayed
      && TimerFires(r) == r
  {
  }

  /** A slideshow that is never handed a current photo (the display
      route renders the wall that way) shows nothing, however often it is
      re-rendered: only a current photo can become the displayed one. */
  lemma SlideshowWithoutCurrentIsEmpty(w: Wall, photos: seq<Photo>, failed: set<string>)
    requires Good(w) && w.displayed.None?
    ensures ViewOf(Mount(Slideshow, None), photos, failed) == Nothing
    ensures var r := Render(w, Slideshow, None);
      r.displayed.None? && r.timer.None? && ViewOf(r, photos, failed) == Nothing
  {
  }

  /** What the wall renders. */
  datatype View =
    | Nothing
    | Slides(fading: Option<Photo>, shown: Option<Photo>, incoming: Option<Photo>)
    | Tiles(items: seq<Photo>)

  /** The empty states first, then the slideshow's three layers, or the
      grid of valid photos newest first. */
  function ViewOf(w: Wall, photos: seq<Photo>, failed: set<string>): (v: View)
    ensures v.Nothing? <==> (w.mode == Slideshow && w.current.None? && w.displayed.None?)
                            || (w.mode == Grid && photos == [])
    ensures v.Slides? ==> v.shown == PhotoToShow(w) && (v.fading.Some? || v.incoming.Some? ==> w.transitioning)
    ensures v.Tiles? ==> NewestFirst(v.items)
    ensures v.Tiles? ==> forall p :: p in v.items <==> p in photos && p.id !in failed
  {
    if w.mode == Slideshow && w.current.None? && w.displayed.None? then Nothing
    else if w.mode == Grid && photos == [] then Nothing
    else if w.mode == Slideshow then
      Slides(if w.transitioning then w.previous else None, PhotoToShow(w),
             if w.transitioning then w.current else None)
    else
      var items := SortNewestFirst(ValidPhotos(photos, failed));
      SortIsNewestFirst(ValidPhotos(photos, failed));
      assert forall p :: p in items <==> p in multiset(ValidPhotos(photos, failed));
      Tiles(items)
  }

  /** The grid's empty state looks at all photos, not the valid ones: when
      every photo has failed the wall renders an empty grid, not nothing. */
  lemma AllFailedShowsEmptyGrid(w: Wall, photos: seq<Photo>, failed: set<string>)
    requires w.mode == Grid && photos != []
    requires forall p :: p in photos ==> p.id in failed
    ensures ViewOf(w, photos, failed) == Tiles([])
  {
  }

  /** The grid's order is the stable newest-first order of the valid photos:
      photos uploaded at the same time appear as they were given. */
  lemma GridOrder(w: Wall, photos: seq<Photo>, failed: set<string>, t: int)
    requires w.mode == Grid && photos != []
    ensures UploadedAt(ViewOf(w, photos, failed).items, t) == UploadedAt(ValidPhotos(photos, failed), t)
  {
    SortIsStable(ValidPhotos(photos, failed), t);
  }
}

=== FILE: session.dfy ===
/** Participant identity of src/lib/session.ts: the session id kept per
    activity in `sessionStorage`, the fallback UUID generator, and the last
    visited activity kept in `localStorage`.

    A browser storage is a map from keys to strings; `None` stands for a
    window without that storage (server rendering or a locked-down
    browser). Random numbers are `Draw` oracle values. */
module Session {
  import opened Base

  type Storage = map<string, string>

  /** The pattern the fallback generator fills in: `x` is any hex digit,
      `y` is the UUID variant digit. */
  const Template: string := "xxxxxxxx-xxxx-4xxx-yxxx-xxxxxxxxxxxx"

  /** The `localStorage` key of the remembered activity. */
  const LastActivityKey: string := "last-activity"

  /** `[0-9a-f]`. */
  predicate IsHexDigit(c: char)
  {
    '0' <= c <= '9' || 'a' <= c <= 'f'
  }

  /** `[89ab]`: the digits a UUID's variant position can hold. */
  predicate IsVariantDigit(c: char)
  {
    c == '8' || c == '9' || c == 'a' || c == 'b'
  }

  /** `v.toString(16)` for a value below 16: one lower-case hex digit. */
  function HexDigit(v: nat): (c: char)
    requires v < 16
    ensures IsHexDigit(c)
    ensures 8 <= v <= 11 ==> IsVariantDigit(c)
  {
    if v < 10 then ('0' as int + v) as char else ('a' as int + v - 10) as char
  }

  /** The value of a lower-case hex digit. */
  function HexValue(c: char): (v: nat)
    requires IsHexDigit(c)
    ensures v < 16
  {
    if '0' <= c <= '9' then (c as int - '0' as int) as nat else (c as int - 'a' as int + 10) as nat
  }

  /** Each hex digit denotes its own value. */
  lemma HexRoundTrip(v: nat)
    requires v < 16
    ensures HexValue(HexDigit(v)) == v
  {
  }

  /** `(r & 0x3) | 0x8`: keeps the two low bits of the nibble and sets the
      high bit, giving the UUID variant digit. */
  function VariantNibble(r: nat): (v: nat)
    requires r < 16
  {
    (((r as bv8) & 3) | 8) as nat
  }

  /** The variant digit is 8, 9, 10 or 11, chosen by the two low bits of
      the random nibble. */
  lemma VariantNibbleRange(r: nat)
    requires r < 16
    ensures 8 <= VariantNibble(r) <= 11
    ensures VariantNibble(r) == 8 + r % 4
  {
    var b := r as bv8;
    assert b & 3 == (r % 4) as bv8 by {
      assert r % 4 == r - 4 * (r / 4);
    }
    assert (b & 3) | 8 == (b & 3) + 8 by {
      assert (b & 3) & 8 == 0;
    }
  }

  /** The positions of a template that consume a random number. */
  function Placeholders(t: string): (n: nat)
    ensures n <= |t|
  {
    if t == [] then 0
    else (if t[0] == 'x' || t[0] == 'y' then 1 else 0) + Placeholders(t[1..])
  }

  /** `t.replace(/[xy]/g, c => …)`: each `x` or `y`, left to right, takes the
      next random number (`rng(k)`, then `rng(k + 1)`, …), turns it into the
      nibble `(Math.random() * 16) | 0` and writes it as a hex digit (an `x`)
      or as the variant digit of that nibble (a `y`); every other character
      is kept. */
  function Fill(t: string, rng: nat -> Draw, k: nat): (r: string)
    ensures |r| == |t|
    decreases |t|
  {
    if t == [] then []
    else if t[0] == 'x' then
      [HexDigit(PickIndex(rng(k), 16))] + Fill(t[1..], rng, k + 1)
    else if t[0] == 'y' then
      [HexDigit(VariantNibble(PickIndex(rng(k), 16)))] + Fill(t[1..], rng, k + 1)
    else
      [t[0]] + Fill(t[1..], rng, k)
  }

  /** What the fill writes at one position: the template's own character,
      a hex digit for an `x`, a variant digit for a `y`. */
  lemma {:induction false} FillAt(t: string, rng: nat -> Draw, k: nat, i: nat)
    requires i < |t|
    ensures t[i] != 'x' && t[i] != 'y' ==> Fill(t, rng, k)[i] == t[i]
    ensures t[i] == 'x' ==> IsHexDigit(Fill(t, rng, k)[i])
    ensures t[i] == 'y' ==> IsVariantDigit(Fill(t, rng, k)[i])
    decreases |t|
  {
    var k' := if t[0] == 'x' || t[0] == 'y' then k + 1 else k;
    var rest := Fill(t[1..], rng, k');
    if i == 0 {
      if t[0] == 'y' {
        VariantNibbleRange(PickIndex(rng(k), 16));
      }
    } else {
      FillAt(t[1..], rng, k', i - 1);
      assert Fill(t, rng, k)[i] == rest[i - 1];
    }
  }

  /** Where the next random number comes from after the first character. */
  function NextDraw(c: char, k: nat): nat
  {
    if c == 'x' || c == 'y' then k + 1 else k
  }

  /** A fill reads only the random numbers `rng(k)` to
      `rng(k + Placeholders(t) - 1)`: two oracles that agree on a range at
      least that long give the same string. */
  lemma {:induction false} FillReadsPlaceholders(t: string, rng1: nat -> Draw, rng2: nat -> Draw, k: nat, n: nat)
    requires Placeholders(t) <= n
    requires forall j :: k <= j < k + n ==> rng1(j) == rng2(j)
    ensures Fill(t, rng1, k) == Fill(t, rng2, k)
    decreases |t|
  {
    if t != [] {
      var k' := NextDraw(t[0], k);
      FillReadsPlaceholders(t[1..], rng1, rng2, k', n - (k' - k));
    }
  }

  /** The textual shape the unit test's UUID v4 expression accepts, in lower
      case: 36 characters, dashes at 8, 13, 18 and 23, the version digit 4
      at 14, a variant digit 8, 9, a or b at 19, hex digits elsewhere. */
  predicate FixedPosition(i: int)
  {
    i == 8 || i == 13 || i == 14 || i == 18 || i == 19 || i == 23
  }

  predicate IsUuidV4(s: string)
  {
    && |s| == 36
    && s[8] == '-' && s[13] == '-' && s[18] == '-' && s[23] == '-'
    && s[14] == '4'
    && IsVariantDigit(s[19])
    && forall i :: 0 <= i < 36 && !FixedPosition(i) ==> IsHexDigit(s[i])
  }

  /** Every position of the template other than the dashes, the version
      digit and the variant placeholder is an `x`. */
  lemma TemplateDigits()
    ensures |Template| == 36
    ensures Template[8] == '-' && Template[13] == '-' && Template[18] == '-' && Template[23] == '-'
    ensures Template[14] == '4' && Template[19] == 'y'
    ensures forall i :: 0 <= i < 36 && !FixedPosition(i) ==> Template[i] == 'x'
  {
  }

  /** Filling the template gives the UUID v4 shape whatever the random
      numbers are. */
  lemma FilledTemplateIsUuid(rng: nat -> Draw)
    ensures IsUuidV4(Fill(Template, rng, 0))
  {
    var id := Fill(Template, rng, 0);
    TemplateDigits();
    FillAt(Template, rng, 0, 8);
    FillAt(Template, rng, 0, 13);
    FillAt(Template, rng, 0, 14);
    FillAt(Template, rng, 0, 18);
    FillAt(Template, rng, 0, 19);
    FillAt(Template, rng, 0, 23);
    forall i | 0 <= i < 36 && !FixedPosition(i)
      ensures IsHexDigit(id[i])
    {
      FillAt(Template, rng, 0, i);
    }
  }

  /** The fallback generator of `generateSessionId`. */
  function FallbackId(rng: nat -> Draw): (id: string)
    ensures IsUuidV4(id)
  {
    FilledTemplateIsUuid(rng);
    Fill(Template, rng, 0)
  }

  /** `generateSessionId()`: the platform's `crypto.randomUUID()` when there
      is one (`uuid`), otherwise the fallback. */
  function GenerateSessionId(uuid: Option<string>, rng: nat -> Draw): (id: string)
    ensures uuid.None? ==> IsUuidV4(id)
    ensures uuid.Some? ==> id == uuid.value
  {
    if uuid.Some? then uuid.value else FallbackId(rng)
  }

  /** The `sessionStorage` key of an activity's session id. */
  function SessionKey(activityId: string): (key: string)
    ensures |key| == |activityId| + 8 && key[8..] == activityId
  {
    "session-" + activityId
  }

  /** Different activities never share a session key. */
  lemma SessionKeyInjective(a: string, b: string)
    requires SessionKey(a) == SessionKey(b)
    ensures a == b
  {
    assert a == SessionKey(a)[8..];
  }

  /** The remembered-activity key is no activity's session key. */
  lemma LastActivityKeyIsNoSessionKey(activityId: string)
    ensures SessionKey(activityId) != LastActivityKey
  {
    assert SessionKey(activityId)[0] == 's' != LastActivityKey[0];
  }

  /** JavaScript truthiness of `getItem`'s result: `null` and `""` are falsy. */
  predicate Truthy(v: Option<string>)
  {
    v.Some? && v.value != ""
  }

  function GetItem(store: Storage, key: string): (v: Option<string>)
    ensures v.Some? <==> key in store
    ensures v.Some? ==> v.value == store[key]
  {
    if key in store then Some(store[key]) else None
  }

  /** `getOrCreateSessionId(activityId)`, given the id `generateSessionId`
      would return. A stored, non-empty id is returned as is; otherwise the
      generated id is stored and returned. Without storage the generated id
      is returned and nothing is kept. */
  function GetOrCreateSessionId(storage: Option<Storage>, activityId: string, generated: string)
    : (r: (string, Option<Storage>))
    ensures storage.None? ==> r == (generated, None)
    ensures storage.Some? ==>
      r.1.Some? && SessionKey(activityId) in r.1.value && r.1.value[SessionKey(activityId)] == r.0
    ensures storage.Some? && Truthy(GetItem(storage.value, SessionKey(activityId))) ==>
      r.0 == storage.value[SessionKey(activityId)] && r.1 == storage
  {
    if storage.None? then (generated, None)
    else
      var key := SessionKey(activityId);
      var existing := GetItem(storage.value, key);
      if Truthy(existing) then (existing.value, storage)
      else (generated, Some(storage.value[key := generated]))
  }

  /** A missing or empty stored id is replaced by the generated one. */
  lemma GetOrCreateReplacesFalsy(store: Storage, activityId: string, generated: string)
    requires !Truthy(GetItem(store, SessionKey(activityId)))
    ensures GetOrCreateSessionId(Some(store), activityId, generated)
            == (generated, Some(store[SessionKey(activityId) := generated]))
  {
  }

  /** With storage present, a second call for the same activity returns the
      id of the first call and changes nothing, whatever id would have been
      generated the second time. */
  lemma GetOrCreateStable(store: Storage, activityId: string, generated: string, generated2: string)
    requires generated != ""
    ensures var (id1, s1) := GetOrCreateSessionId(Some(store), activityId, generated);
      GetOrCreateSessionId(s1, activityId, generated2) == (id1, s1)
  {
    var key := SessionKey(activityId);
    var (id1, s1) := GetOrCreateSessionId(Some(store), activityId, generated);
    assert s1.value[key] == id1;
    if !Truthy(GetItem(store, key)) {
      assert id1 == generated;
    }
  }

  /** Getting or creating one activity's id leaves every other key alone. */
  lemma GetOrCreateFrame(store: Storage, activityId: string, generated: string, key: string)
    requires key != SessionKey(activityId)
    ensures var s1 := GetOrCreateSessionId(Some(store), activityId, generated).1.value;
      (key in s1 <==> key in store) && (key in store ==> s1[key] == store[key])
  {
  }

  /** `clearSession(activityId)`: removes that activity's key, if there is
      a storage. */
  function ClearSession(storage: Option<Storage>, activityId: string): (r: Option<Storage>)
    ensures storage.None? ==> r.None?
    ensures storage.Some? ==> r.Some? && SessionKey(activityId) !in r.value
    ensures storage.Some? ==> forall k :: k != SessionKey(activityId) ==>
      (k in r.value <==> k in storage.value) && (k in r.value ==> r.value[k] == storage.value[k])
  {
    if storage.None? then None else Some(storage.value - {SessionKey(activityId)})
  }

  /** After `clearSession`, the next call creates a new id. */
  lemma ClearThenGetCreates(store: Storage, activityId: string, generated: string)
    ensures GetOrCreateSessionId(ClearSession(Some(store), activityId), activityId, generated).0 == generated
  {
  }

  /** `rememberActivity(activityId)`. */
  function RememberActivity(storage: Option<Storage>, activityId: string): (r: Option<Storage>)
    ensures storage.None? ==> r.None?
    ensures storage.Some? ==> r.Some? && r.value.Keys == storage.value.Keys + {LastActivityKey}
    ensures storage.Some? ==> forall k :: k in storage.value && k != LastActivityKey ==> r.value[k] == storage.value[k]
  {
    if storage.None? then None else Some(storage.value[LastActivityKey := activityId])
  }

  /** `getLastActivity()`: `null` without storage or without a remembered
      activity. */
  function GetLastActivity(storage: Option<Storage>): (r: Option<string>)
    ensures r.Some? <==> storage.Some? && LastActivityKey in storage.value
    ensures r.Some? ==> r.value == storage.value[LastActivityKey]
  {
    if storage.None? then None else GetItem(storage.value, LastActivityKey)
  }

  /** `forgetActivity()`. */
  function ForgetActivity(storage: Option<Storage>): (r: Option<Storage>)
    ensures storage.None? ==> r.None?
    ensures storage.Some? ==> r.Some? && r.value.Keys == storage.value.Keys - {LastActivityKey}
    ensures storage.Some? ==> forall k :: k in r.value ==> r.value[k] == storage.value[k]
  {
    if storage.None? then None else Some(storage.value - {LastActivityKey})
  }

  /** What was remembered is what is read back, until it is forgotten. */
  lemma RememberThenGet(storage: Option<Storage>, activityId: string)
    requires storage.Some?
    ensures GetLastActivity(RememberActivity(storage, activityId)) == Some(activityId)
    ensures GetLastActivity(ForgetActivity(RememberActivity(storage, activityId))) == None
  {
  }
}

=== FILE: transport.dfy ===
/** The reconnecting real-time transport of src/lib/websocket.ts, as an
    explicit state record and one pure function per event.

    The browser's `WebSocket` objects are numbered in creation order and
    only their `readyState` is kept; `setTimeout` handles are numbered too.
    React state (`isConnected`, `isConnecting`) and refs (`wsRef`,
    `reconnectAttemptsRef`, `reconnectTimeoutRef`) are plain fields. */
module Transport {
  import opened Base
  import opened Messages

  /** Upper bound of the reconnect delay, in milliseconds. */
  const BackoffCap: nat := 30000
  /** Period of the keep-alive ping while connected, in milliseconds. */
  const PingIntervalMs: nat := 30000
  /** Default of `maxReconnectAttempts`. */
  const DefaultMaxAttempts: nat := 5

  datatype Role = Participant | Display

  /** The hook's options that affect behaviour. The URL is only handed to
      the `WebSocket` constructor and is left out. */
  datatype Config = Config(sessionId: string, role: Role, autoReconnect: bool, maxAttempts: nat)

  datatype ReadyState = Connecting | Open | Closing | Closed

  /** A frame written to a socket: the automatic `join`, or a caller's
      message with the hook's session id filled in. */
  datatype Frame =
    | JoinFrame(sessionId: string, role: Role)
    | MessageFrame(message: Outbound, sessionId: string)

  datatype Sent = Sent(socket: nat, frame: Frame)

  /** A pending reconnect timer. */
  datatype Timer = Timer(id: nat, delay: nat)

  /** An inbound frame as `JSON.parse` sees it. */
  datatype Inbound = Malformed | Decoded(message: ServerMessage)

  datatype State = State(
    sockets: seq<ReadyState>,        // every socket created, by creation order
    current: Option<nat>,            // wsRef.current
    attempts: nat,                   // reconnectAttemptsRef.current
    timers: seq<Timer>,              // reconnect timers still pending
    timerRef: Option<nat>,           // reconnectTimeoutRef.current
    nextTimer: nat,                  // the next handle setTimeout returns
    connected: bool,                 // isConnected
    connecting: bool,                // isConnecting
    sent: seq<Sent>,                 // every frame written, in order
    delivered: seq<ServerMessage>)   // every onMessage call, in order

  /** The hook before its mount effect has run. */
  const Initial: State := State([], None, 0, [], None, 1, false, false, [], [])

  function Pow2(n: nat): (p: nat)
    ensures p >= 1
  {
    if n == 0 then 1 else 2 * Pow2(n - 1)
  }

  /** Reconnect delay once the attempt counter has been raised to `attempt`. */
  function Backoff(attempt: nat): (d: nat)
    ensures d <= BackoffCap
  {
    Min(1000 * Pow2(attempt), BackoffCap)
  }

  predicate Live(s: State, k: nat)
  {
    k < |s.sockets| && s.sockets[k] != Closed
  }

  /** `wsRef.current?.readyState === WebSocket.OPEN`. */
  predicate CurrentOpen(s: State)
  {
    s.current.Some? && s.current.value < |s.sockets| && s.sockets[s.current.value] == Open
  }

  predicate HasTimer(ts: seq<Timer>, id: nat)
  {
    exists i :: 0 <= i < |ts| && ts[i].id == id
  }

  function RemoveTimer(ts: seq<Timer>, id: nat): (r: seq<Timer>)
    ensures forall t :: t in r <==> t in ts && t.id != id
    ensures |r| <= |ts|
    ensures (forall t :: t in ts ==> t.id == id) ==> r == []
  {
    if ts == [] then []
    else if ts[0].id == id then RemoveTimer(ts[1..], id)
    else [ts[0]] + RemoveTimer(ts[1..], id)
  }

  /** `connect()`: a no-op while the current socket is open; otherwise a new
      socket is created and becomes current. A socket that is still
      connecting is not a reason to skip, and the old socket is not closed. */
  function Connect(s: State): (r: State)
    ensures CurrentOpen(s) ==> r == s
    ensures !CurrentOpen(s) ==>
      && r.sockets == s.sockets + [Connecting]
      && r.current == Some(|s.sockets|)
      && r.connecting
      && r.attempts == s.attempts && r.timers == s.timers && r.sent == s.sent
      && r.connected == s.connected && r.delivered == s.delivered
      && r.timerRef == s.timerRef && r.nextTimer == s.nextTimer
  {
    if CurrentOpen(s) then s
    else s.(sockets := s.sockets + [Connecting], current := Some(|s.sockets|), connecting := true)
  }

  /** `ws.onopen` of socket `k`: connected, counter reset, one `join` sent on
      that socket. Only a connecting socket can open. */
  function SocketOpen(s: State, cfg: Config, k: nat): (r: State)
    ensures k < |s.sockets| && s.sockets[k] == Connecting ==>
      && r.attempts == 0 && r.connected && !r.connecting
      && r.sent == s.sent + [Sent(k, JoinFrame(cfg.sessionId, cfg.role))]
      && r.sockets == s.sockets[k := Open]
      && r.current == s.current && r.timers == s.timers && r.delivered == s.delivered
    ensures !(k < |s.sockets| && s.sockets[k] == Connecting) ==> r == s
  {
    if k < |s.sockets| && s.sockets[k] == Connecting then
      s.(sockets := s.sockets[k := Open], connected := true, connecting := false, attempts := 0,
         sent := s.sent + [Sent(k, JoinFrame(cfg.sessionId, cfg.role))])
    else s
  }

  /** `ws.onmessage` of socket `k`: a decodable frame is handed to the
      callback; a malformed one is logged and dropped. */
  function SocketMessage(s: State, k: nat, f: Inbound): (r: State)
    ensures f.Malformed? ==> r == s
    ensures f.Decoded? && k < |s.sockets| && s.sockets[k] == Open ==>
      r == s.(delivered := s.delivered + [f.message])
    ensures f.Decoded? && !(k < |s.sockets| && s.sockets[k] == Open) ==> r == s
    ensures r.sockets == s.sockets && r.sent == s.sent && r.attempts == s.attempts && r.timers == s.timers
  {
    match f
    case Malformed => s
    case Decoded(m) =>
      if k < |s.sockets| && s.sockets[k] == Open then s.(delivered := s.delivered + [m]) else s
  }

  /** `ws.onclose` of socket `k`, whichever socket it is: not connected, and
      while attempts remain, the counter is raised first and a timer is
      scheduled with the backoff of the raised counter. The handle replaces
      `reconnectTimeoutRef` without cancelling an older pending timer. */
  function SocketClose(s: State, cfg: Config, k: nat): (r: State)
    ensures Live(s, k) ==>
      && r.sockets == s.sockets[k := Closed]
      && !r.connected && !r.connecting
      && r.current == s.current && r.sent == s.sent
      && (if cfg.autoReconnect && s.attempts < cfg.maxAttempts then
            && r.attempts == s.attempts + 1
            && r.timers == s.timers + [Timer(s.nextTimer, Backoff(s.attempts + 1))]
            && r.timerRef == Some(s.nextTimer)
          else r.attempts == s.attempts && r.timers == s.timers && r.timerRef == s.timerRef)
    ensures !Live(s, k) ==> r == s
  {
    if !Live(s, k) then s
    else
      var closed := s.(sockets := s.sockets[k := Closed], connected := false, connecting := false);
      if cfg.autoReconnect && s.attempts < cfg.maxAttempts then
        var n := s.attempts + 1;
        closed.(attempts := n,
                timers := s.timers + [Timer(s.nextTimer, Backoff(n))],
                timerRef := Some(s.nextTimer),
                nextTimer := s.nextTimer + 1)
      else closed
  }

  /** A pending reconnect timer fires: it is no longer pending and
      `connect()` runs, so a new socket is opened unless the current one is
      open. `reconnectTimeoutRef` keeps the spent handle, and the attempt
      counter is left as the close that scheduled the timer raised it. */
  function TimerFire(s: State, id: nat): (r: State)
    ensures HasTimer(s.timers, id) ==>
      && r.timers == RemoveTimer(s.timers, id)
      && r.attempts == s.attempts && r.timerRef == s.timerRef && r.nextTimer == s.nextTimer
      && r.sent == s.sent && r.delivered == s.delivered && r.connected == s.connected
    ensures HasTimer(s.timers, id) && CurrentOpen(s) ==>
      r.sockets == s.sockets && r.current == s.current && r.connecting == s.connecting
    ensures HasTimer(s.timers, id) && !CurrentOpen(s) ==>
      r.sockets == s.sockets + [Connecting] && r.current == Some(|s.sockets|) && r.connecting
    ensures !HasTimer(s.timers, id) ==> r == s
  {
    if HasTimer(s.timers, id) then Connect(s.(timers := RemoveTimer(s.timers, id))) else s
  }

  /** `disconnect()`: cancels the timer `reconnectTimeoutRef` names, closes
      the current socket (it becomes CLOSING; its close event comes later)
      and forgets it. */
  function Disconnect(s: State): (r: State)
    ensures r.current == None && r.timerRef == None
    ensures !r.connected && !r.connecting
    ensures forall t :: t in r.timers <==> t in s.timers && Some(t.id) != s.timerRef
    ensures (forall t :: t in s.timers ==> Some(t.id) == s.timerRef) ==> r.timers == []
    ensures !CurrentOpen(r)
    ensures s.current.Some? && s.current.value < |s.sockets| && s.sockets[s.current.value] != Closed ==>
      r.sockets == s.sockets[s.current.value := Closing]
    ensures !(s.current.Some? && s.current.value < |s.sockets| && s.sockets[s.current.value] != Closed) ==>
      r.sockets == s.sockets
    ensures r.attempts == s.attempts && r.sent == s.sent && |r.sockets| == |s.sockets|
    ensures r.delivered == s.delivered && r.nextTimer == s.nextTimer
  {
    var timers := if s.timerRef.Some? then RemoveTimer(s.timers, s.timerRef.value) else s.timers;
    var sockets :=
      if s.current.Some? && s.current.value < |s.sockets| && s.sockets[s.current.value] != Closed
      then s.sockets[s.current.value := Closing]
      else s.sockets;
    assert s.timers != [] ==> s.timers[0] in s.timers;
    s.(timers := timers, timerRef := None, sockets := sockets, current := None,
       connected := false, connecting := false)
  }

  /** `sendMessage(m)`: sent on the current socket with the hook's session id
      when it is open, dropped otherwise. */
  function SendMessage(s: State, cfg: Config, m: Outbound): (r: State)
    ensures CurrentOpen(s) ==>
      r == s.(sent := s.sent + [Sent(s.current.value, MessageFrame(m, cfg.sessionId))])
    ensures !CurrentOpen(s) ==> r == s
  {
    if CurrentOpen(s) then
      s.(sent := s.sent + [Sent(s.current.value, MessageFrame(m, cfg.sessionId))])
    else s
  }

  /** One tick of the keep-alive interval. The interval exists only while
      `isConnected` is true; its tick goes through `sendMessage`. */
  function PingTick(s: State, cfg: Config): (r: State)
    ensures !s.connected ==> r == s
    ensures s.connected && !CurrentOpen(s) ==> r == s
    ensures s.connected && CurrentOpen(s) ==>
      r.sent == s.sent + [Sent(s.current.value, MessageFrame(Ping, cfg.sessionId))]
    ensures r.sockets == s.sockets && r.attempts == s.attempts && r.timers == s.timers
  {
    if s.connected then SendMessage(s, cfg, Ping) else s
  }

  /** The events the browser and the caller can deliver to the hook. */
  datatype Event =
    | ConnectCall
    | OpenEvent(socket: nat)
    | MessageEvent(socket: nat, frame: Inbound)
    | CloseEvent(socket: nat)
    | TimerEvent(timer: nat)
    | DisconnectCall
    | SendCall(message: Outbound)
    | PingEvent

  function Step(s: State, cfg: Config, e: Event): State
  {
    match e
    case ConnectCall => Connect(s)
    case OpenEvent(k) => SocketOpen(s, cfg, k)
    case MessageEvent(k, f) => SocketMessage(s, k, f)
    case CloseEvent(k) => SocketClose(s, cfg, k)
    case TimerEvent(id) => TimerFire(s, id)
    case DisconnectCall => Disconnect(s)
    case SendCall(m) => SendMessage(s, cfg, m)
    case PingEvent => PingTick(s, cfg)
  }

  function Run(s: State, cfg: Config, es: seq<Event>): State
    decreases |es|
  {
    if es == [] then s else Run(Step(s, cfg, es[0]), cfg, es[1..])
  }

  /** Well-formedness kept by every event: the current socket exists, the
      attempt counter is within the configured maximum, and timer handles
      were all handed out already. */
  predicate Valid(s: State, cfg: Config)
  {
    && (s.current.Some? ==> s.current.value < |s.sockets|)
    && s.attempts <= cfg.maxAttempts
    && (forall t :: t in s.timers ==> t.id < s.nextTimer)
    && (s.timerRef.Some? ==> s.timerRef.value < s.nextTimer)
  }

  lemma InitialValid(cfg: Config)
    ensures Valid(Initial, cfg)
  {
  }

  lemma StepValid(s: State, cfg: Config, e: Event)
    requires Valid(s, cfg)
    ensures Valid(Step(s, cfg, e), cfg)
  {
  }

  /** Every reachable state is well-formed; in particular the attempt
      counter never exceeds `maxReconnectAttempts`. */
  lemma {:induction false} RunValid(s: State, cfg: Config, es: seq<Event>)
    requires Valid(s, cfg)
    ensures Valid(Run(s, cfg, es), cfg)
    ensures Run(s, cfg, es).attempts <= cfg.maxAttempts
    decreases |es|
  {
    if es != [] {
      StepValid(s, cfg, es[0]);
      RunValid(Step(s, cfg, es[0]), cfg, es[1..]);
    }
  }

  // ---------------------------------------------------------------------
  // What the hook writes and what it hands to `onMessage`, over whole runs.

  /** The `join` frame the hook writes when socket `k` opens. */
  function JoinOn(cfg: Config, k: nat): Sent
  {
    Sent(k, JoinFrame(cfg.sessionId, cfg.role))
  }

  /** Every frame written carries the hook's session id, every caller's
      message follows its socket's `join`, and every open socket has had
      its `join` written. */
  predicate FramesOk(s: State, cfg: Config)
  {
    && (forall i :: 0 <= i < |s.sent| ==> s.sent[i].frame.sessionId == cfg.sessionId)
    && (forall i :: 0 <= i < |s.sent| && s.sent[i].frame.MessageFrame? ==>
          JoinOn(cfg, s.sent[i].socket) in s.sent[..i])
    && (forall k :: 0 <= k < |s.sockets| && s.sockets[k] == Open ==> JoinOn(cfg, k) in s.sent)
  }

  lemma AppendFrameOk(s: State, cfg: Config, x: Sent, sent: seq<Sent>)
    requires FramesOk(s, cfg) && sent == s.sent + [x]
    requires x.frame.sessionId == cfg.sessionId
    requires x.frame.MessageFrame? ==> JoinOn(cfg, x.socket) in s.sent
    ensures forall i :: 0 <= i < |sent| ==> sent[i].frame.sessionId == cfg.sessionId
    ensures forall i :: 0 <= i < |sent| && sent[i].frame.MessageFrame? ==>
              JoinOn(cfg, sent[i].socket) in sent[..i]
    ensures forall j :: JoinOn(cfg, j) in s.sent ==> JoinOn(cfg, j) in sent
  {
    assert sent[..|s.sent|] == s.sent;
    forall i | 0 <= i < |s.sent|
      ensures sent[..i] == s.sent[..i]
    {
    }
  }

  lemma StepFramesOk(s: State, cfg: Config, e: Event)
    requires FramesOk(s, cfg)
    ensures FramesOk(Step(s, cfg, e), cfg)
  {
    match e
    case OpenEvent(k) =>
      if k < |s.sockets| && s.sockets[k] == Connecting {
        AppendFrameOk(s, cfg, JoinOn(cfg, k), Step(s, cfg, e).sent);
      }
    case SendCall(m) =>
      if CurrentOpen(s) {
        AppendFrameOk(s, cfg, Sent(s.current.value, MessageFrame(m, cfg.sessionId)), Step(s, cfg, e).sent);
      }
    case PingEvent =>
      if s.connected && CurrentOpen(s) {
        AppendFrameOk(s, cfg, Sent(s.current.value, MessageFrame(Ping, cfg.sessionId)), Step(s, cfg, e).sent);
      }
    case _ =>
  }

  lemma {:induction false} RunFramesOk(s: State, cfg: Config, es: seq<Event>)
    requires FramesOk(s, cfg)
    ensures FramesOk(Run(s, cfg, es), cfg)
    decreases |es|
  {
    if es != [] {
      StepFramesOk(s, cfg, es[0]);
      RunFramesOk(Step(s, cfg, es[0]), cfg, es[1..]);
    }
  }

  /** Over any run from mount, every frame written on any socket carries
      the hook's session id, and a caller's message or ping is written on
      a socket only after that socket's `join`. */
  lemma FramesFollowJoin(cfg: Config, es: seq<Event>)
    ensures var r := Run(Initial, cfg, es);
      && (forall i :: 0 <= i < |r.sent| ==> r.sent[i].frame.sessionId == cfg.sessionId)
      && (forall i :: 0 <= i < |r.sent| && r.sent[i].frame.MessageFrame? ==>
            JoinOn(cfg, r.sent[i].socket) in r.sent[..i])
  {
    RunFramesOk(Initial, cfg, es);
  }

  /** The messages of the decodable frames among the events, in arrival
      order, whichever socket they arrived on. */
  function Arrivals(es: seq<Event>): seq<ServerMessage>
    decreases |es|
  {
    if es == [] then []
    else if es[0].MessageEvent? && es[0].frame.Decoded? then [es[0].frame.message] + Arrivals(es[1..])
    else Arrivals(es[1..])
  }

  /** The messages of the decodable frames that arrive on a socket which is
      open at that moment of the run from `s`, in arrival order. */
  function OpenArrivals(s: State, cfg: Config, es: seq<Event>): seq<ServerMessage>
    decreases |es|
  {
    if es == [] then []
    else
      var e := es[0];
      var here :=
        if e.MessageEvent? && e.frame.Decoded? && e.socket < |s.sockets| && s.sockets[e.socket] == Open
        then [e.frame.message] else [];
      here + OpenArrivals(Step(s, cfg, e), cfg, es[1..])
  }

  /** One event appends to `delivered` exactly the message it brings on an
      open socket. */
  lemma StepDelivered(s: State, cfg: Config, e: Event)
    ensures Step(s, cfg, e).delivered == s.delivered + OpenArrivals(s, cfg, [e])
  {
    assert OpenArrivals(Step(s, cfg, e), cfg, []) == [];
  }

  /** Over any run, `onMessage` receives exactly the decodable frames that
      arrive on open sockets, each once and in arrival order. */
  lemma {:induction false} RunDeliveredFrom(s: State, cfg: Config, es: seq<Event>)
    ensures Run(s, cfg, es).delivered == s.delivered + OpenArrivals(s, cfg, es)
    decreases |es|
  {
    if es != [] {
      var t := Step(s, cfg, es[0]);
      StepDelivered(s, cfg, es[0]);
      RunDeliveredFrom(t, cfg, es[1..]);
      assert OpenArrivals(s, cfg, es) == OpenArrivals(s, cfg, [es[0]]) + OpenArrivals(t, cfg, es[1..]);
    }
  }

  /** The messages delivered on open sockets are among all decodable
      arrivals, in the same order. */
  lemma {:induction false} OpenArrivalsAreArrivals(s: State, cfg: Config, es: seq<Event>)
    ensures Subsequence(OpenArrivals(s, cfg, es), Arrivals(es))
    decreases |es|
  {
    if es != [] {
      var t := Step(s, cfg, es[0]);
      OpenArrivalsAreArrivals(t, cfg, es[1..]);
      var e := es[0];
      if e.MessageEvent? && e.frame.Decoded? {
        var m := e.frame.message;
        assert Arrivals(es) == [m] + Arrivals(es[1..]);
        if e.socket < |s.sockets| && s.sockets[e.socket] == Open {
          assert OpenArrivals(s, cfg, es) == [m] + OpenArrivals(t, cfg, es[1..]);
          assert ([m] + OpenArrivals(t, cfg, es[1..]))[1..] == OpenArrivals(t, cfg, es[1..]);
          assert ([m] + Arrivals(es[1..]))[1..] == Arrivals(es[1..]);
        } else {
          assert OpenArrivals(s, cfg, es) == OpenArrivals(t, cfg, es[1..]);
          SubsequenceOfTail(OpenArrivals(t, cfg, es[1..]), Arrivals(es[1..]), m);
        }
      } else {
        assert OpenArrivals(s, cfg, es) == OpenArrivals(t, cfg, es[1..]);
        assert Arrivals(es) == Arrivals(es[1..]);
      }
    }
  }

  /** Over any run from mount, `onMessage` receives exactly the decodable
      frames that arrived on a socket open at the time, in arrival order:
      none invented, none repeated, none from a connecting, closing or
      closed socket, and malformed frames never. */
  lemma DeliveredAreArrivals(cfg: Config, es: seq<Event>)
    ensures Run(Initial, cfg, es).delivered == OpenArrivals(Initial, cfg, es)
    ensures Subsequence(Run(Initial, cfg, es).delivered, Arrivals(es))
  {
    RunDeliveredFrom(Initial, cfg, es);
    OpenArrivalsAreArrivals(Initial, cfg, es);
  }

  /** A frame decoded on an open socket is delivered: the run through it
      ends with its message appended to what was delivered before. */
  lemma OpenFrameDelivered(s: State, cfg: Config, k: nat, m: ServerMessage)
    requires k < |s.sockets| && s.sockets[k] == Open
    ensures Run(s, cfg, [MessageEvent(k, Decoded(m))]).delivered == s.delivered + [m]
  {
    RunDeliveredFrom(s, cfg, [MessageEvent(k, Decoded(m))]);
    assert OpenArrivals(s, cfg, [MessageEvent(k, Decoded(m))]) == [m] + OpenArrivals(Step(s, cfg, MessageEvent(k, Decoded(m))), cfg, []);
  }

  /** Once the counter has reached the maximum, a close schedules nothing. */
  lemma ExhaustedCloseSchedulesNothing(s: State, cfg: Config, k: nat)
    requires Valid(s, cfg) && s.attempts == cfg.maxAttempts
    ensures SocketClose(s, cfg, k).timers == s.timers
    ensures SocketClose(s, cfg, k).attempts == cfg.maxAttempts
  {
  }

  /** With the default maximum of five attempts the delays are 2, 4, 8, 16
      and 30 seconds: the counter is raised before the delay is computed. */
  lemma BackoffDelays()
    ensures Backoff(1) == 2000 && Backoff(2) == 4000 && Backoff(3) == 8000
    ensures Backoff(4) == 16000 && Backoff(5) == 30000
  {
  }

  lemma {:induction false} Pow2Monotone(m: nat, n: nat)
    requires m <= n
    ensures Pow2(m) <= Pow2(n)
    decreases n
  {
    if m < n {
      Pow2Monotone(m, n - 1);
    }
  }

  /** From the fifth attempt on, the delay is the cap. */
  lemma BackoffSaturates(n: nat)
    requires n >= 5
    ensures Backoff(n) == BackoffCap
  {
    Pow2Monotone(5, n);
  }

  /** Disconnecting twice is disconnecting once. */
  lemma DisconnectIdempotent(s: State)
    ensures Disconnect(Disconnect(s)) == Disconnect(s)
  {
  }

  /** The current socket is still connecting and no reconnect is pending:
      the state right after `connect()` or after a reconnect timer fired. */
  predicate Idle(s: State)
  {
    s.current.Some? && s.current.value < |s.sockets| && s.sockets[s.current.value] == Connecting
    && s.timers == []
  }

  /** The delay of the reconnect timer a close of the current socket would
      schedule, if it schedules one. */
  function NextDelay(s: State, cfg: Config): Option<nat>
  {
    if s.current.None? then None
    else
      var c := SocketClose(s, cfg, s.current.value);
      if |c.timers| > |s.timers| then Some(c.timers[|c.timers| - 1].delay) else None
  }

  /** One failed cycle: the current socket closes before opening, and the
      reconnect timer that close scheduled fires. */
  function RetryCycle(s: State, cfg: Config): State
    requires s.current.Some?
  {
    TimerFire(SocketClose(s, cfg, s.current.value), s.nextTimer)
  }

  /** `n` failed cycles in a row, stopping early once no retry follows. */
  function Retries(s: State, cfg: Config, n: nat): State
    decreases n
  {
    if n == 0 || !Idle(s) then s else Retries(RetryCycle(s, cfg), cfg, n - 1)
  }

  lemma CycleStep(s: State, cfg: Config)
    requires Idle(s) && cfg.autoReconnect && s.attempts < cfg.maxAttempts
    ensures NextDelay(s, cfg) == Some(Backoff(s.attempts + 1))
    ensures Idle(RetryCycle(s, cfg))
    ensures RetryCycle(s, cfg).attempts == s.attempts + 1
  {
    var c := SocketClose(s, cfg, s.current.value);
    assert c.timers == [Timer(s.nextTimer, Backoff(s.attempts + 1))];
    assert HasTimer(c.timers, s.nextTimer) by { assert c.timers[0].id == s.nextTimer; }
  }

  lemma RetriesUnfold(s: State, cfg: Config, n: nat)
    requires Idle(s) && n > 0
    ensures Retries(s, cfg, n) == Retries(RetryCycle(s, cfg), cfg, n - 1)
  {
  }

  /** Failed cycles keep the hook idle between cycles and count one attempt
      each, as long as attempts remain. */
  lemma {:induction false} RetriesIdle(s: State, cfg: Config, n: nat)
    requires Idle(s) && cfg.autoReconnect && s.attempts + n <= cfg.maxAttempts
    ensures Idle(Retries(s, cfg, n)) && Retries(s, cfg, n).attempts == s.attempts + n
    decreases n
  {
    if n > 0 {
      CycleStep(s, cfg);
      RetriesUnfold(s, cfg, n);
      RetriesIdle(RetryCycle(s, cfg), cfg, n - 1);
    }
  }

  /** Consecutive failed cycles schedule the delays Backoff(a+1),
      Backoff(a+2), ... where `a` is the counter at the start. */
  lemma RetryDelays(s: State, cfg: Config, n: nat)
    requires Idle(s) && cfg.autoReconnect && s.attempts + n <= cfg.maxAttempts
    ensures Idle(Retries(s, cfg, n)) && Retries(s, cfg, n).attempts == s.attempts + n
    ensures forall i :: 0 <= i < n ==> NextDelay(Retries(s, cfg, i), cfg) == Some(Backoff(s.attempts + i + 1))
  {
    RetriesIdle(s, cfg, n);
    forall i | 0 <= i < n
      ensures NextDelay(Retries(s, cfg, i), cfg) == Some(Backoff(s.attempts + i + 1))
    {
      DelayAt(s, cfg, i);
    }
  }

  lemma DelayAt(s: State, cfg: Config, i: nat)
    requires Idle(s) && cfg.autoReconnect && s.attempts + i < cfg.maxAttempts
    ensures NextDelay(Retries(s, cfg, i), cfg) == Some(Backoff(s.attempts + i + 1))
  {
    RetriesIdle(s, cfg, i);
    CycleStep(Retries(s, cfg, i), cfg);
  }

  /** From a fresh connection with the default maximum of five attempts,
      five failed cycles schedule 2000, 4000, 8000, 16000 and 30000 ms, and
      the sixth close schedules no timer. */
  lemma DefaultRetrySchedule(cfg: Config)
    requires cfg.autoReconnect && cfg.maxAttempts == DefaultMaxAttempts
    ensures var s := Connect(Initial);
      && NextDelay(Retries(s, cfg, 0), cfg) == Some(2000)
      && NextDelay(Retries(s, cfg, 1), cfg) == Some(4000)
      && NextDelay(Retries(s, cfg, 2), cfg) == Some(8000)
      && NextDelay(Retries(s, cfg, 3), cfg) == Some(16000)
      && NextDelay(Retries(s, cfg, 4), cfg) == Some(30000)
      && NextDelay(Retries(s, cfg, 5), cfg) == None
  {
    var s := Connect(Initial);
    RetryDelays(s, cfg, 5);
    BackoffDelays();
    var last := Retries(s, cfg, 5);
    assert SocketClose(last, cfg, last.current.value).timers == last.timers;
  }

  // ---------------------------------------------------------------------
  // Close events of a socket that is no longer current.

  /** As written, the close handler is not tied to `wsRef.current`. The
      socket `disconnect()` closes still delivers its close event, and that
      event schedules a reconnect whose timer later opens a new socket:
      the hook comes back after it was told to disconnect. */
  lemma DisconnectThenCloseReconnects(cfg: Config)
    requires cfg.autoReconnect && cfg.maxAttempts == DefaultMaxAttempts
    ensures
      var started := Run(Initial, cfg, [ConnectCall, OpenEvent(0)]);
      var afterClose := SocketClose(Disconnect(started), cfg, 0);
      && Disconnect(started).current == None
      && afterClose.timers == [Timer(1, 2000)]
      && TimerFire(afterClose, 1).current == Some(1)
  {
    var started := Run(Initial, cfg, [ConnectCall, OpenEvent(0)]);
    assert started == SocketOpen(Connect(Initial), cfg, 0);
    assert started.attempts == 0 && started.timers == [] && started.nextTimer == 1;
    assert started.sockets == [Open] && started.current == Some(0);
    var d := Disconnect(started);
    assert d.sockets == [Closing] && d.timers == [] && d.attempts == 0;
    var c := SocketClose(d, cfg, 0);
    assert c.timers == [Timer(1, 2000)];
    assert HasTimer(c.timers, 1) by { assert c.timers[0].id == 1; }
  }

  /** The close handler restricted to the current socket: a stale socket's
      close event only records that the socket closed. */
  function SocketCloseGuarded(s: State, cfg: Config, k: nat): (r: State)
    ensures s.current != Some(k) ==>
      && r.timers == s.timers && r.attempts == s.attempts && r.timerRef == s.timerRef
      && r.current == s.current && r.connected == s.connected && r.connecting == s.connecting
    ensures s.current == Some(k) ==> r == SocketClose(s, cfg, k)
  {
    if s.current == Some(k) then SocketClose(s, cfg, k)
    else if k < |s.sockets| then s.(sockets := s.sockets[k := Closed])
    else s
  }

  /** With the guarded handler, no close event after `disconnect()` can
      schedule a reconnect or mark the hook connected again. */
  lemma GuardedCloseAfterDisconnect(s: State, cfg: Config, k: nat)
    ensures SocketCloseGuarded(Disconnect(s), cfg, k).timers == Disconnect(s).timers
    ensures SocketCloseGuarded(Disconnect(s), cfg, k).current == None
    ensures !SocketCloseGuarded(Disconnect(s), cfg, k).connected
  {
  }
}
